=== FILE: README.md ===
# EduLearn backend core in Dafny

This project models the request handlers of the EduLearn course-marketplace backend. The
model is a set of pure functions over an in-memory store of the five collections: users,
courses, resources, enrollments and ratings. Every handler becomes a function from a store
and the request's inputs to `Result<Reply<Store, T>>`. A reply holds the new store and the
answer body. An error carries the status class and a message, and every error leaves the
store as it was. Where the handler writes a fixed message, the model carries that text.
Where a catch forwards `error.message` from the database driver or Mongoose, the model
carries a fixed stand-in that names the failure; see "Left out". Read-only handlers return their answer directly.

The modules follow the source layout:

- `Schema` holds the five Mongoose models as datatypes. It also holds the closed value sets
  of their enums, the `trim`/`lowercase` setters, the defaults of a new document, and the
  store invariant `StoreInv`. That invariant holds the schema validators of the stored
  fields it models (see "Left out" for the rest), every unique index, and completed-resource ids stored in the lower-case form an ObjectId prints as.
  It also holds two properties no schema enforces but every handler keeps: a certificate
  sub-record is either unissued and empty or issued and complete, and progress agrees with
  status: progress 100 means completed, and any progress above 0 means started.
- `Enrollments` covers enrolling, the two progress-update paths with their clamp and status
  thresholds, lesson completion, and the enrollment reads with their access rules.
- `Certificates` covers one-shot, idempotent certificate issuance and the two certificate
  reads.
- `Ratings` covers adding, re-rating and deleting a rating, and the recomputation of each
  course's cached `rating`/`totalRatings`. The cached rating is kept in exact tenths. It
  also covers the paginated rating listing with its star distribution.
- `Courses` covers the filtered, paginated catalogue and course creation, update and
  deletion with the owner-or-admin gate.
- `Resources` covers the active-resource listing and the gated create, update and delete.
- `Users` covers registration, login, the profile read and its whitelisted update, and the
  enrolled-course list.
- `Admin` covers the administrator routes: listings, platform stats, status and role
  changes, and user deletion with its enrollment cascade.
- `Analytics` covers the three dashboards: instructor, single course and platform.
- `Seqs`, `Groups` and `Outcomes` are shared building blocks:
  - `Seqs` provides first-match lookup, filtering, a stable descending sort and pagination.
  - `Groups` provides the keyed sums behind `reduce` into an object and `$group`/`$sum`.
  - `Outcomes` provides `Option` and `Result`.

Some inputs are parameters of the model rather than behaviour inside it:

- The clock (`now`) and every fresh identifier: the Mongo `_id` and `crypto.randomUUID()`.
- Password hashing (`hash`) and comparison (`matches`).
- The `isEmail` check and the `normalizeEmail` sanitiser.
- The evaluation of a `$text` search (`textMatch`).

A fresh identifier that collides with a stored one takes the unique-index error path. So
no freshness precondition is needed.

In several places the code does not do what its names and messages suggest. The model
follows the code:

- Status is not a function of progress. A progress of 0 or below keeps the previous status,
  so a completed enrollment can sit at progress 0 (`Enrollments.StatusCanDisagreeWithProgress`).
  The status never returns to `not_started`.
- `updateProgress` does not record the resource it is given (see Findings).
- The profile read returns the stored password hash (see Findings).
- A duplicate enrollment answers 400 "Already enrolled in this course", not a separate
  conflict status.
- The handlers for progress updates and for ratings never consult their express-validator
  chains. So a progress outside 0..100 is clamped rather than rejected. A score outside
  1..5, or an overlong review, fails the Mongoose validators at `save`, and the handler's
  catch turns that into a 500.
- The cached course rating is `Math.round(avg * 10) / 10`, which is half-up rounding of the
  mean to tenths. For integer scores that is `(20 * sum + n) / (2 * n)` tenths, with
  integer division. The dashboards' `$round` rounds half to even.

## Model

| member | source | states |
|---|---|---|
| Schema.ParseRole | models/User.js:27-32 | a role string is accepted exactly when it is the name of one of the three roles, and maps back to that name |
| Schema.ParseCategory | models/Course.js:32-36 | a category is accepted exactly when it is one of the six enum names |
| Schema.ParseLevel | models/Course.js:37-41 | a level is accepted exactly when it is beginner, intermediate or advanced |
| Schema.ParseKind | models/Resource.js:19-23 | a resource type is accepted exactly when it is one of the five enum names |
| Schema.Trim | models/Course.js:9-13 | the `trim` setter result has no JavaScript white space (the `\s` set, Unicode spaces and line terminators included) at either end, is no longer than the input, and is empty exactly when the input is all white space |
| Schema.TrimIdempotent | models/Course.js:9-13 | trimming an already trimmed string changes nothing |
| Schema.Lower | models/User.js:15-21 | the `lowercase` setter keeps the length, maps each character independently and leaves no upper-case ASCII letter |
| Schema.StoredEmailIdempotent | models/User.js:15-21 | storing an already stored (lower-cased, trimmed) email again changes nothing |
| Schema.Utf16Length | models/Rating.js:20-23 | the length Mongoose's `maxlength` compares: one unit per character and two for a character outside the Basic Multilingual Plane, so between the character count and twice it |
| Schema.ValidatorLength | routes/users.js:14-19 | the length express-validator's `isLength` compares: the characters other than the variation selectors U+FE0E and U+FE0F, never more than the character count |
| Schema.IsObjectIdString | controllers/ratingController.js:75 | a course id passes `ObjectId.isValid` exactly when it is 24 hexadecimal digits |
| Schema.ObjectIdText | models/Enrollment.js:38-42 | casting a valid id string to an ObjectId and back gives the same 24 digits with the hexadecimal letters in lower case, and that form casts to itself |
| Schema.StoreInv | models/Enrollment.js:3-67 | a store is consistent when every document meets its schema validators (the required public ids, names, titles, e-mail and URL non-empty, the enums, bounds and trimmed text), every unique index holds, stored completed-resource ids are in canonical form, and every enrollment has a well-formed certificate, progress 100 only when completed and progress above 0 only when started |
| Schema.FindUser | controllers/userController.js:115-118 | `findById` returns the first user with that `_id`, and none exactly when no user has it |
| Schema.FindEnrollmentFor | controllers/enrollmentController.js:19 | `findOne({ userId, courseId })` returns the first enrollment of that pair, and none exactly when the pair is not enrolled |
| Schema.FindRatingFor | controllers/ratingController.js:21-22 | `findOne({ userId, courseId })` over ratings returns the first rating of that pair, and none exactly when there is none |
| Schema.NewEnrollment | models/Enrollment.js:23-62 | a new enrollment is at progress 0, `not_started`, with no completed resources and an unissued certificate with no id, URL or date, and satisfies the enrollment invariant |
| Schema.UsersInvAppend | models/User.js:5-21 | appending a valid user whose `_id`, `userId` and email are all new keeps every user valid and each of the three keys unique |
| Schema.RatingsInvAppend | models/Rating.js:14-33 | appending a valid rating with a new `_id` and a new (user, course) pair keeps scores in 1..5, reviews within 1000 characters and both keys unique |
| Schema.EnrollmentsInvUpdate | models/Enrollment.js:4-67 | replacing an enrollment by a valid one with the same keys keeps the enrollment invariant and its three unique indexes |
| Schema.CoursesInvReplace | models/Course.js:4-8 | replacing a course by a valid one with the same `_id` and a `courseId` no other course holds keeps both course indexes unique |
| Schema.ResourcesInvReplace | models/Resource.js:4-8 | replacing a resource by a valid one with the same `_id` and a `resourceId` no other resource holds keeps both resource indexes unique |
| Schema.FindEnrollmentForUpdate | controllers/enrollmentController.js:258 | after an enrollment is rewritten in place with the same user and course, `findOne({ userId, courseId })` still finds it at the same position |
| Seqs.UniqueByReplace | models/Course.js:4-8 | replacing an element by one whose key occurs at no other position keeps a unique key unique |
| Seqs.FilterFilter | controllers/analyticsController.js:50-60 | filtering the filtered list by a second condition is filtering once by both conditions |
| Seqs.OrDefault | controllers/courseController.js:7-8 | `parseInt(q)` falling back to a non-zero default: an absent, unparsable or zero parameter takes the default, any other value is kept, so the result is never 0 |
| Seqs.Window | controllers/courseController.js:39-41 | `skip` then `limit`: the page holds the elements from position `skip` on, as many as `count` allows and the list still has, in order |
| Groups.GroupSums | controllers/analyticsController.js:128-135 | the `reduce` into an object keyed by category: one group per key, each summing the weights of exactly its elements |
| Groups.GroupSumsValueAt | controllers/analyticsController.js:128-135 | the group at each position totals the weights of exactly the elements with its key |
| Groups.GroupSumsOrder | controllers/analyticsController.js:128-135 | the groups come in the order in which their keys first occur among the elements, as the keys of the accumulator object are created |
| Enrollments.Clamp | controllers/enrollmentController.js:84-87 | the stored progress lies in [0, 100] and is the point of that interval nearest to the requested progress |
| Enrollments.NextStatus | controllers/enrollmentController.js:89-93 | the status is completed exactly when progress is at least 100 or is at most 0 with a completed previous status; it is in progress exactly when progress is strictly between 0 and 100, or at most 0 with an in-progress previous status; it is not started only if it was before |
| Enrollments.StatusIgnoresClamping | controllers/enrollmentController.js:84-93 | deciding the status on the raw or on the clamped progress gives the same status |
| Enrollments.StatusCanDisagreeWithProgress | controllers/enrollmentController.js:89-93 | a completed enrollment updated to progress 0 stays completed at progress 0 |
| Enrollments.ApplyProgress | controllers/enrollmentController.js:108-119 | a progress update writes the clamped progress, the derived status and the access time, changes no other field, and keeps full progress coupled to completion |
| Enrollments.PushEnrolledCourse | controllers/enrollmentController.js:37-44 | the `$push` appends exactly one entry to the list of the user with that `_id`, and changes nothing when no such user exists |
| Enrollments.EnrollInCourse | controllers/enrollmentController.js:6-62 | a missing course gives 404, an already-enrolled pair gives 400, a clash of the new `_id` or `enrollmentId` gives the 400 duplicate-key error, and otherwise exactly one default enrollment is appended and one course entry pushed onto the user; the course record is untouched |
| Enrollments.EnrollPreservesInv | controllers/enrollmentController.js:27-44 | a successful enrollment keeps the store invariant, including one enrollment per (user, course) |
| Enrollments.EnrollTwiceFails | controllers/enrollmentController.js:19-25 | enrolling the same pair again, with any fresh ids, is refused with "Already enrolled in this course" |
| Enrollments.UpdateProgress | controllers/enrollmentController.js:64-132 | 404 for a missing enrollment and 403 for a caller other than its user; then 400 with the TypeError exactly when a truthy resource id meets an entry without an id first, else 400 with the cast error exactly when progress is absent, else success; a success writes the clamped progress, the derived status and the access time to that enrollment alone and leaves its completed resources as they were |
| Enrollments.UpdateProgressPreservesInv | controllers/enrollmentController.js:84-119 | a progress update keeps the store invariant |
| Enrollments.ScanCompleted | controllers/enrollmentController.js:96-98 | `completedResources.find(r => r.resourceId.toString() === id)` finds the first entry recording `id` only when every earlier entry has a different id; it finds nothing exactly when every entry has an id other than `id`; and it throws only when some entry has no id |
| Enrollments.ScanAppend | controllers/enrollmentController.js:267-275 | after entries that do not stop the lookup, a newly pushed entry that does is where the lookup ends, throwing when that entry has no id |
| Enrollments.UpdateProgressDropsResource | controllers/enrollmentController.js:95-119 | a resource named in a successful progress update and not recorded before is still not recorded after it |
| Enrollments.UpdateProgressRecording | controllers/enrollmentController.js:95-106 | the corrected update has the same 404/403 gate and succeeds exactly when progress is given and a truthy resource id is a well-formed ObjectId; a success records that resource in canonical form, records nothing when none is named, and keeps recorded ids unique |
| Enrollments.RecordOnce | controllers/enrollmentController.js:266-275 | after recording, the id is present; an id already present leaves the list unchanged, a new one appends exactly one entry, and recorded ids stay unique |
| Enrollments.MarkLessonComplete | controllers/enrollmentController.js:252-292 | no enrollment for the pair gives 404; a lookup that meets an entry without an id gives 500; a lesson found as sent changes nothing, not even the access time; otherwise one entry with the cast id (unset for an absent `lessonId`) is pushed and the access time set, and a `lessonId` that is not an ObjectId fails the save with 500 |
| Enrollments.MarkLessonIdempotent | controllers/enrollmentController.js:266-279 | for a lesson id sent in the canonical lower-case form, marking it a second time, at any time, answers the same enrollment and leaves the store unchanged |
| Enrollments.MarkLessonRepeatsNonCanonical | controllers/enrollmentController.js:266-279 | as written, a valid lesson id with upper-case hex digits is stored in lower case, so the next request with the same id does not find it and pushes a second entry |
| Enrollments.MarkLessonAbsentBreaks | controllers/enrollmentController.js:266-279 | as written, once a request without `lessonId` has succeeded, every later request with no lesson id or a lesson not recorded before answers 500 |
| Enrollments.StoredLessonId | models/Enrollment.js:38-42 | the pushed entry holds no id exactly when the body has none, and otherwise the canonical form of the body's id |
| Enrollments.MarkLessonOnce | controllers/enrollmentController.js:266-279 | the corrected completion: 404 without an enrollment, 400 without `lessonId`, 500 for an id that is not an ObjectId; otherwise a lesson already recorded in canonical form changes nothing and a new one is appended once, keeping recorded ids unique |
| Enrollments.MarkLessonOnceIdempotent | controllers/enrollmentController.js:266-279 | the corrected completion is idempotent for every request, whatever the spelling of the id |
| Enrollments.MarkLessonOnceAgrees | controllers/enrollmentController.js:266-279 | on a canonical id and an enrollment whose entries all carry an id, the corrected completion answers exactly as the code as written |
| Enrollments.MarkLessonPreservesInv | controllers/enrollmentController.js:266-279 | lesson completion keeps the store invariant, in particular every stored completed-resource id in canonical form |
| Enrollments.UpdateCourseProgress | controllers/enrollmentController.js:294-330 | no enrollment for the pair gives 404; an absent progress fails the save with 500; otherwise that enrollment gets the same clamp and status rule as the other progress path, keeps its completed resources, and nothing else changes |
| Enrollments.UpdateCourseProgressPreservesInv | controllers/enrollmentController.js:308-315 | the course-progress update keeps the store invariant |
| Enrollments.GetEnrollmentById | controllers/enrollmentController.js:161-204 | 404 exactly when the enrollment is missing; 500 exactly when its user is gone; otherwise 403 exactly when the caller is neither its user nor an admin, and the stored enrollment exactly when the caller is |
| Enrollments.UpdateProgressThenGet | controllers/enrollmentController.js:64-204 | after a successful progress update, reading the enrollment back returns what the update answered, for any role, while its user exists |
| Enrollments.GetEnrollmentStatus | controllers/enrollmentController.js:206-250 | the caller's first enrollment in the course whenever there is one; without one, 404 exactly for a student and an empty success exactly for an instructor or admin |
| Enrollments.EnrollThenStatus | controllers/enrollmentController.js:6-250 | after a successful enrollment, the status read of that course answers the new enrollment, whatever the caller's role |
| Enrollments.GetUserEnrollments | controllers/enrollmentController.js:134-159 | each of the caller's enrollments exactly as often as it is stored (a permutation of them), newest enrollment date first |
| Certificates.Mint | controllers/certificateController.js:41-52 | a minted certificate is issued, stamped now, carries the fresh id and the URL "/certificates/" + id + ".png", and is well formed |
| Certificates.GenerateCertificate | controllers/certificateController.js:6-73 | no enrollment gives 404 and an enrollment short of progress 100 and completed gives 400, both changing nothing; otherwise the first call stores a minted certificate and later calls write nothing; the answer is that stored certificate, or 500 exactly when the user, the course or its instructor is gone, in which case the certificate is still saved |
| Certificates.GenerateIdempotent | controllers/certificateController.js:41-65 | repeating any issuance request with any fresh id and clock answers the same and writes nothing more |
| Certificates.GeneratePreservesInv | controllers/certificateController.js:41-52 | every issuance request keeps the store invariant, including a well-formed certificate sub-record |
| Certificates.GateIsFullProgress | controllers/certificateController.js:33-38 | under the store invariant the issuance gate holds exactly when progress is 100 |
| Certificates.MayIssue | controllers/certificateController.js:33-38 | the completion gate: progress at least 100 and status completed |
| Certificates.Orphaned | controllers/certificateController.js:60-62 | the response reads through a reference that did not resolve: the enrollment's user, its course or the course's instructor is gone |
| Certificates.CourseOrphaned | controllers/certificateController.js:143-146 | the enrollment's course or that course's instructor is gone |
| Certificates.GetCertificate | controllers/certificateController.js:75-119 | 404 exactly when the enrollment is missing or its certificate is not issued; for an issued one, 500 exactly when the user, the course or its instructor is gone, and otherwise the stored certificate |
| Certificates.GenerateThenGet | controllers/certificateController.js:54-119 | what issuance answers is what a later read answers; an issuance that failed on a missing user, course or instructor makes the read fail the same way |
| Certificates.IssuedOf | controllers/certificateController.js:125-137 | a permutation of the caller's enrollments with an issued certificate, most recently issued first |
| Certificates.GetUserCertificates | controllers/certificateController.js:121-160 | 500 exactly when one of the caller's issued enrollments has lost its course or instructor; otherwise one entry per issued certificate of the caller, every entry issued and from the caller's enrollments, ordered by issue time, newest first |
| Ratings.ScoreSumBounds | models/Rating.js:14-19 | with scores in 1..5, a course's score sum lies between its rating count and five times that count |
| Ratings.StarsPartition | controllers/ratingController.js:95-118 | with scores in 1..5, the five star counts add up to the rating count |
| Ratings.RoundedTenths | controllers/ratingController.js:208-212 | the cached rating in tenths is within half a tenth of the exact mean, halves rounding up |
| Ratings.RoundedTenthsUnique | controllers/ratingController.js:211 | exactly one number of tenths meets that rounding condition |
| Ratings.RoundedTenthsBounds | controllers/ratingController.js:211 | a mean of scores in 1..5 rounds to between 1.0 and 5.0 |
| Ratings.CacheOf | controllers/ratingController.js:195-222 | the cached count is the number of the course's ratings; the cached rating is their rounded mean, or 0 when there are none |
| Ratings.CacheInRange | controllers/ratingController.js:208-217 | the cached rating lies in [0, 5], and in [1, 5] when the course has a rating |
| Ratings.RecomputeCache | controllers/ratingController.js:195-222 | recomputation writes only the two cached fields of that course, skips a missing course, and leaves that course consistent with its ratings |
| Ratings.RecomputeRestoresAll | controllers/ratingController.js:195-222 | after a change confined to one course's ratings, recomputing that course makes every course's cache consistent again |
| Ratings.AddRating | controllers/ratingController.js:6-67 | a caller without an enrollment gets 403 and nothing changes; a re-rating overwrites only score and review and keeps `isVerified`; a new rating is verified exactly when the enrollment is completed; schema failures give 500; every success recomputes the cache |
| Ratings.AddRatingCount | controllers/ratingController.js:21-51 | after a successful add the caller has one rating for the course, and the course's count grew by one exactly when there was none before |
| Ratings.AddRatingPreservesInv | controllers/ratingController.js:21-51 | adding or re-rating keeps the store invariant |
| Ratings.AddRatingKeepsCaches | controllers/ratingController.js:21-51 | adding or re-rating keeps every course's cached fields consistent with the ratings |
| Ratings.DeleteRating | controllers/ratingController.js:165-192 | no rating by the caller gives 404 and changes nothing; otherwise that rating is removed and the course's cache recomputed |
| Ratings.DeleteRatingEffect | controllers/ratingController.js:170-179 | deletion lowers the course's count by exactly one and leaves no rating of the caller for that course |
| Ratings.DeleteRatingPreservesInv | controllers/ratingController.js:165-192 | deletion keeps the store invariant |
| Ratings.DeleteRatingKeepsCaches | controllers/ratingController.js:165-192 | deletion keeps every course's cached fields consistent with the ratings |
| Ratings.GetUserRating | controllers/ratingController.js:144-163 | the caller's rating of the course, and none exactly when the caller has not rated it |
| Ratings.StatsOf | controllers/ratingController.js:95-118 | the statistics count the course's ratings, each star bucket counts exactly the course's ratings with that score, the average is the exact mean, and all are zero when there is no rating |
| Ratings.StarsCount | controllers/ratingController.js:107-111 | the `$cond` sum of a star bucket equals the number of the course's ratings with that score |
| Ratings.StatsConsistent | controllers/ratingController.js:95-118 | with scores in 1..5 the star buckets add up to the total and the average lies in [1, 5] when there is a rating |
| Ratings.GetCourseRatings | controllers/ratingController.js:69-142 | a malformed course id gives 400; a negative skip gives 500; otherwise the statistics cover all the course's ratings, the pagination reports the page, limit, total and `Math.ceil(total / limit)` pages, and the page is the window of the newest-first list at skip (page - 1) * limit, as long as the limit allows |
| Ratings.GetCourseRatingsPage | controllers/ratingController.js:86-90 | the page holds only ratings of that course, newest first |
| Ratings.NewestFirst | controllers/ratingController.js:86-90 | exactly the course's ratings, newest first |
| Courses.BuildQuery | controllers/courseController.js:17-35 | the filter always asks for active courses, has a text, category, level or price condition exactly when the query gives that parameter, and carries a price bound that is not a number exactly when the query gives one |
| Courses.Listing | controllers/courseController.js:37-43 | exactly the courses that satisfy the filter, each as often as the collection holds it, newest first |
| Courses.BuildQueryMeaning | controllers/courseController.js:17-35 | a course is listed exactly when it is active, matches category and level when given, lies within the inclusive price bounds when given, and matches the text search when given |
| Courses.GetAllCourses | controllers/courseController.js:5-61 | a minimum or maximum price that does not parse as a number gives the 500 answer of the failed Number cast, and so does a negative skip, and nothing else fails; otherwise the pagination has page default 1, limit default 10, the total of all matches and pages = ceil(total / limit), and the page is the window of the newest-first matches that starts at (page - 1) * limit and holds up to the absolute value of limit of them |
| Courses.GetAllCoursesPage | controllers/courseController.js:37-53 | the page holds only matching courses of the collection, newest first |
| Courses.GetCourseById | controllers/courseController.js:63-85 | the course with that `_id`, active or not, and 404 exactly when there is none |
| Courses.GetInstructorCourses | controllers/courseController.js:193-232 | an instructor gets exactly their own courses and anyone else every course, each as often as the collection holds it, newest first |
| Courses.CreateThenInstructorListing | controllers/courseController.js:87-114 | a course an instructor creates appears once more in their own course listing, and every other instructor's listing keeps the same courses |
| Courses.NewCourse | controllers/courseController.js:87-96 | the saved course has the caller as instructor, the fresh `courseId` whatever the body sends, the trimmed title, description and duration, the body's other fields and the schema defaults (empty lists, active, no students, rating 0), and is valid |
| Courses.CreateCourse | controllers/courseController.js:87-114 | a body missing a required field or failing a schema validator gives 400 and changes nothing; then a taken `_id` or `courseId` gives 400 exactly when it is taken; otherwise exactly one course is appended |
| Courses.CreateCoursePreservesInv | controllers/courseController.js:87-114 | course creation keeps the store invariant |
| Courses.ApplyBody | controllers/courseController.js:134-145 | an update keeps the `_id` and creation time, writes the body's `courseId` when it sends one and the trimmed title, description and duration, and keeps objectives, requirements and modules when the body omits them |
| Courses.TrimmedOr | routes/courses.js:15-17 | a text field the body sets is stored trimmed, and an omitted one keeps its stored value |
| Courses.FieldsValid | models/Course.js:9-58 | the schema validators of the fields a body sets, applied to the text left by the route's trim sanitizer: non-blank title, description and duration, a price of at least 0, a known category and level, a rating in [0, 5] |
| Courses.Updatable | models/Course.js:4-8 | an update body also needs a non-empty `courseId` when it sets one |
| Courses.Creatable | models/Course.js:9-41 | a new course also needs every required field without a default: title, description, duration, price, category and level |
| Courses.ApplyBodyValid | controllers/courseController.js:141-145 | an update that passes the validators keeps a valid course valid |
| Courses.UpdateCourse | controllers/courseController.js:116-158 | 404 for a missing course; 403 for a caller who is neither owner nor admin; 400 exactly when a field the body sets fails its schema validator; then 400 exactly when the new `courseId` is another course's; otherwise success, in which only that course changes |
| Courses.EmptyUpdateIsNoOp | controllers/courseController.js:134-145 | an update that sets nothing leaves the store unchanged |
| Courses.Resend | controllers/courseController.js:134-139 | the body that sends back a stored course carries its `courseId` and title and names its category and level so that they parse back to the stored values |
| Courses.ResendIsNoOp | controllers/courseController.js:116-158 | sending a stored course back unchanged, with its text already trimmed, succeeds for its owner or an admin and leaves the store exactly as it was |
| Courses.UpdateCoursePreservesInv | controllers/courseController.js:116-158 | course update keeps the store invariant |
| Courses.DeleteCourse | controllers/courseController.js:160-190 | a missing course gives 404 and a caller who is neither owner nor admin 403; every other caller succeeds, and only the course is removed while its enrollments, resources and ratings stay |
| Courses.DeleteCourseRemoves | controllers/courseController.js:178 | after a deletion no course with that `_id` remains |
| Courses.DeleteCoursePreservesInv | controllers/courseController.js:160-190 | course deletion keeps the store invariant |
| Resources.GetCourseResources | controllers/resourceController.js:5-24 | exactly the course's active resources, as a permutation of them, in ascending order |
| Resources.NewResource | controllers/resourceController.js:44-50 | the saved resource has the fresh `resourceId`, the body's fields and the schema defaults (order 1, active, empty duration) |
| Resources.CreateResource | controllers/resourceController.js:26-63 | a missing course gives 404 and a caller who is neither its owner nor an admin 403, both creating nothing; an invalid body gives 400; then a taken `_id` or `resourceId` gives 400 exactly when it is taken; otherwise exactly one resource with the fresh `resourceId` is appended |
| Resources.CreateResourcePreservesInv | controllers/resourceController.js:44-50 | resource creation keeps the store invariant |
| Resources.CheckResource | controllers/resourceController.js:67-84 | the gate finds a missing resource, a resource whose course is gone, a caller who is neither owner nor admin, or the resource's position for an allowed caller |
| Resources.ApplyBody | controllers/resourceController.js:86-90 | an update keeps the `_id` and creation time, writes the body's `resourceId` when it sends one and the trimmed title, and keeps the course, order and active flag when the body omits them |
| Resources.FieldsValid | models/Resource.js:14-27 | the schema validators of the fields a body sets: non-blank title after the trim sanitizer, a known type, a non-empty url |
| Resources.Updatable | models/Resource.js:4-8 | an update body also needs a non-empty `resourceId` when it sets one |
| Resources.Creatable | models/Resource.js:9-27 | a new resource also needs course, title, type and url |
| Resources.UpdateResource | controllers/resourceController.js:65-103 | 404 for a missing resource, 400 for a resource whose course is gone, 403 for a caller who is neither owner nor admin, 400 exactly when a field the body sets fails its schema validator; then 400 exactly when the new `resourceId` is another resource's; otherwise success, in which only that resource changes |
| Resources.UpdateResourcePreservesInv | controllers/resourceController.js:86-90 | resource update keeps the store invariant |
| Resources.DeleteResource | controllers/resourceController.js:105-138 | 404 for a missing resource, 403 for a caller who is neither owner nor admin, 500 for a resource whose course is gone; otherwise exactly that resource is removed |
| Resources.DeleteResourceExact | controllers/resourceController.js:126 | a deletion removes one resource, leaves none with that `_id` and keeps every other one |
| Users.PublicIgnoresPassword | routes/admin.js:12 | the `-password` view does not depend on the stored password and keeps id, email and role |
| Users.NewUser | controllers/userController.js:27-37 | the new user has the trimmed name, the hashed password, the normalised email, role student unless one is given, an empty course list, an empty avatar and is active |
| Users.Register | controllers/userController.js:6-60 | a failing validator gives 400; then a taken email gives 400; then an empty stored email gives 400 from the schema and a taken `_id` or `userId` 400 from the index, each exactly when it happens; otherwise exactly one user is appended and the answer is its five-field account: id, userId, name, email and role |
| Users.RegisterValid | routes/users.js:14-19 | the register chain: at least two characters of trimmed name and six of password as `isLength` counts them, a passing `isEmail`, and a known role when one is given |
| Users.LoginValid | routes/users.js:21-24 | the login chain: a passing `isEmail` and a non-empty password |
| Users.EmailKey | models/User.js:15-21 | the key an address is looked up and stored under: the normalised address through the `lowercase` and `trim` setters |
| Users.RegisterPreservesInv | controllers/userController.js:27-45 | registration keeps the store invariant, including unique emails |
| Users.RegisterTwiceFails | controllers/userController.js:19-25 | registering the same normalised email again is refused |
| Users.Login | controllers/userController.js:62-113 | a failing validator gives 400; every other failure is the same 401 with the same message; a success answers the five-field account of a stored user with that email whose password matches |
| Users.LoginExact | controllers/userController.js:75-89 | with unique emails, login succeeds exactly when the password matches that user's stored hash |
| Users.RegisterThenLogin | controllers/userController.js:6-113 | a freshly registered user can log in with the same address and password |
| Users.GetUserProfile | controllers/userController.js:115-132 | the caller's stored document, password hash included, and none exactly when the caller is gone |
| Users.ProfileExposesPasswordHash | controllers/userController.js:115-132 | the profile answer carries the stored password hash |
| Users.GetPublicProfile | controllers/userController.js:115-132 | the caller's document without the password, and none exactly when the caller is gone |
| Users.PublicProfileIgnoresPassword | controllers/userController.js:115-132 | changing any stored password hash leaves the corrected profile answer unchanged |
| Users.UpdateUserProfile | controllers/userController.js:134-162 | only name (trimmed) and avatar change, each only when given a non-empty value; every other field and user stays; an empty trimmed name gives 400 |
| Users.ApplyProfile | controllers/userController.js:136-145 | the whitelisted update: trimmed name and avatar, each only when truthy |
| Users.UpdateProfilePreservesInv | controllers/userController.js:134-162 | the profile update keeps the store invariant |
| Users.UpdateProfileIdempotent | controllers/userController.js:136-145 | sending the same profile update twice leaves the store as sending it once |
| Users.GetUserCourses | controllers/userController.js:164-201 | a caller who is neither that user nor an admin gets 403; a missing user 404; otherwise that user's enrolled-course list |
| Users.EnrollShowsInUserCourses | controllers/enrollmentController.js:37-44 | after enrolling, the user's course list is the old one plus exactly one entry for the course |
| Admin.ListUsers | routes/admin.js:10-23 | every user, once each, without the password, newest first |
| Admin.ListCourses | routes/admin.js:26-41 | a permutation of all courses, newest first |
| Admin.PriceOf | routes/admin.js:53-55 | an enrollment contributes its course's price, or 0 when the course is gone |
| Admin.EnrollmentRevenue | routes/admin.js:53-56 | the `reduce` over all enrollments of their course prices |
| Admin.AdminStats | routes/admin.js:44-72 | the three counters are the collection sizes, and the revenue is 0 without enrollments |
| Admin.RevenueNonNegative | routes/admin.js:53-55 | with no negative price the revenue is not negative |
| Admin.RevenueAppend | routes/admin.js:53-55 | one more enrollment adds its course's price to the revenue |
| Admin.EnrollMovesOnlyStatsRevenue | routes/admin.js:53-55 | enrolling raises the stats revenue by the course price while the analytics revenue stays the same |
| Admin.UpdateUserStatus | routes/admin.js:75-104 | a missing user gives 404; otherwise the user's active flag becomes the given value, or stays when none is given |
| Admin.StatusMessage | routes/admin.js:96 | the message names the new state, activated or deactivated |
| Admin.StatusChangesOnlyFlag | routes/admin.js:80-84 | a status update changes the active flag of that one user and nothing else |
| Admin.UpdateStatusPreservesInv | routes/admin.js:80-84 | a status update keeps the store invariant |
| Admin.UpdateUserRole | routes/admin.js:107-143 | a role outside the three names gives 400 even for a missing user, and changes nothing; a missing user gives 404; otherwise only that user's role changes |
| Admin.UpdateRolePreservesInv | routes/admin.js:119-123 | a role update keeps the store invariant |
| Admin.SameRoleIsNoOp | routes/admin.js:119-123 | setting the role a user already has leaves the store unchanged |
| Admin.DeleteUser | routes/admin.js:146-172 | a missing user gives 404 and deletes nothing; otherwise the user and all of their enrollments are removed, and ratings, courses and resources stay |
| Admin.DeleteUserExact | routes/admin.js:150 | the deletion leaves no user with that `_id` and keeps every other user |
| Admin.DeletedUserHasNoEnrollments | routes/admin.js:160 | after the deletion the user has no enrollment and every other user's enrollments are unchanged |
| Admin.DeleteUserPreservesInv | routes/admin.js:146-172 | user deletion keeps the store invariant |
| Analytics.IdsOf | controllers/analyticsController.js:13 | the id set holds exactly the ids of the listed courses |
| Analytics.CoursesOf | controllers/analyticsController.js:12 | exactly the instructor's courses |
| Analytics.Percent | controllers/analyticsController.js:80-85 | a completion rate lies in [0, 100] |
| Analytics.PercentSpec | controllers/analyticsController.js:80-85 | the completion rate is 100 times the completed share of the total |
| Analytics.RoundHalfEvenSpec | controllers/analyticsController.js:86 | `$round` gives an integer within half a unit of the quotient, and the even one on an exact tie |
| Analytics.RoundHalfEvenUnique | controllers/analyticsController.js:86 | exactly one integer meets that rounding condition |
| Analytics.RoundHalfEvenBounds | controllers/analyticsController.js:86 | rounding a quotient between 0 and m stays between 0 and m |
| Analytics.CompletionOf | controllers/analyticsController.js:50-89 | a course has a completion group exactly when it has enrollments; the group counts them, counts exactly those completed, has a rate of 100 times their share and the mean progress rounded half to even to two decimals |
| Analytics.RoundHalfEven | controllers/analyticsController.js:86 | `$round` to an integer of the exact quotient |
| Analytics.CompletionStats | controllers/analyticsController.js:50-89 | the completion group of each instructor course that has enrollments |
| Analytics.RatingStats | controllers/analyticsController.js:92-125 | the rating group of each instructor course that has ratings |
| Analytics.RatingOf | controllers/analyticsController.js:92-125 | a course has a rating group exactly when it has ratings; the group counts them, lists their scores and averages them rounded to one decimal |
| Analytics.TopCourses | controllers/analyticsController.js:138-147 | the smaller of five and the number of courses entries, most students first, each the entry of a stored course with revenue = price * students and listed at most as often as that course is stored, and no course left out has more students than the fifth entry |
| Analytics.TopsPermutation | controllers/analyticsController.js:138-147 | reordering the courses, as the sort does, reorders their top-course entries and keeps each entry as often as before |
| Seqs.MapPermutation | controllers/analyticsController.js:138-147 | mapping each element through the same function commutes with reordering: two reorderings of one another map to two reorderings of one another |
| Analytics.AverageRating | controllers/analyticsController.js:156 | the mean cached rating is 0 without courses, and lies in [0, 5] when every cached rating does |
| Analytics.InstructorAnalytics | controllers/analyticsController.js:7-172 | the overview counts the instructor's courses and the enrollments in them, and lists at most five top courses |
| Analytics.RevenueByCategorySpec | controllers/analyticsController.js:128-135 | the per-category revenues have one entry per category, each summing its courses' price * students, and add up to the total revenue |
| Analytics.RevenueCategoryListed | controllers/analyticsController.js:128-135 | a category has an entry exactly when the instructor teaches a course in it |
| Analytics.CompletionMatchesOverview | controllers/analyticsController.js:17-19 | the completion groups' totals add up to the overview's enrolled count |
| Analytics.CompletionTotals | controllers/analyticsController.js:50-63 | over courses with unique ids, the per-course enrollment totals add up to the enrollments matched by the id list |
| Analytics.CompletionStatsCover | controllers/analyticsController.js:50-89 | every listed course with enrollments has its completion group |
| Analytics.CompletionStatsSound | controllers/analyticsController.js:50-89 | every completion group is that of a listed course |
| Analytics.OverviewRatingInRange | controllers/analyticsController.js:156 | with cached ratings in [0, 5], the overview's mean rating lies in [0, 5] |
| Analytics.CompletionProgressInRange | controllers/analyticsController.js:61-86 | with progress in [0, 100], every group's rounded mean progress lies in [0, 100] |
| Analytics.RatingStatsInRange | controllers/analyticsController.js:99-120 | with scores in 1..5, every group's rounded mean rating lies in [1, 5] |
| Analytics.RoundShift | controllers/analyticsController.js:86 | shifting the quotient by an even integer shifts its `$round` by the same amount |
| Analytics.StatusPartition | controllers/analyticsController.js:195-203 | every enrollment has exactly one of the three statuses |
| Analytics.StatsOf | controllers/analyticsController.js:189-207 | each status count is the number of the course's enrollments with that status, the counts add up to the total, the average progress is the exact mean, and all are zero without enrollments |
| Analytics.CourseAnalytics | controllers/analyticsController.js:174-288 | 404 unless the caller is the course's own instructor, with no exemption for administrators; 500 when the course is theirs but the ObjectId call throws; otherwise the course summary, revenue = price * students, the enrollment statistics of the course (its enrollment count, the completed, in-progress and not-started counts, and the mean progress, or all zeros with no enrollments), and exactly the course's ratings, each as often as stored |
| Analytics.CourseMatchesDashboard | controllers/analyticsController.js:189-207 | when the course has enrollments, the instructor dashboard lists its completion group with the same total and completed counts |
| Analytics.CountsPositive | controllers/analyticsController.js:328-337 | every category group counts at least one course |
| Analytics.CategoryStats | controllers/analyticsController.js:328-337 | one entry per category group, each counting at least one course |
| Analytics.CategoryStatMeaning | controllers/analyticsController.js:328-337 | each category entry counts, sums the students of and averages the ratings of exactly the courses in that category |
| Analytics.AdminAnalytics | controllers/analyticsController.js:290-359 | the three counters are the collection sizes, and the total revenue is 0 without courses |
| Analytics.CategoryStatsUnique | controllers/analyticsController.js:328-337 | no category is listed twice |
| Analytics.CategoryListed | controllers/analyticsController.js:328-337 | a category is listed exactly when some course is in it |
| Analytics.CategoryCountsTotal | controllers/analyticsController.js:328-337 | the category counts add up to the number of courses |
| Analytics.PlatformRevenueByInstructor | controllers/analyticsController.js:296-303 | the platform revenue is the sum over instructors of the revenue each instructor's own dashboard reports |
| Seqs.Paginate | controllers/courseController.js:7-53 | page default 1, limit default 10, skip = (page - 1) * limit; a negative skip is an error; the page is the window of the sorted list at that skip, at most the absolute value of limit long, and pages = ceil(total / limit) |
| Seqs.CeilDiv | controllers/courseController.js:52 | `Math.ceil(total / limit)` for a limit of either sign |
| Seqs.SortDesc | controllers/courseController.js:37-43 | the sort returns a permutation of its input in descending key order |

## Left out

- HTTP wiring, the Express middleware, rate limiting, CORS, static files and the database connection are outside the handlers.
- Authentication is left out: token issuance and verification, and the role gate of each route. The caller's id and role are inputs. This includes the administrator gate in front of every admin route.
- Password hashing and comparison are parameters, so the bcrypt pre-save hook is not modelled.
- `isEmail` and `normalizeEmail` are parameters.
- `$text` search is a parameter, `textMatch`.
- `populate` projections are left out. Answers carry reference ids, not the referenced names, titles or prices.
- A handler that dereferences a populated reference whose document is gone throws, and its catch answers 500. This is modelled where it decides the answer: the enrollment reads, the resource gates and all three certificate handlers. Issuance saves the certificate before it reads the names, so a failed issuance still leaves the certificate stored (`Certificates.GenerateCertificate`). Elsewhere the names are only copied into the answer and are left out with the other projections.
- The date-bucketed series are left out because they depend on the clock. These are enrollments per month and per day, and user growth.
- The unused student-demographics lookup is left out.
- Cast errors from malformed path and query ids are left out. The model does cover the explicit id check of the rating listing, the cast of a lesson id at save, and the cast of a resource id in the corrected progress update. The catch-all 500 handlers for database failures and console logging are left out too.
- Path and query ids are compared as exact strings. Mongoose casts a valid ObjectId spelled with upper-case hexadecimal digits to the same id, so `findById` finds the document; the model answers 404 or "not found" for such a spelling. Stored ids are in the lower-case form, and only that spelling of an existing id is modelled as finding it.
- Messages forwarded from `error.message` are stand-ins. The duplicate-key answer carries `E11000 duplicate key error`, the prefix of the driver's message without the collection, index and key that follow. The negative-skip answer of `Seqs.Paginate` carries a message of its own, not MongoDB's text. The schema validation and cast answers carry the leading part of Mongoose's message, such as `Course validation failed` or `Cast to ObjectId failed`, without the per-path details that follow. The failed price cast of the course listing carries Mongoose's message up to the path, without the model name that follows. The status code and the failing case are modelled exactly.
- The two-document writes are modelled as one atomic step. No transaction exists in the source, and no interleaving is modelled: enrollment plus user push, and rating plus cache recompute.
- Concurrent rating recomputation races are not modelled.
- Money, cached ratings and averages are exact reals, not IEEE doubles.
- Ratings.RoundedTenths: rounds the exact mean. `Math.round(avg * 10)` on a double can differ at an exact .x5 tie that the double representation of `avg * 10` moves.
- Analytics.RoundHalfEvenSpec: `$round` is modelled on the exact quotient. MongoDB rounds the double `$avg`, which can fall on the other side of a tie.
- Analytics.AverageRating: the same floating-point caveat applies to the division by the course count.
- Seqs.SortDesc: equal keys keep their stored order. MongoDB leaves the order of ties unspecified, so answers that differ only in tie order are not modelled.
- Analytics.CategoryStats: groups appear in the order their key first occurs. The order of `$group` output is unspecified in MongoDB.
- Certificates.GetUserCertificates: an entry carries the course id and certificate, but not the populated course title, category and instructor name.
- Schema.StoreInv: the required reference fields are not stated non-empty: a course's instructor, a resource's course, an enrollment's user and course, and a rating's user and course. The handlers copy them from the caller's id or a stored document. The stored password hash is not stated either; the password's required and minimum-length checks are modelled on the raw password before hashing, in `Users.Register`.
- Courses.GetAllCourses: a price parameter arrives as what `parseFloat` makes of it, a number or NaN; the reading of a numeric prefix such as `12abc` as 12 happens before the model. A parameter that is absent or the empty string is `None`, since the handler tests it for truthiness.
- Analytics.CourseAnalytics: the enrollment trend is not modelled, and neither is the populated rater name on each rating.
- Analytics.InstructorAnalytics: enrollments by month are not modelled.
- Analytics.AdminAnalytics: user growth is not modelled.
- Schema.IsObjectIdString: accepts 24 hexadecimal digits only. Older bson releases also accept any 12-character string.
- Schema.Lower: folds ASCII letters only. JavaScript's `toLowerCase` also folds other scripts. The model applies it to e-mail addresses and ObjectId hex text, where ASCII folding decides every case the handlers compare.
- Schema.Trim: strings are sequences of Unicode scalar values, so a lone UTF-16 surrogate, which a JavaScript string can hold, is not modelled.
- Ratings.AddRating: scores are integers. A fractional score such as 4.5 passes the schema's `min`/`max` and would be stored; the model's score type cannot express it.
- Ratings.StarsPartition: holds for integer scores only. With a fractional score the five buckets would miss that rating.
- Ratings.StatsConsistent: the same integer-score restriction applies.
- Enrollments.UpdateProgress: progress is an integer or absent. The source also clamps and stores a fractional progress such as 42.5, which the model's type cannot express. An absent or non-numeric progress becomes NaN, which fails the Number cast; that case is the `None` input.
- Enrollments.UpdateCourseProgress: the same restriction to integer or absent progress applies.
- Analytics.CompletionStats: groups appear in the order of the instructor's courses. MongoDB leaves `$group` output order unspecified.
- Analytics.RatingStats: the same unspecified group order applies.
- The trim sanitizers of the course, resource and register routes are modelled as trimming a field the body sends and leaving an omitted field omitted.
- Body values are modelled with their declared types. A body that sends a number where a string is expected, or an object where a number is expected, is not modelled.
- An `_id` inside an update body is not modelled. Mongoose rejects a change of `_id`, and the model's bodies carry no `_id` field.
- Admin.ListCourses: the populated instructor name and email are not modelled.
- Embedded course modules and lessons are carried as opaque values. No handler computes over them. Lesson completion records lesson ids the way resource ids are recorded.
- The express-validator chains on the progress and rating routes are not modelled as preconditions, because those handlers never read the validation result. The chains on register and login are modelled, because those handlers do read it.

## Findings

| source | as written | input that shows it | evidently intended | confidence | as-written member | corrected member |
|---|---|---|---|---|---|---|
| controllers/enrollmentController.js:95-119 | the resource id is pushed onto the document read before the update, but only the separately updated document is saved, so `completedResources` never changes on this path | PUT /enrollments/:id/progress by the enrollment's user with `resourceId` set to an id not yet recorded | the resource is recorded once, as lesson completion records it | not executed | Enrollments.UpdateProgressDropsResource | Enrollments.UpdateProgressRecording |
| controllers/enrollmentController.js:266-279 | the raw `lessonId` is compared with the stored id's lower-case text, and an absent `lessonId` is pushed as an entry without an id | PUT /enrollments/course/:courseId/lesson with `lessonId` "65A1B2C3D4E5F60718293A4B" twice pushes two entries; a request without `lessonId` followed by any new lesson answers 500 | a lesson is recorded once whatever the case of its hex digits, and a request without a lesson id is refused | not executed | Enrollments.MarkLessonRepeatsNonCanonical | Enrollments.MarkLessonOnceIdempotent |
| controllers/userController.js:115-132 | `findById` without `select('-password')` on a schema whose password is not `select: false` answers the stored password hash | GET /users/profile by any existing user | the profile without the password, as every other user-returning handler answers | not executed | Users.ProfileExposesPasswordHash | Users.PublicProfileIgnoresPassword |

=== FILE: admin.dfy ===
/** The administrator routes of routes/admin.js: the user and course listings, the
    platform counters with their enrollment-price revenue, switching a user's status or
    role, and deleting a user together with that user's enrollments. Every route sits
    behind the administrator gate of the authentication middleware, which is not part of
    this model. */
module Admin {
  import opened Outcomes
  import opened Seqs
  import opened Schema
  import opened Users
  import Enrollments
  import Analytics

  const InvalidRole := "Invalid role"

  // ---------------------------------------------------------------- listings

  function UserCreated(u: User): int { u.createdAt }
  function PublicCreated(p: PublicUser): int { p.createdAt }
  function CourseCreated(c: Course): int { c.createdAt }

  function Publics(us: seq<User>): (r: seq<PublicUser>)
    ensures |r| == |us| && forall i :: 0 <= i < |us| ==> r[i] == Public(us[i])
  {
    if us == [] then [] else [Public(us[0])] + Publics(us[1..])
  }

  /** GET /admin/users: every user without the password, newest first. */
  function ListUsers(s: Store): (r: seq<PublicUser>)
    ensures |r| == |s.users|
    ensures SortedDesc(r, PublicCreated)
    ensures forall u :: u in s.users ==> Public(u) in r
    ensures forall i :: 0 <= i < |r| ==> exists u :: u in s.users && r[i] == Public(u)
  {
    var sorted := SortDesc(s.users, UserCreated);
    SortDescMembers(s.users, UserCreated);
    PublicsSorted(sorted);
    PublicsCover(sorted);
    PublicsFrom(sorted);
    Publics(sorted)
  }

  lemma PublicsSorted(us: seq<User>)
    requires SortedDesc(us, UserCreated)
    ensures SortedDesc(Publics(us), PublicCreated)
  {
    var r := Publics(us);
    forall i, j | 0 <= i < j < |r|
      ensures PublicCreated(r[i]) >= PublicCreated(r[j])
    {
      assert UserCreated(us[i]) >= UserCreated(us[j]);
    }
  }

  lemma PublicsCover(us: seq<User>)
    ensures forall u :: u in us ==> Public(u) in Publics(us)
  {
    var r := Publics(us);
    forall u | u in us
      ensures Public(u) in r
    {
      var k :| 0 <= k < |us| && us[k] == u;
      assert r[k] == Public(u);
    }
  }

  lemma PublicsFrom(us: seq<User>)
    ensures forall i :: 0 <= i < |us| ==> exists u :: u in us && Publics(us)[i] == Public(u)
  {
    var r := Publics(us);
    forall i | 0 <= i < |us|
      ensures exists u :: u in us && r[i] == Public(u)
    {
      assert us[i] in us;
    }
  }

  /** GET /admin/courses: every course, newest first. */
  function ListCourses(s: Store): (r: seq<Course>)
    ensures SortedDesc(r, CourseCreated)
    ensures multiset(r) == multiset(s.courses)
  {
    SortDesc(s.courses, CourseCreated)
  }

  // ---------------------------------------------------------------- platform stats

  datatype PlatformStats = PlatformStats(
    totalUsers: nat,
    totalCourses: nat,
    totalEnrollments: nat,
    revenue: real)

  /** `enrollment.courseId?.price || 0`: the enrolled course's price, 0 when the course no
      longer exists. */
  function PriceOf(cs: seq<Course>, courseId: Id): (r: real)
    ensures FindCourse(cs, courseId).None? ==> r == 0.0
    ensures FindCourse(cs, courseId).Some? ==> r == cs[FindCourse(cs, courseId).value].price
  {
    match FindCourse(cs, courseId)
    case None => 0.0
    case Some(i) => cs[i].price
  }

  /** The `reduce` over all enrollments. */
  function EnrollmentRevenue(es: seq<Enrollment>, cs: seq<Course>): real {
    if es == [] then 0.0 else EnrollmentRevenue(es[..|es| - 1], cs) + PriceOf(cs, es[|es| - 1].courseId)
  }

  /** GET /admin/stats. */
  function AdminStats(s: Store): (r: PlatformStats)
    ensures r.totalUsers == |s.users| && r.totalCourses == |s.courses| && r.totalEnrollments == |s.enrollments|
    ensures s.enrollments == [] ==> r.revenue == 0.0
  {
    PlatformStats(|s.users|, |s.courses|, |s.enrollments|, EnrollmentRevenue(s.enrollments, s.courses))
  }

  /** With no negative price, the revenue is not negative. */
  lemma {:induction false} RevenueNonNegative(es: seq<Enrollment>, cs: seq<Course>)
    requires forall c :: c in cs ==> c.price >= 0.0
    ensures EnrollmentRevenue(es, cs) >= 0.0
  {
    if es != [] {
      RevenueNonNegative(es[..|es| - 1], cs);
      var k := FindCourse(cs, es[|es| - 1].courseId);
      if k.Some? {
        assert cs[k.value] in cs;
      }
    }
  }

  lemma RevenueAppend(es: seq<Enrollment>, e: Enrollment, cs: seq<Course>)
    ensures EnrollmentRevenue(es + [e], cs) == EnrollmentRevenue(es, cs) + PriceOf(cs, e.courseId)
  {
    assert (es + [e])[..|es|] == es;
  }

  /** The two revenue figures of the platform disagree: enrolling adds the course price to
      the stats revenue, while the analytics revenue (price times `studentsEnrolled`,
      which enrolling does not update) stays where it was. */
  lemma EnrollMovesOnlyStatsRevenue(s: Store, userId: Id, courseId: Id, oid: Id, uuid: Uuid, now: Time)
    requires Enrollments.EnrollInCourse(s, userId, courseId, oid, uuid, now).Ok?
    ensures var t := Enrollments.EnrollInCourse(s, userId, courseId, oid, uuid, now).value.store;
      && AdminStats(t).revenue
         == AdminStats(s).revenue + s.courses[FindCourse(s.courses, courseId).value].price
      && Analytics.AdminAnalytics(t).overview.totalRevenue == Analytics.AdminAnalytics(s).overview.totalRevenue
  {
    var r := Enrollments.EnrollInCourse(s, userId, courseId, oid, uuid, now).value;
    RevenueAppend(s.enrollments, r.data, s.courses);
  }

  // ---------------------------------------------------------------- user status and role

  /** A changed user with the message the route sends. */
  datatype Notice = Notice(user: PublicUser, message: string)

  /** `User ${active ? 'activated' : 'deactivated'} successfully`. */
  function StatusMessage(active: Option<bool>): string {
    "User " + (if active == Some(true) then "activated" else "deactivated") + " successfully"
  }

  /** PUT /admin/users/:userId/status: sets `isActive` to the body's `active`. An absent
      `active` is dropped from the update, as Mongoose drops undefined keys, so the flag
      stays as it was and the message says "deactivated". */
  function UpdateUserStatus(s: Store, userId: Id, active: Option<bool>): (r: Result<Reply<Store, Notice>>)
    ensures FindUser(s.users, userId).None? <==> r == Err(NotFound(UserNotFound))
    ensures r.Ok? ==>
      var i := FindUser(s.users, userId).value; var u := s.users[i];
      var v := u.(isActive := active.GetOr(u.isActive));
      && r.value.store == s.(users := s.users[i := v])
      && r.value.data == Notice(Public(v), StatusMessage(active))
  {
    match FindUser(s.users, userId)
    case None => Err(NotFound(UserNotFound))
    case Some(i) =>
      var v := s.users[i].(isActive := active.GetOr(s.users[i].isActive));
      Ok(Reply(s.(users := s.users[i := v]), Notice(Public(v), StatusMessage(active))))
  }

  /** A status update changes the flag of that one user and nothing else. */
  lemma StatusChangesOnlyFlag(s: Store, userId: Id, active: bool)
    requires UniqueBy(s.users, UserOid)
    requires UpdateUserStatus(s, userId, Some(active)).Ok?
    ensures var t := UpdateUserStatus(s, userId, Some(active)).value.store;
      && |t.users| == |s.users|
      && (forall i :: 0 <= i < |s.users| ==> t.users[i] == s.users[i].(isActive := t.users[i].isActive))
      && (forall i :: 0 <= i < |s.users| && s.users[i].id != userId ==> t.users[i] == s.users[i])
      && (forall u :: u in t.users && u.id == userId ==> u.isActive == active)
      && t.courses == s.courses && t.enrollments == s.enrollments && t.ratings == s.ratings
  {
    var t := UpdateUserStatus(s, userId, Some(active)).value.store;
    var k := FindUser(s.users, userId).value;
    forall u | u in t.users && u.id == userId
      ensures u.isActive == active
    {
      var j :| 0 <= j < |t.users| && t.users[j] == u;
      if j != k {
        assert false;
      }
    }
  }

  lemma UpdateStatusPreservesInv(s: Store, userId: Id, active: Option<bool>)
    requires StoreInv(s)
    requires UpdateUserStatus(s, userId, active).Ok?
    ensures StoreInv(UpdateUserStatus(s, userId, active).value.store)
  {
    var i := FindUser(s.users, userId).value;
    assert ValidUser(s.users[i]);
    UsersInvUpdate(s.users, i, s.users[i].(isActive := active.GetOr(s.users[i].isActive)));
  }

  /** PUT /admin/users/:userId/role: the role name is checked before the user is looked
      up, so an unknown role answers 400 even for a missing user. */
  function UpdateUserRole(s: Store, userId: Id, role: string): (r: Result<Reply<Store, Notice>>)
    ensures ParseRole(role).None? <==> r == Err(BadRequest(InvalidRole))
    ensures ParseRole(role).Some? ==> (FindUser(s.users, userId).None? <==> r == Err(NotFound(UserNotFound)))
    ensures r.Ok? ==> |r.value.store.users| == |s.users|
    ensures r.Ok? ==>
      var i := FindUser(s.users, userId).value; var v := r.value.store.users[i];
      && v == s.users[i].(role := v.role)
      && RoleName(v.role) == role
      && r.value.store == s.(users := s.users[i := v])
      && r.value.data == Notice(Public(v), "User role updated to " + role + " successfully")
  {
    match ParseRole(role)
    case None => Err(BadRequest(InvalidRole))
    case Some(newRole) =>
      match FindUser(s.users, userId)
      case None => Err(NotFound(UserNotFound))
      case Some(i) =>
        var v := s.users[i].(role := newRole);
        Ok(Reply(s.(users := s.users[i := v]), Notice(Public(v), "User role updated to " + role + " successfully")))
  }

  lemma UpdateRolePreservesInv(s: Store, userId: Id, role: string)
    requires StoreInv(s)
    requires UpdateUserRole(s, userId, role).Ok?
    ensures StoreInv(UpdateUserRole(s, userId, role).value.store)
  {
    var i := FindUser(s.users, userId).value;
    assert ValidUser(s.users[i]);
    UsersInvUpdate(s.users, i, s.users[i].(role := ParseRole(role).value));
  }

  /** Setting the role a user already has leaves the store as it was. */
  lemma SameRoleIsNoOp(s: Store, userId: Id, role: string)
    requires UpdateUserRole(s, userId, role).Ok?
    requires RoleName(s.users[FindUser(s.users, userId).value].role) == role
    ensures UpdateUserRole(s, userId, role).value.store == s
  {
    var i := FindUser(s.users, userId).value;
    var v := UpdateUserRole(s, userId, role).value.store.users[i];
    RoleNameInjective(v.role, s.users[i].role);
    assert s.users[i := s.users[i]] == s.users;
  }

  lemma RoleNameInjective(a: Role, b: Role)
    requires RoleName(a) == RoleName(b)
    ensures a == b
  {
  }

  // ---------------------------------------------------------------- delete

  function NotOwnedBy(userId: Id): Enrollment -> bool {
    (e: Enrollment) => e.userId != userId
  }

  /** DELETE /admin/users/:userId: removes the user and then every enrollment of that
      user; ratings, courses and resources stay, including courses the user teaches. */
  function DeleteUser(s: Store, userId: Id): (r: Result<Reply<Store, ()>>)
    ensures FindUser(s.users, userId).None? <==> r == Err(NotFound(UserNotFound))
    ensures r.Ok? ==>
      var i := FindUser(s.users, userId).value; var t := r.value.store;
      && t.users == s.users[..i] + s.users[i + 1..]
      && (forall e :: e in t.enrollments <==> e in s.enrollments && e.userId != userId)
      && |t.enrollments| <= |s.enrollments|
      && t.courses == s.courses && t.resources == s.resources && t.ratings == s.ratings
  {
    match FindUser(s.users, userId)
    case None => Err(NotFound(UserNotFound))
    case Some(i) =>
      FilterMembers(s.enrollments, NotOwnedBy(userId));
      Ok(Reply(s.(users := s.users[..i] + s.users[i + 1..],
                  enrollments := Filter(s.enrollments, NotOwnedBy(userId))), ()))
  }

  /** Deleting removes exactly that user: no user with the id is left and every other user
      stays. */
  lemma DeleteUserExact(s: Store, userId: Id)
    requires UniqueBy(s.users, UserOid)
    requires DeleteUser(s, userId).Ok?
    ensures var t := DeleteUser(s, userId).value.store;
      && |t.users| == |s.users| - 1
      && (forall u :: u in t.users ==> u.id != userId)
      && (forall u :: u in s.users && u.id != userId ==> u in t.users)
  {
    var i := FindUser(s.users, userId).value;
    RemoveAtExact(s.users, i, UserOid);
  }

  /** After the deletion the user's enrollment list is empty, and no other user's list
      changed. */
  lemma DeletedUserHasNoEnrollments(s: Store, userId: Id, other: Id)
    requires DeleteUser(s, userId).Ok?
    ensures var t := DeleteUser(s, userId).value.store;
      && Enrollments.GetUserEnrollments(t, userId) == []
      && (other != userId ==>
            forall e :: e in Enrollments.GetUserEnrollments(t, other) <==> e in Enrollments.GetUserEnrollments(s, other))
  {
  }

  lemma DeleteUserPreservesInv(s: Store, userId: Id)
    requires StoreInv(s)
    requires DeleteUser(s, userId).Ok?
    ensures StoreInv(DeleteUser(s, userId).value.store)
  {
    var i := FindUser(s.users, userId).value;
    var t := DeleteUser(s, userId).value.store;
    assert t == s.(users := s.users[..i] + s.users[i + 1..],
                   enrollments := Filter(s.enrollments, NotOwnedBy(userId)));
    UsersInvRemove(s.users, i);
    EnrollmentsInvFilter(s.enrollments, NotOwnedBy(userId));
  }

  lemma UsersInvRemove(us: seq<User>, i: nat)
    requires UsersInv(us) && i < |us|
    ensures UsersInv(us[..i] + us[i + 1..])
  {
    var t := us[..i] + us[i + 1..];
    forall j | 0 <= j < |t|
      ensures ValidUser(t[j])
    {
      if j < i { assert t[j] == us[j]; } else { assert t[j] == us[j + 1]; }
    }
    UniqueByRemove(us, i, UserOid);
    UniqueByRemove(us, i, UserUuid);
    UniqueByRemove(us, i, UserEmail);
  }

  lemma EnrollmentsInvFilter(es: seq<Enrollment>, p: Enrollment -> bool)
    requires EnrollmentsInv(es)
    ensures EnrollmentsInv(Filter(es, p))
  {
    var f := Filter(es, p);
    forall j | 0 <= j < |f|
      ensures ValidEnrollment(f[j])
    {
      var k :| 0 <= k < |es| && es[k] == f[j];
    }
    UniqueByFilter(es, p, EnrollmentOid);
    UniqueByFilter(es, p, EnrollmentUuid);
    UniqueByFilter(es, p, EnrollmentPair);
  }
}

=== FILE: analytics.dfy ===
/** The dashboards of controllers/analyticsController.js: an instructor's overview of their
    own courses, one course's statistics for its instructor, and the platform overview for
    administrators. Money, ratings and averages are exact reals; the date-bucketed series
    (enrollments per month or day, user growth) depend on the clock and are not modelled. */
module Analytics {
  import opened Outcomes
  import opened Seqs
  import opened Schema
  import opened Groups
  import Ratings

  const CourseAccessDenied := "Course not found or access denied"
  const CourseAnalyticsFailed := "Failed to fetch course analytics"

  // ---------------------------------------------------------------- per-course quantities

  function Revenue(c: Course): real { c.price * (c.studentsEnrolled as real) }
  function CourseRating(c: Course): real { c.rating }
  function CourseCategory(c: Course): Category { c.category }
  function CourseInstructor(c: Course): Id { c.instructor }
  function CourseStudents(c: Course): real { c.studentsEnrolled as real }
  function OneCourse(c: Course): real { 1.0 }

  function Taught(instructorId: Id): Course -> bool {
    (c: Course) => c.instructor == instructorId
  }

  function EnrolledIn(courseId: Id): Enrollment -> bool {
    (e: Enrollment) => e.courseId == courseId
  }

  function InCourses(ids: set<Id>): Enrollment -> bool {
    (e: Enrollment) => e.courseId in ids
  }

  function HasStatus(st: Status): Enrollment -> bool {
    (e: Enrollment) => e.completionStatus == st
  }

  /** The `_id`s of `cs`, the `$in` list of the instructor queries. */
  function IdsOf(cs: seq<Course>): (r: set<Id>)
    ensures forall id :: id in r <==> exists i :: 0 <= i < |cs| && cs[i].id == id
  {
    if cs == [] then {}
    else
      var n := |cs|;
      var rest := IdsOf(cs[..n - 1]);
      assert forall i :: 0 <= i < n - 1 ==> cs[..n - 1][i] == cs[i];
      rest + {cs[n - 1].id}
  }

  function ProgressSum(es: seq<Enrollment>): int {
    if es == [] then 0 else ProgressSum(es[..|es| - 1]) + es[|es| - 1].progress
  }

  function ScoresOf(rs: seq<Rating>): (r: seq<int>)
    ensures |r| == |rs| && forall i :: 0 <= i < |rs| ==> r[i] == rs[i].score
  {
    if rs == [] then [] else [rs[0].score] + ScoresOf(rs[1..])
  }

  // ---------------------------------------------------------------- $round

  /** `$round` to an integer of the exact quotient `num / den`: to the nearest integer,
      and to the even one of two equally near (see `RoundHalfEvenSpec`). */
  function RoundHalfEven(num: int, den: int): int
    requires den > 0
  {
    var f := num / den;
    var rem := num - f * den;
    if 2 * rem < den then f
    else if 2 * rem > den then f + 1
    else if f % 2 == 0 then f
    else f + 1
  }

  lemma RoundHalfEvenSpec(num: int, den: int)
    requires den > 0
    ensures var q := RoundHalfEven(num, den);
      && -den <= 2 * (num - q * den) <= den
      && (2 * (num - q * den) == den ==> q % 2 == 0)
      && (2 * (num - q * den) == -den ==> q % 2 == 0)
  {
    DivBounds(num, den);
  }

  /** The rounding contract pins the result down: at most one integer meets it. */
  lemma RoundHalfEvenUnique(num: int, den: int, q: int)
    requires den > 0
    requires -den <= 2 * (num - q * den) <= den
    requires 2 * (num - q * den) == den ==> q % 2 == 0
    requires 2 * (num - q * den) == -den ==> q % 2 == 0
    ensures q == RoundHalfEven(num, den)
  {
    var p := RoundHalfEven(num, den);
    RoundHalfEvenSpec(num, den);
    var d := num - q * den;
    var e := num - p * den;
    assert e - d == (q - p) * den by { Distrib(q, p, den); }
    Neighbours(d, e, q - p, den);
  }

  /** Two remainders of at most half the divisor differ by at most one divisor, and by a
      whole one only when both sit exactly halfway. */
  lemma Neighbours(d: int, e: int, k: int, den: int)
    requires den > 0 && -den <= 2 * d <= den && -den <= 2 * e <= den && e - d == k * den
    ensures -1 <= k <= 1
    ensures k == 1 ==> 2 * e == den && 2 * d == -den
    ensures k == -1 ==> 2 * e == -den && 2 * d == den
  {
    if k >= 2 {
      MulLe2(2, k, den);
    } else if k <= -2 {
      MulLe2(k, -2, den);
    }
  }

  lemma Distrib(a: int, b: int, d: int)
    ensures (a - b) * d == a * d - b * d
  {
  }

  /** Rounding a quotient that lies between 0 and `m` stays between 0 and `m`. */
  lemma RoundHalfEvenBounds(num: int, den: int, m: int)
    requires den > 0 && 0 <= num <= m * den
    ensures 0 <= RoundHalfEven(num, den) <= m
  {
    var q := RoundHalfEven(num, den);
    RoundHalfEvenSpec(num, den);
    if q < 0 {
      assert q * den <= -den by { MulLe2(q, -1, den); }
    }
    if q > m {
      assert q * den >= (m + 1) * den by { MulLe2(m + 1, q, den); }
    }
  }

  lemma MulLe2(a: int, b: int, d: int)
    requires d > 0 && a <= b
    ensures a * d <= b * d
  {
  }

  // ---------------------------------------------------------------- instructor dashboard

  datatype Overview = Overview(
    totalCourses: nat,
    totalStudentsEnrolled: nat,
    totalRevenue: real,
    averageRating: real)

  datatype CompletionStat = CompletionStat(
    courseId: Id,
    courseTitle: string,
    totalEnrollments: nat,
    completedEnrollments: nat,
    completionRate: real,
    averageProgress: real)

  datatype RatingStat = RatingStat(
    courseId: Id,
    courseTitle: string,
    averageRating: real,
    totalRatings: nat,
    ratingDistribution: seq<int>)

  datatype TopCourse = TopCourse(
    id: Id,
    title: string,
    studentsEnrolled: int,
    rating: real,
    revenue: real)

  datatype InstructorReport = InstructorReport(
    overview: Overview,
    completionStats: seq<CompletionStat>,
    ratingStats: seq<RatingStat>,
    revenueByCategory: seq<Group<Category>>,
    topCourses: seq<TopCourse>)

  /** The instructor's courses, in natural order. */
  function CoursesOf(s: Store, instructorId: Id): (r: seq<Course>)
    ensures forall c :: c in r <==> c in s.courses && c.instructor == instructorId
  {
    FilterMembers(s.courses, Taught(instructorId));
    Filter(s.courses, Taught(instructorId))
  }

  /** `completed / total * 100`, a percentage. */
  function Percent(part: nat, whole: nat): (r: real)
    requires 0 < whole && part <= whole
    ensures 0.0 <= r <= 100.0
  {
    PercentBounds(part, whole);
    (part as real) / (whole as real) * 100.0
  }

  lemma PercentBounds(part: nat, whole: nat)
    requires 0 < whole && part <= whole
    ensures 0.0 <= (part as real) / (whole as real) <= 1.0
  {
  }

  /** The percentage is the share of `part` in `whole`. */
  lemma PercentSpec(part: nat, whole: nat)
    requires 0 < whole && part <= whole
    ensures Percent(part, whole) * (whole as real) == (part as real) * 100.0
  {
  }

  /** `$avg` of integers summing to `sum`. */
  function Mean(sum: int, n: nat): real
    requires n > 0
  {
    sum as real / (n as real)
  }

  lemma MeanSpec(sum: int, n: nat)
    requires n > 0
    ensures Mean(sum, n) * (n as real) == sum as real
  {
  }

  /** `$round: [$avg, digits]` for an average of integers: `sum / n` rounded half to even
      at `scale` (10 for one decimal, 100 for two). */
  function RoundedMean(sum: int, n: nat, scale: nat): real
    requires n > 0 && scale > 0
  {
    RoundHalfEven(scale * sum, n) as real / (scale as real)
  }

  /** The completion figures of course `c`, when it has enrollments. */
  function CompletionOf(es: seq<Enrollment>, c: Course): (r: Option<CompletionStat>)
    ensures r.None? <==> |Filter(es, EnrolledIn(c.id))| == 0
    ensures r.Some? ==>
      && r.value.courseId == c.id && r.value.courseTitle == c.title
      && r.value.totalEnrollments == |Filter(es, EnrolledIn(c.id))| > 0
      && r.value.completedEnrollments == |Filter(es, Both(EnrolledIn(c.id), HasStatus(Completed)))|
      && r.value.completedEnrollments <= r.value.totalEnrollments
      && r.value.completionRate == Percent(r.value.completedEnrollments, r.value.totalEnrollments)
      && r.value.averageProgress
           == RoundedMean(ProgressSum(Filter(es, EnrolledIn(c.id))), r.value.totalEnrollments, 100)
  {
    var mine := Filter(es, EnrolledIn(c.id));
    FilterFilter(es, EnrolledIn(c.id), HasStatus(Completed));
    if |mine| == 0 then None
    else
      var done := |Filter(mine, HasStatus(Completed))|;
      Some(CompletionStat(c.id, c.title, |mine|, done, Percent(done, |mine|),
                          RoundedMean(ProgressSum(mine), |mine|, 100)))
  }

  function CompletionIn(es: seq<Enrollment>): Course -> Option<CompletionStat> {
    (c: Course) => CompletionOf(es, c)
  }

  /** The completion group of each course that has enrollments, in course order. */
  function CompletionStats(es: seq<Enrollment>, cs: seq<Course>): seq<CompletionStat> {
    Collect(cs, CompletionIn(es))
  }

  /** The rating figures of course `c`, when it has ratings. */
  function RatingOf(rs: seq<Rating>, c: Course): (r: Option<RatingStat>)
    ensures r.None? <==> |Filter(rs, Ratings.OfCourse(c.id))| == 0
    ensures r.Some? ==>
      && r.value.courseId == c.id && r.value.courseTitle == c.title
      && r.value.totalRatings == |Filter(rs, Ratings.OfCourse(c.id))| > 0
      && r.value.ratingDistribution == ScoresOf(Filter(rs, Ratings.OfCourse(c.id)))
      && r.value.averageRating == RoundedMean(Total(r.value.ratingDistribution), r.value.totalRatings, 10)
  {
    var mine := Filter(rs, Ratings.OfCourse(c.id));
    if |mine| == 0 then None
    else
      var scores := ScoresOf(mine);
      Some(RatingStat(c.id, c.title, RoundedMean(Total(scores), |mine|, 10), |mine|, scores))
  }

  function Total(xs: seq<int>): int {
    if xs == [] then 0 else Total(xs[..|xs| - 1]) + xs[|xs| - 1]
  }

  lemma {:induction false} TotalBounds(xs: seq<int>, lo: int, hi: int)
    requires forall i :: 0 <= i < |xs| ==> lo <= xs[i] <= hi
    ensures lo * |xs| <= Total(xs) <= hi * |xs|
  {
    if xs != [] {
      var n := |xs|;
      assert forall i :: 0 <= i < n - 1 ==> xs[..n - 1][i] == xs[i];
      TotalBounds(xs[..n - 1], lo, hi);
      assert lo * n == lo * (n - 1) + lo;
      assert hi * n == hi * (n - 1) + hi;
    }
  }

  function RatingIn(rs: seq<Rating>): Course -> Option<RatingStat> {
    (c: Course) => RatingOf(rs, c)
  }

  /** The rating group of each course that has ratings, in course order. */
  function RatingStats(rs: seq<Rating>, cs: seq<Course>): seq<RatingStat> {
    Collect(cs, RatingIn(rs))
  }

  function Top(c: Course): TopCourse {
    TopCourse(c.id, c.title, c.studentsEnrolled, c.rating, Revenue(c))
  }

  function TopStudents(t: TopCourse): int { t.studentsEnrolled }

  function Students(c: Course): int { c.studentsEnrolled }

  function Tops(cs: seq<Course>): (r: seq<TopCourse>)
    ensures |r| == |cs| && forall i :: 0 <= i < |cs| ==> r[i] == Top(cs[i])
  {
    seq(|cs|, i requires 0 <= i < |cs| => Top(cs[i]))
  }

  /** The five best-attended courses, most students first: every course left out has no
      more students than the last one listed. */
  function TopCourses(cs: seq<Course>): (r: seq<TopCourse>)
    ensures |r| == if |cs| < 5 then |cs| else 5
    ensures SortedDesc(r, TopStudents)
    ensures forall i :: 0 <= i < |r| ==> exists c :: c in cs && r[i] == Top(c)
    ensures forall c :: c in cs && Top(c) !in r ==> |r| == 5 && c.studentsEnrolled <= r[4].studentsEnrolled
    ensures multiset(r) <= multiset(Tops(cs))
  {
    var sorted := SortDesc(cs, Students);
    var k := if |sorted| < 5 then |sorted| else 5;
    TopCoursesSpec(cs, sorted, k);
    TopsPrefix(sorted, cs, k);
    Tops(sorted[..k])
  }

  /** The entries of a prefix of a reordering are among the entries of the original list. */
  lemma TopsPrefix(sorted: seq<Course>, cs: seq<Course>, k: nat)
    requires multiset(sorted) == multiset(cs) && k <= |sorted|
    ensures multiset(Tops(sorted[..k])) <= multiset(Tops(cs))
  {
    TopsPermutation(sorted, cs);
    assert sorted == sorted[..k] + sorted[k..];
    MapAppend(sorted[..k], sorted[k..], Top);
    TopsAsMap(sorted);
    TopsAsMap(sorted[..k]);
    TopsAsMap(sorted[k..]);
  }

  /** Listing the same courses in another order lists the same entries, each as often. */
  lemma TopsPermutation(a: seq<Course>, b: seq<Course>)
    requires multiset(a) == multiset(b)
    ensures multiset(Tops(a)) == multiset(Tops(b))
  {
    MapPermutation(a, b, Top);
    TopsAsMap(a);
    TopsAsMap(b);
  }

  lemma TopsAsMap(cs: seq<Course>)
    ensures Tops(cs) == MapSeq(cs, Top)
  {
  }



  lemma TopCoursesSpec(cs: seq<Course>, sorted: seq<Course>, k: nat)
    requires sorted == SortDesc(cs, Students)
    requires k == if |sorted| < 5 then |sorted| else 5
    ensures var r := Tops(sorted[..k]);
      && SortedDesc(r, TopStudents)
      && (forall i :: 0 <= i < |r| ==> exists c :: c in cs && r[i] == Top(c))
      && (forall c :: c in cs && Top(c) !in r ==> |r| == 5 && c.studentsEnrolled <= r[4].studentsEnrolled)
  {
    TopsSorted(sorted[..k]);
    TopsFrom(cs, sorted, k);
    TopsBest(cs, sorted, k);
  }

  lemma TopsSorted(p: seq<Course>)
    requires SortedDesc(p, Students)
    ensures SortedDesc(Tops(p), TopStudents)
  {
    var r := Tops(p);
    forall i, j | 0 <= i < j < |r|
      ensures TopStudents(r[i]) >= TopStudents(r[j])
    {
      assert Students(p[i]) >= Students(p[j]);
    }
  }

  lemma TopsFrom(cs: seq<Course>, sorted: seq<Course>, k: nat)
    requires multiset(sorted) == multiset(cs) && k <= |sorted|
    ensures var r := Tops(sorted[..k]); forall i :: 0 <= i < |r| ==> exists c :: c in cs && r[i] == Top(c)
  {
    var r := Tops(sorted[..k]);
    forall i | 0 <= i < |r|
      ensures exists c :: c in cs && r[i] == Top(c)
    {
      assert sorted[i] in multiset(sorted);
      assert r[i] == Top(sorted[i]);
    }
  }



  lemma TopsBest(cs: seq<Course>, sorted: seq<Course>, k: nat)
    requires multiset(sorted) == multiset(cs) && SortedDesc(sorted, Students)
    requires k == if |sorted| < 5 then |sorted| else 5
    ensures var r := Tops(sorted[..k]);
      forall c :: c in cs && Top(c) !in r ==> |r| == 5 && c.studentsEnrolled <= r[4].studentsEnrolled
  {
    var r := Tops(sorted[..k]);
    forall c | c in cs && Top(c) !in r
      ensures |r| == 5 && c.studentsEnrolled <= r[4].studentsEnrolled
    {
      assert c in multiset(cs);
      assert c in cs;
      var j :| 0 <= j < |sorted| && sorted[j] == c;
      LeftOutBelow(sorted, k, j);
    }
  }

  /** A course at position `j` of the sorted list whose entry is not among the first `k`
      lies past the cut, so the cut is at five and the fifth entry has at least as many
      students. */
  lemma LeftOutBelow(sorted: seq<Course>, k: nat, j: nat)
    requires SortedDesc(sorted, Students)
    requires k == if |sorted| < 5 then |sorted| else 5
    requires j < |sorted| && Top(sorted[j]) !in Tops(sorted[..k])
    ensures k == 5 && sorted[j].studentsEnrolled <= Tops(sorted[..k])[4].studentsEnrolled
  {
    var r := Tops(sorted[..k]);
    assert Students(sorted[4]) >= Students(sorted[j]);
    assert r[4] == Top(sorted[4]);
  }

  /** `Σ rating / courses.length || 0`: the mean cached rating, 0 without courses. */
  function AverageRating(cs: seq<Course>): (r: real)
    ensures cs == [] ==> r == 0.0
    ensures (forall i :: 0 <= i < |cs| ==> 0.0 <= cs[i].rating <= 5.0) ==> 0.0 <= r <= 5.0
  {
    if |cs| == 0 then 0.0
    else
      if forall i :: 0 <= i < |cs| ==> 0.0 <= CourseRating(cs[i]) <= 5.0 then
        SumOfBounds(cs, CourseRating, 0.0, 5.0);
        SumOf(cs, CourseRating) / (|cs| as real)
      else
        SumOf(cs, CourseRating) / (|cs| as real)
  }

  lemma {:induction false} SumOfBounds<T>(xs: seq<T>, w: T -> real, lo: real, hi: real)
    requires forall i :: 0 <= i < |xs| ==> lo <= w(xs[i]) <= hi
    ensures lo * (|xs| as real) <= SumOf(xs, w) <= hi * (|xs| as real)
  {
    if xs != [] {
      var n := |xs|;
      var init := xs[..n - 1];
      assert forall i :: 0 <= i < n - 1 ==> init[i] == xs[i];
      SumOfBounds(init, w, lo, hi);
      var m := (n - 1) as real;
      var x := w(xs[n - 1]);
      assert lo <= x <= hi;
      assert SumOf(xs, w) == SumOf(init, w) + x;
      assert lo * (m + 1.0) == lo * m + lo;
      assert hi * (m + 1.0) == hi * m + hi;
    }
  }

  /** GET /analytics/instructor: the dashboard over the caller's own courses. */
  function InstructorAnalytics(s: Store, instructorId: Id): (r: InstructorReport)
    ensures r.overview.totalCourses == |CoursesOf(s, instructorId)|
    ensures r.overview.totalStudentsEnrolled
         == |Filter(s.enrollments, InCourses(IdsOf(CoursesOf(s, instructorId))))|
    ensures |r.topCourses| <= 5 && |r.topCourses| <= r.overview.totalCourses
  {
    var cs := CoursesOf(s, instructorId);
    InstructorReport(
      Overview(|cs|, |Filter(s.enrollments, InCourses(IdsOf(cs)))|, SumOf(cs, Revenue), AverageRating(cs)),
      CompletionStats(s.enrollments, cs),
      RatingStats(s.ratings, cs),
      GroupSums(cs, CourseCategory, Revenue),
      TopCourses(cs))
  }

  /** The per-category revenue splits the total revenue: one entry per category, each
      holding the revenue of the instructor's courses in that category. */
  lemma RevenueByCategorySpec(s: Store, instructorId: Id)
    ensures var r := InstructorAnalytics(s, instructorId); var g := r.revenueByCategory;
      && Totals(g) == r.overview.totalRevenue
      && UniqueBy(g, GroupKey)
      && (forall i :: 0 <= i < |g| ==>
            g[i].total == SumWhere(CoursesOf(s, instructorId), CourseCategory, g[i].key, Revenue))
  {
    var cs := CoursesOf(s, instructorId);
    GroupSumsTotal(cs, CourseCategory, Revenue);
    GroupSumsUnique(cs, CourseCategory, Revenue);
    GroupSumsValues(cs, CourseCategory, Revenue);
  }

  /** A category has an entry exactly when the instructor teaches a course in it. */
  lemma RevenueCategoryListed(s: Store, instructorId: Id, k: Category)
    ensures HasKey(InstructorAnalytics(s, instructorId).revenueByCategory, GroupKey, k) <==>
      exists c :: c in s.courses && c.instructor == instructorId && c.category == k
  {
    var cs := CoursesOf(s, instructorId);
    var g := GroupSums(cs, CourseCategory, Revenue);
    GroupSumsKeys(cs, CourseCategory, Revenue, k);
    if exists c :: c in s.courses && c.instructor == instructorId && c.category == k {
      var c :| c in s.courses && c.instructor == instructorId && c.category == k;
      var i :| 0 <= i < |cs| && cs[i] == c;
      assert CourseCategory(cs[i]) == k;
    }
    if HasKey(g, GroupKey, k) {
      var i :| 0 <= i < |cs| && CourseCategory(cs[i]) == k;
      assert cs[i] in cs;
    }
  }

  function StatTotal(xs: seq<CompletionStat>): int {
    if xs == [] then 0 else StatTotal(xs[..|xs| - 1]) + xs[|xs| - 1].totalEnrollments
  }

  lemma StatTotalAppend(xs: seq<CompletionStat>, x: CompletionStat)
    ensures StatTotal(xs + [x]) == StatTotal(xs) + x.totalEnrollments
  {
    assert (xs + [x])[..|xs|] == xs;
  }

  /** Splitting the `$in` match off one course id that is not yet in the list. */
  lemma {:induction false} FilterSplit(es: seq<Enrollment>, ids: set<Id>, x: Id)
    requires x !in ids
    ensures |Filter(es, InCourses(ids + {x}))| == |Filter(es, InCourses(ids))| + |Filter(es, EnrolledIn(x))|
  {
    if es != [] {
      FilterSplit(es[1..], ids, x);
      FilterHead(es, InCourses(ids + {x}));
      FilterHead(es, InCourses(ids));
      FilterHead(es, EnrolledIn(x));
    }
  }

  lemma FilterHead<T>(s: seq<T>, p: T -> bool)
    requires |s| > 0
    ensures |Filter(s, p)| == |Filter(s[1..], p)| + (if p(s[0]) then 1 else 0)
  {
  }

  /** The per-course enrollment totals add up to the overview's enrolled count. */
  lemma {:induction false} CompletionTotals(es: seq<Enrollment>, cs: seq<Course>)
    requires UniqueBy(cs, CourseOid)
    ensures StatTotal(CompletionStats(es, cs)) == |Filter(es, InCourses(IdsOf(cs)))|
  {
    if cs == [] {
      FilterNone(es, InCourses({}));
    } else {
      var n := |cs|;
      var init := cs[..n - 1];
      var c := cs[n - 1];
      LastIdFresh(cs);
      CompletionTotals(es, init);
      FilterSplit(es, IdsOf(init), c.id);
      CompletionStatsStep(es, cs);
    }
  }

  /** The last course's id is not among the earlier ones, and those stay unique. */
  lemma LastIdFresh(cs: seq<Course>)
    requires UniqueBy(cs, CourseOid) && |cs| > 0
    ensures cs[|cs| - 1].id !in IdsOf(cs[..|cs| - 1])
    ensures UniqueBy(cs[..|cs| - 1], CourseOid)
  {
    var n := |cs|;
    var init := cs[..n - 1];
    forall i, j | 0 <= i < j < |init|
      ensures CourseOid(init[i]) != CourseOid(init[j])
    {
      assert init[i] == cs[i] && init[j] == cs[j];
    }
  }

  /** One more course adds its enrollment count to the completion groups' total. */
  lemma CompletionStatsStep(es: seq<Enrollment>, cs: seq<Course>)
    requires |cs| > 0
    ensures StatTotal(CompletionStats(es, cs))
         == StatTotal(CompletionStats(es, cs[..|cs| - 1])) + |Filter(es, EnrolledIn(cs[|cs| - 1].id))|
  {
    var c := cs[|cs| - 1];
    assert CompletionIn(es)(c) == CompletionOf(es, c);
    match CompletionOf(es, c)
    case None =>
    case Some(x) =>
      StatTotalAppend(CompletionStats(es, cs[..|cs| - 1]), x);
  }

  /** The instructor dashboard's completion groups account for exactly the enrollments its
      overview counts. */
  lemma CompletionMatchesOverview(s: Store, instructorId: Id)
    requires StoreInv(s)
    ensures var r := InstructorAnalytics(s, instructorId);
      StatTotal(r.completionStats) == r.overview.totalStudentsEnrolled
  {
    UniqueByFilter(s.courses, Taught(instructorId), CourseOid);
    CompletionTotals(s.enrollments, CoursesOf(s, instructorId));
  }

  /** A completion group exists for every listed course that has enrollments. */
  lemma CompletionStatsCover(es: seq<Enrollment>, cs: seq<Course>, i: nat)
    requires i < |cs| && CompletionOf(es, cs[i]).Some?
    ensures CompletionOf(es, cs[i]).value in CompletionStats(es, cs)
  {
    CollectCover(cs, CompletionIn(es), i);
  }

  /** Every completion group is that of one of the listed courses. */
  lemma CompletionStatsSound(es: seq<Enrollment>, cs: seq<Course>, x: CompletionStat)
    requires x in CompletionStats(es, cs)
    ensures exists i :: 0 <= i < |cs| && CompletionOf(es, cs[i]) == Some(x)
  {
    CollectSound(cs, CompletionIn(es), x);
  }

  /** With every cached rating between 0 and 5, so is the overview's mean rating. */
  lemma OverviewRatingInRange(s: Store, instructorId: Id)
    requires forall c :: c in s.courses ==> 0.0 <= c.rating <= 5.0
    ensures 0.0 <= InstructorAnalytics(s, instructorId).overview.averageRating <= 5.0
  {
    var cs := CoursesOf(s, instructorId);
    forall i | 0 <= i < |cs|
      ensures 0.0 <= cs[i].rating <= 5.0
    {
      assert cs[i] in s.courses;
    }
  }

  /** With every enrollment's progress between 0 and 100, as the schema bounds it, every
      completion group's rounded mean progress is between 0 and 100 too. */
  lemma CompletionProgressInRange(s: Store, instructorId: Id, x: CompletionStat)
    requires forall e :: e in s.enrollments ==> 0 <= e.progress <= 100
    requires x in InstructorAnalytics(s, instructorId).completionStats
    ensures 0.0 <= x.averageProgress <= 100.0
  {
    var cs := CoursesOf(s, instructorId);
    CompletionStatsSound(s.enrollments, cs, x);
    var i :| 0 <= i < |cs| && CompletionOf(s.enrollments, cs[i]) == Some(x);
    CompletionMeanInRange(s.enrollments, cs[i], x);
  }

  lemma CompletionMeanInRange(es: seq<Enrollment>, c: Course, x: CompletionStat)
    requires forall e :: e in es ==> 0 <= e.progress <= 100
    requires CompletionOf(es, c) == Some(x)
    ensures 0.0 <= x.averageProgress <= 100.0
  {
    var mine := Filter(es, EnrolledIn(c.id));
    forall j | 0 <= j < |mine|
      ensures 0 <= mine[j].progress <= 100
    {
      assert mine[j] in es;
    }
    ProgressSumBounds(mine);
    RoundHalfEvenBounds(100 * ProgressSum(mine), |mine|, 10000);
  }

  /** With every score between 1 and 5, as the schema bounds it, every rating group's
      rounded mean is between 1 and 5 too. */
  lemma RatingStatsInRange(s: Store, instructorId: Id, x: RatingStat)
    requires forall i :: 0 <= i < |s.ratings| ==> ValidRating(s.ratings[i])
    requires x in InstructorAnalytics(s, instructorId).ratingStats
    ensures 1.0 <= x.averageRating <= 5.0
  {
    var cs := CoursesOf(s, instructorId);
    RatingStatsMembers(s.ratings, cs, x);
    var i :| 0 <= i < |cs| && RatingOf(s.ratings, cs[i]) == Some(x);
    RatingMeanInRange(s.ratings, cs[i], x);
  }

  lemma RatingMeanInRange(rs: seq<Rating>, c: Course, x: RatingStat)
    requires forall i :: 0 <= i < |rs| ==> ValidRating(rs[i])
    requires RatingOf(rs, c) == Some(x)
    ensures 1.0 <= x.averageRating <= 5.0
  {
    var mine := Filter(rs, Ratings.OfCourse(c.id));
    var n := |mine|;
    var scores := x.ratingDistribution;
    assert scores == ScoresOf(mine) && x.totalRatings == n;
    forall i | 0 <= i < |scores|
      ensures 1 <= scores[i] <= 5
    {
      assert scores[i] == mine[i].score;
      var j :| 0 <= j < |rs| && rs[j] == mine[i];
      assert ValidRating(rs[j]);
    }
    TotalBounds(scores, 1, 5);
    TenthsInRange(Total(scores), n);
  }

  /** A mean of scores between 1 and 5, rounded to one decimal, lies between 1 and 5. */
  lemma TenthsInRange(sum: int, n: nat)
    requires n > 0 && n <= sum <= 5 * n
    ensures 1.0 <= RoundedMean(sum, n, 10) <= 5.0
  {
    var q := RoundHalfEven(10 * sum, n);
    RoundShift(10 * sum, n, 10);
    assert 0 <= 10 * sum - 10 * n <= 40 * n;
    RoundHalfEvenBounds(10 * sum - 10 * n, n, 40);
    assert 10 <= q <= 50;
  }

  /** Shifting the quotient by an even whole number shifts its rounding by the same
      amount (an odd shift would move the ties to the other neighbour). */
  lemma RoundShift(num: int, den: int, k: int)
    requires den > 0 && k % 2 == 0
    ensures RoundHalfEven(num - k * den, den) == RoundHalfEven(num, den) - k
  {
    var p := RoundHalfEven(num, den);
    var q := p - k;
    RoundHalfEvenSpec(num, den);
    var shifted := num - k * den;
    assert shifted - q * den == num - p * den by { Distrib(p, k, den); }
    assert q % 2 == 0 <==> p % 2 == 0 by { EvenShift(p, k); }
    RoundHalfEvenUnique(shifted, den, q);
  }

  lemma EvenShift(p: int, k: int)
    requires k % 2 == 0
    ensures (p - k) % 2 == 0 <==> p % 2 == 0
  {
  }

  lemma {:induction false} ProgressSumBounds(mine: seq<Enrollment>)
    requires forall i :: 0 <= i < |mine| ==> 0 <= mine[i].progress <= 100
    ensures 0 <= 100 * ProgressSum(mine) <= 100 * (100 * |mine|)
  {
    if mine != [] {
      var n := |mine|;
      assert forall i :: 0 <= i < n - 1 ==> mine[..n - 1][i] == mine[i];
      ProgressSumBounds(mine[..n - 1]);
    }
  }

  /** Every rating group is that of one of the listed courses. */
  lemma RatingStatsMembers(rs: seq<Rating>, cs: seq<Course>, x: RatingStat)
    requires x in RatingStats(rs, cs)
    ensures exists i :: 0 <= i < |cs| && RatingOf(rs, cs[i]) == Some(x)
  {
    CollectSound(cs, RatingIn(rs), x);
  }

  // ---------------------------------------------------------------- one course

  datatype EnrollmentStats = EnrollmentStats(
    totalEnrollments: nat,
    completedCount: nat,
    inProgressCount: nat,
    notStartedCount: nat,
    averageProgress: real)

  const ZeroStats := EnrollmentStats(0, 0, 0, 0, 0.0)

  datatype CourseSummary = CourseSummary(
    id: Id,
    title: string,
    category: Category,
    price: real,
    rating: real,
    totalRatings: int)

  datatype CourseReport = CourseReport(
    course: CourseSummary,
    enrollmentStats: EnrollmentStats,
    ratings: seq<Rating>,
    revenue: real)

  function OwnedBy(courseId: Id, instructorId: Id): Course -> bool {
    (c: Course) => c.id == courseId && c.instructor == instructorId
  }

  /** Every enrollment has exactly one of the three statuses. */
  lemma {:induction false} StatusPartition(es: seq<Enrollment>)
    ensures |Filter(es, HasStatus(Completed))| + |Filter(es, HasStatus(InProgress))|
          + |Filter(es, HasStatus(NotStarted))| == |es|
  {
    if es != [] {
      StatusPartition(es[1..]);
    }
  }

  /** The `$group` over one course's enrollments, or the all-zero default when it has none. */
  function StatsOf(es: seq<Enrollment>, courseId: Id): (r: EnrollmentStats)
    ensures r.totalEnrollments == |Filter(es, EnrolledIn(courseId))|
    ensures r.completedCount == |Filter(es, Both(EnrolledIn(courseId), HasStatus(Completed)))|
    ensures r.inProgressCount == |Filter(es, Both(EnrolledIn(courseId), HasStatus(InProgress)))|
    ensures r.notStartedCount == |Filter(es, Both(EnrolledIn(courseId), HasStatus(NotStarted)))|
    ensures r.completedCount + r.inProgressCount + r.notStartedCount == r.totalEnrollments
    ensures r.totalEnrollments == 0 ==> r == ZeroStats
    ensures r.totalEnrollments > 0 ==>
      r.averageProgress == Mean(ProgressSum(Filter(es, EnrolledIn(courseId))), r.totalEnrollments)
  {
    var mine := Filter(es, EnrolledIn(courseId));
    FilterFilter(es, EnrolledIn(courseId), HasStatus(Completed));
    FilterFilter(es, EnrolledIn(courseId), HasStatus(InProgress));
    FilterFilter(es, EnrolledIn(courseId), HasStatus(NotStarted));
    if |mine| == 0 then ZeroStats
    else
      StatusPartition(mine);
      EnrollmentStats(|mine|, |Filter(mine, HasStatus(Completed))|, |Filter(mine, HasStatus(InProgress))|,
                      |Filter(mine, HasStatus(NotStarted))|, Mean(ProgressSum(mine), |mine|))
  }

  /** The ratings the course report lists: those of the course, each as often as stored. */
  lemma CourseRatings(rs: seq<Rating>, courseId: Id)
    ensures var f := Filter(rs, Ratings.OfCourse(courseId));
      && (forall x :: x in f <==> x in rs && x.courseId == courseId)
      && (forall x :: multiset(f)[x] == if x.courseId == courseId then multiset(rs)[x] else 0)
  {
    FilterMembers(rs, Ratings.OfCourse(courseId));
    FilterCounts(rs, Ratings.OfCourse(courseId));
  }

  /** GET /analytics/course/:courseId: only the course's own instructor may look (an
      administrator gets the same 404 as a stranger). The enrollment pipeline builds its
      match id with `mongoose.Types.ObjectId(courseId)` called without `new`; whether
      that call succeeds depends on the installed driver, so it is a parameter, and when
      it throws the handler answers 500. */
  function CourseAnalytics(s: Store, callerId: Id, courseId: Id, objectIdCallable: bool)
    : (r: Result<CourseReport>)
    ensures FindFirst(s.courses, OwnedBy(courseId, callerId)).None? <==>
      r == Err(NotFound(CourseAccessDenied))
    ensures FindFirst(s.courses, OwnedBy(courseId, callerId)).Some? && !objectIdCallable ==>
      r == Err(ServerError(CourseAnalyticsFailed))
    ensures r.Ok? <==> FindFirst(s.courses, OwnedBy(courseId, callerId)).Some? && objectIdCallable
    ensures r.Ok? ==>
      var c := s.courses[FindFirst(s.courses, OwnedBy(courseId, callerId)).value];
      && c.id == courseId && c.instructor == callerId
      && r.value.course == CourseSummary(c.id, c.title, c.category, c.price, c.rating, c.totalRatings)
      && r.value.revenue == Revenue(c)
      && r.value.enrollmentStats.totalEnrollments == |Filter(s.enrollments, EnrolledIn(courseId))|
      && r.value.enrollmentStats == StatsOf(s.enrollments, courseId)
      && (forall x :: x in r.value.ratings <==> x in s.ratings && x.courseId == courseId)
      && (forall x :: multiset(r.value.ratings)[x] == if x.courseId == courseId then multiset(s.ratings)[x] else 0)
  {
    match FindFirst(s.courses, OwnedBy(courseId, callerId))
    case None => Err(NotFound(CourseAccessDenied))
    case Some(i) =>
      if !objectIdCallable then Err(ServerError(CourseAnalyticsFailed))
      else
        Ok(ReportOf(s, s.courses[i], courseId))
  }

  /** The report on course `c`, whose id is `courseId`: its summary, its enrollments'
      statistics, its ratings and its revenue. */
  function ReportOf(s: Store, c: Course, courseId: Id): (r: CourseReport)
    ensures r.course == CourseSummary(c.id, c.title, c.category, c.price, c.rating, c.totalRatings)
    ensures r.revenue == Revenue(c)
    ensures r.enrollmentStats == StatsOf(s.enrollments, courseId)
    ensures r.enrollmentStats.totalEnrollments == |Filter(s.enrollments, EnrolledIn(courseId))|
    ensures forall x :: x in r.ratings <==> x in s.ratings && x.courseId == courseId
    ensures forall x :: multiset(r.ratings)[x] == if x.courseId == courseId then multiset(s.ratings)[x] else 0
  {
    CourseRatings(s.ratings, courseId);
    CourseReport(
      CourseSummary(c.id, c.title, c.category, c.price, c.rating, c.totalRatings),
      StatsOf(s.enrollments, courseId),
      Filter(s.ratings, Ratings.OfCourse(courseId)),
      Revenue(c))
  }


  /** The course page and the instructor dashboard agree: when the course has
      enrollments, the dashboard lists a completion group for it with the same totals. */
  lemma CourseMatchesDashboard(s: Store, callerId: Id, courseId: Id)
    requires CourseAnalytics(s, callerId, courseId, true).Ok?
    requires CourseAnalytics(s, callerId, courseId, true).value.enrollmentStats.totalEnrollments > 0
    ensures var st := CourseAnalytics(s, callerId, courseId, true).value.enrollmentStats;
      exists x :: x in InstructorAnalytics(s, callerId).completionStats
        && x.courseId == courseId
        && x.totalEnrollments == st.totalEnrollments
        && x.completedEnrollments == st.completedCount
  {
    var i := FindFirst(s.courses, OwnedBy(courseId, callerId)).value;
    var c := s.courses[i];
    var cs := CoursesOf(s, callerId);
    assert c in cs;
    var j :| 0 <= j < |cs| && cs[j] == c;
    CompletionStatsCover(s.enrollments, cs, j);
    var x := CompletionOf(s.enrollments, cs[j]).value;
    assert x in InstructorAnalytics(s, callerId).completionStats;
  }

  // ---------------------------------------------------------------- platform

  datatype PlatformOverview = PlatformOverview(
    totalUsers: nat,
    totalCourses: nat,
    totalEnrollments: nat,
    totalRevenue: real)

  datatype CategoryStat = CategoryStat(
    category: Category,
    count: real,
    totalStudents: real,
    averageRating: real)

  datatype AdminReport = AdminReport(overview: PlatformOverview, categoryStats: seq<CategoryStat>)

  lemma {:induction false} SumWhereCountPositive(cs: seq<Course>, k: Category)
    requires exists i :: 0 <= i < |cs| && CourseCategory(cs[i]) == k
    ensures SumWhere(cs, CourseCategory, k, OneCourse) >= 1.0
  {
    var n := |cs|;
    var init := cs[..n - 1];
    if CourseCategory(cs[n - 1]) == k {
      SumWhereNonNegative(init, k);
    } else {
      var i :| 0 <= i < |cs| && CourseCategory(cs[i]) == k;
      assert CourseCategory(init[i]) == k;
      SumWhereCountPositive(init, k);
    }
  }

  lemma {:induction false} SumWhereNonNegative(cs: seq<Course>, k: Category)
    ensures SumWhere(cs, CourseCategory, k, OneCourse) >= 0.0
  {
    if cs != [] {
      SumWhereNonNegative(cs[..|cs| - 1], k);
    }
  }

  /** Every category group counts at least one course. */
  lemma CountsPositive(cs: seq<Course>)
    ensures var g := GroupSums(cs, CourseCategory, OneCourse);
      forall i :: 0 <= i < |g| ==> g[i].total >= 1.0
  {
    var g := GroupSums(cs, CourseCategory, OneCourse);
    GroupSumsValues(cs, CourseCategory, OneCourse);
    forall i | 0 <= i < |g|
      ensures g[i].total >= 1.0
    {
      GroupSumsKeys(cs, CourseCategory, OneCourse, g[i].key);
      assert GroupKey(g[i]) == g[i].key;
      SumWhereCountPositive(cs, g[i].key);
    }
  }

  function Zip(counts: seq<Group<Category>>, students: seq<Group<Category>>, ratings: seq<Group<Category>>)
    : (r: seq<CategoryStat>)
    requires |students| == |counts| && |ratings| == |counts|
    requires forall i :: 0 <= i < |counts| ==> counts[i].total >= 1.0
    ensures |r| == |counts|
    ensures forall i :: 0 <= i < |counts| ==>
      r[i] == CategoryStat(counts[i].key, counts[i].total, students[i].total,
                           ratings[i].total / counts[i].total)
  {
    if counts == [] then []
    else
      [CategoryStat(counts[0].key, counts[0].total, students[0].total, ratings[0].total / counts[0].total)]
        + Zip(counts[1..], students[1..], ratings[1..])
  }

  /** The `$group` by category: course count, enrolled students and mean rating. */
  function CategoryStats(cs: seq<Course>): (r: seq<CategoryStat>)
    ensures |r| == |GroupSums(cs, CourseCategory, OneCourse)|
    ensures forall i :: 0 <= i < |r| ==>
      r[i].category == GroupSums(cs, CourseCategory, OneCourse)[i].key && r[i].count >= 1.0
  {
    var counts := GroupSums(cs, CourseCategory, OneCourse);
    var students := GroupSums(cs, CourseCategory, CourseStudents);
    var ratings := GroupSums(cs, CourseCategory, CourseRating);
    GroupKeysIndependent(cs, CourseCategory, OneCourse, CourseStudents);
    GroupKeysIndependent(cs, CourseCategory, OneCourse, CourseRating);
    CountsPositive(cs);
    Zip(counts, students, ratings)
  }

  /** Each category entry counts, sums and averages over exactly the courses of its category. */
  lemma CategoryStatMeaning(cs: seq<Course>, i: nat)
    requires i < |CategoryStats(cs)|
    ensures var x := CategoryStats(cs)[i];
      && x.count == SumWhere(cs, CourseCategory, x.category, OneCourse)
      && x.totalStudents == SumWhere(cs, CourseCategory, x.category, CourseStudents)
      && x.averageRating == SumWhere(cs, CourseCategory, x.category, CourseRating) / x.count
  {
    var counts := GroupSums(cs, CourseCategory, OneCourse);
    var students := GroupSums(cs, CourseCategory, CourseStudents);
    var ratings := GroupSums(cs, CourseCategory, CourseRating);
    CategoryStatAt(cs, i);
    GroupSumsValues(cs, CourseCategory, OneCourse);
    GroupSumsValues(cs, CourseCategory, CourseStudents);
    GroupSumsValues(cs, CourseCategory, CourseRating);
  }

  /** Entry `i` joins the `i`-th group of each of the three sums, which share their keys. */
  lemma CategoryStatAt(cs: seq<Course>, i: nat)
    requires i < |CategoryStats(cs)|
    ensures var counts := GroupSums(cs, CourseCategory, OneCourse);
      var students := GroupSums(cs, CourseCategory, CourseStudents);
      var ratings := GroupSums(cs, CourseCategory, CourseRating);
      && i < |counts| && i < |students| && i < |ratings|
      && students[i].key == counts[i].key && ratings[i].key == counts[i].key
      && counts[i].total >= 1.0
      && CategoryStats(cs)[i]
         == CategoryStat(counts[i].key, counts[i].total, students[i].total, ratings[i].total / counts[i].total)
  {
    GroupKeysIndependent(cs, CourseCategory, OneCourse, CourseStudents);
    GroupKeysIndependent(cs, CourseCategory, OneCourse, CourseRating);
    CountsPositive(cs);
  }

  /** GET /analytics/admin (the administrator dashboard): collection sizes, the platform revenue
      (0 when there are no courses, the `|| 0` fallback) and per-category figures. */
  function AdminAnalytics(s: Store): (r: AdminReport)
    ensures r.overview.totalUsers == |s.users|
    ensures r.overview.totalCourses == |s.courses|
    ensures r.overview.totalEnrollments == |s.enrollments|
    ensures s.courses == [] ==> r.overview.totalRevenue == 0.0
  {
    AdminReport(
      PlatformOverview(|s.users|, |s.courses|, |s.enrollments|, SumOf(s.courses, Revenue)),
      CategoryStats(s.courses))
  }

  /** A category is listed when some course has it. */
  predicate Listed(g: seq<CategoryStat>, k: Category) {
    exists i :: 0 <= i < |g| && g[i].category == k
  }

  /** No category is listed twice. */
  lemma CategoryStatsUnique(s: Store)
    ensures var g := AdminAnalytics(s).categoryStats;
      forall i, j :: 0 <= i < j < |g| ==> g[i].category != g[j].category
  {
    var counts := GroupSums(s.courses, CourseCategory, OneCourse);
    var g := AdminAnalytics(s).categoryStats;
    GroupSumsUnique(s.courses, CourseCategory, OneCourse);
    forall i, j | 0 <= i < j < |g|
      ensures g[i].category != g[j].category
    {
      assert GroupKey(counts[i]) != GroupKey(counts[j]);
    }
  }

  /** A category is listed exactly when some course is in it. */
  lemma CategoryListed(s: Store, k: Category)
    ensures Listed(AdminAnalytics(s).categoryStats, k) <==> exists c :: c in s.courses && c.category == k
  {
    var cs := s.courses;
    GroupSumsKeys(cs, CourseCategory, OneCourse, k);
    ListedIffCounted(cs, k);
    if exists c :: c in cs && c.category == k {
      var c :| c in cs && c.category == k;
      var j :| 0 <= j < |cs| && cs[j] == c;
      assert CourseCategory(cs[j]) == k;
    }
    if exists j :: 0 <= j < |cs| && CourseCategory(cs[j]) == k {
      var j :| 0 <= j < |cs| && CourseCategory(cs[j]) == k;
      assert cs[j] in cs;
    }
  }

  /** The category entries carry the keys of the course-count groups. */
  lemma ListedIffCounted(cs: seq<Course>, k: Category)
    ensures Listed(CategoryStats(cs), k) <==> HasKey(GroupSums(cs, CourseCategory, OneCourse), GroupKey, k)
  {
    var counts := GroupSums(cs, CourseCategory, OneCourse);
    var g := CategoryStats(cs);
    if Listed(g, k) {
      var i :| 0 <= i < |g| && g[i].category == k;
      assert GroupKey(counts[i]) == k;
    }
    if HasKey(counts, GroupKey, k) {
      var i :| 0 <= i < |counts| && GroupKey(counts[i]) == k;
      assert g[i].category == k;
    }
  }

  /** The category counts add up to the number of courses. */
  lemma CategoryCountsTotal(s: Store)
    ensures Totals(GroupSums(s.courses, CourseCategory, OneCourse)) == |s.courses| as real
  {
    GroupSumsTotal(s.courses, CourseCategory, OneCourse);
    SumOfOne(s.courses);
  }

  lemma {:induction false} SumOfOne(cs: seq<Course>)
    ensures SumOf(cs, OneCourse) == |cs| as real
  {
    if cs != [] {
      SumOfOne(cs[..|cs| - 1]);
    }
  }

  /** Summing over a filtered list is summing over the matching elements. */
  lemma {:induction false} SumOfTaught(cs: seq<Course>, k: Id, w: Course -> real)
    ensures SumOf(Filter(cs, Taught(k)), w) == SumWhere(cs, CourseInstructor, k, w)
  {
    if cs != [] {
      var n := |cs|;
      assert cs == cs[..n - 1] + [cs[n - 1]];
      FilterAppend(cs[..n - 1], cs[n - 1], Taught(k));
      SumOfTaught(cs[..n - 1], k, w);
      var f := Filter(cs[..n - 1], Taught(k));
      if Taught(k)(cs[n - 1]) {
        assert (f + [cs[n - 1]])[..|f|] == f;
      }
    }
  }

  /** The platform revenue is the sum, over instructors, of the revenue each instructor's
      own dashboard reports. */
  lemma PlatformRevenueByInstructor(s: Store)
    ensures var g := GroupSums(s.courses, CourseInstructor, Revenue);
      && Totals(g) == AdminAnalytics(s).overview.totalRevenue
      && forall i :: 0 <= i < |g| ==> g[i].total == InstructorAnalytics(s, g[i].key).overview.totalRevenue
  {
    var g := GroupSums(s.courses, CourseInstructor, Revenue);
    GroupSumsTotal(s.courses, CourseInstructor, Revenue);
    GroupSumsValues(s.courses, CourseInstructor, Revenue);
    forall i | 0 <= i < |g|
      ensures g[i].total == InstructorAnalytics(s, g[i].key).overview.totalRevenue
    {
      SumOfTaught(s.courses, g[i].key, Revenue);
    }
  }
}

=== FILE: certificates.dfy ===
/** Certificate issuance of controllers/certificateController.js: a guarded, one-shot,
    idempotent transition of an enrollment's certificate sub-record, and the two reads. */
module Certificates {
  import opened Outcomes
  import opened Seqs
  import opened Schema
  import Enrollments

  const MustComplete := "Course must be completed to generate certificate"
  const CertificateNotFound := "Certificate not found"

  /** A freshly minted certificate. */
  function Mint(certificateId: string, now: Time): (c: Certificate)
    ensures WellFormedCertificate(c) && c.issued
    ensures c.issuedAt == Some(now) && c.certificateId == Some(certificateId)
    ensures c.certificateUrl == Some("/certificates/" + certificateId + ".png")
  {
    Certificate(true, Some(now), Some(certificateId), Some(CertificateUrl(certificateId)))
  }

  /** The completion gate of issuance. */
  predicate MayIssue(e: Enrollment) {
    e.progress >= 100 && e.completionStatus == Completed
  }

  /** A populated reference the response reads through did not resolve: the enrollment's
      user, its course, or that course's instructor is gone. Reading a field of the null
      that populate leaves throws. */
  predicate Orphaned(s: Store, e: Enrollment) {
    FindUser(s.users, e.userId).None? || CourseOrphaned(s, e)
  }

  /** The enrollment's course, or that course's instructor, is gone. */
  predicate CourseOrphaned(s: Store, e: Enrollment) {
    match FindCourse(s.courses, e.courseId)
    case None => true
    case Some(k) => FindUser(s.users, s.courses[k].instructor).None?
  }

  const GenerateFailed := "Failed to generate certificate"
  const FetchFailed := "Failed to fetch certificate"
  const FetchAllFailed := "Failed to fetch certificates"

  /** POST /certificates/course/:courseId: the caller's enrollment must exist and be
      complete; the first call mints the certificate and saves it, every later call writes
      nothing. The response then reads the student's, course's and instructor's names, so
      an orphaned enrollment answers 500 after the save has happened. */
  function GenerateCertificate(s: Store, userId: Id, courseId: Id, certificateId: string, now: Time)
    : (r: Reply<Store, Result<Certificate>>)
    ensures FindEnrollmentFor(s.enrollments, userId, courseId).None? ==>
      r == Reply(s, Err(NotFound(Enrollments.EnrollmentNotFound)))
    ensures FindEnrollmentFor(s.enrollments, userId, courseId).Some? ==>
      var i := FindEnrollmentFor(s.enrollments, userId, courseId).value; var e := s.enrollments[i];
      && (!MayIssue(e) ==> r == Reply(s, Err(BadRequest(MustComplete))))
      && (MayIssue(e) && e.certificate.issued ==> r.store == s)
      && (MayIssue(e) && !e.certificate.issued ==>
            r.store == s.(enrollments := s.enrollments[i := e.(certificate := Mint(certificateId, now))]))
      && (MayIssue(e) ==> (Orphaned(s, e) <==> r.data == Err(ServerError(GenerateFailed))))
      && (MayIssue(e) && !Orphaned(s, e) ==> r.data == Ok(r.store.enrollments[i].certificate))
    ensures r.data.Ok? ==> r.data.value.issued
  {
    match FindEnrollmentFor(s.enrollments, userId, courseId)
    case None => Reply(s, Err(NotFound(Enrollments.EnrollmentNotFound)))
    case Some(i) =>
      var e := s.enrollments[i];
      if e.progress < 100 || e.completionStatus != Completed then Reply(s, Err(BadRequest(MustComplete)))
      else
        var c := if e.certificate.issued then e.certificate else Mint(certificateId, now);
        var t := if e.certificate.issued then s else s.(enrollments := s.enrollments[i := e.(certificate := c)]);
        Reply(t, if Orphaned(s, e) then Err(ServerError(GenerateFailed)) else Ok(c))
  }

  /** Issuance is idempotent: repeating a request with any fresh id and clock answers the
      same and writes nothing more, whatever the first request answered. */
  lemma GenerateIdempotent(s: Store, userId: Id, courseId: Id, id1: string, now1: Time,
                           id2: string, now2: Time)
    ensures var r := GenerateCertificate(s, userId, courseId, id1, now1);
      GenerateCertificate(r.store, userId, courseId, id2, now2) == r
  {
    var r := GenerateCertificate(s, userId, courseId, id1, now1);
    if FindEnrollmentFor(s.enrollments, userId, courseId).Some? {
      var i := FindEnrollmentFor(s.enrollments, userId, courseId).value;
      FindEnrollmentForUpdate(s.enrollments, userId, courseId, r.store.enrollments[i]);
    }
  }

  lemma GeneratePreservesInv(s: Store, userId: Id, courseId: Id, certificateId: string, now: Time)
    requires StoreInv(s)
    ensures StoreInv(GenerateCertificate(s, userId, courseId, certificateId, now).store)
  {
    if FindEnrollmentFor(s.enrollments, userId, courseId).Some? {
      var i := FindEnrollmentFor(s.enrollments, userId, courseId).value;
      var e := s.enrollments[i];
      if MayIssue(e) && !e.certificate.issued {
        assert ValidEnrollment(e);
        EnrollmentsInvUpdate(s.enrollments, i, e.(certificate := Mint(certificateId, now)));
      }
    }
  }

  /** Under the store invariant the completion gate is exactly "progress is 100": full
      progress always comes with the completed status. */
  lemma GateIsFullProgress(s: Store, i: nat)
    requires StoreInv(s) && i < |s.enrollments|
    ensures MayIssue(s.enrollments[i]) <==> s.enrollments[i].progress == 100
  {
    assert ValidEnrollment(s.enrollments[i]);
  }

  /** GET /certificates/course/:courseId: the issued certificate of the caller's enrollment;
      an orphaned one answers 500 from reading the names. */
  function GetCertificate(s: Store, userId: Id, courseId: Id): (r: Result<Certificate>)
    ensures r == Err(NotFound(CertificateNotFound)) <==>
      || FindEnrollmentFor(s.enrollments, userId, courseId).None?
      || !s.enrollments[FindEnrollmentFor(s.enrollments, userId, courseId).value].certificate.issued
    ensures FindEnrollmentFor(s.enrollments, userId, courseId).Some? ==>
      var e := s.enrollments[FindEnrollmentFor(s.enrollments, userId, courseId).value];
      && (e.certificate.issued && Orphaned(s, e) <==> r == Err(ServerError(FetchFailed)))
      && (e.certificate.issued && !Orphaned(s, e) <==> r == Ok(e.certificate))
  {
    match FindEnrollmentFor(s.enrollments, userId, courseId)
    case None => Err(NotFound(CertificateNotFound))
    case Some(i) =>
      var e := s.enrollments[i];
      if !e.certificate.issued then Err(NotFound(CertificateNotFound))
      else if Orphaned(s, e) then Err(ServerError(FetchFailed))
      else Ok(e.certificate)
  }

  /** What issuance returns is what a later read returns; an issuance that failed on an
      orphaned enrollment fails the read the same way, though the certificate was saved. */
  lemma GenerateThenGet(s: Store, userId: Id, courseId: Id, certificateId: string, now: Time)
    ensures var r := GenerateCertificate(s, userId, courseId, certificateId, now);
      && (r.data.Ok? ==> GetCertificate(r.store, userId, courseId) == r.data)
      && (r.data == Err(ServerError(GenerateFailed)) ==>
            GetCertificate(r.store, userId, courseId) == Err(ServerError(FetchFailed)))
  {
    var r := GenerateCertificate(s, userId, courseId, certificateId, now);
    if FindEnrollmentFor(s.enrollments, userId, courseId).Some? {
      var i := FindEnrollmentFor(s.enrollments, userId, courseId).value;
      FindEnrollmentForUpdate(s.enrollments, userId, courseId, r.store.enrollments[i]);
    }
  }

  datatype CertificateEntry = CertificateEntry(courseId: Id, certificate: Certificate)

  function IssuedAtKey(e: Enrollment): int {
    e.certificate.issuedAt.GetOr(0)
  }

  function EntryIssuedAt(c: CertificateEntry): int {
    c.certificate.issuedAt.GetOr(0)
  }

  function Entry(e: Enrollment): CertificateEntry {
    CertificateEntry(e.courseId, e.certificate)
  }

  /** The query `{ userId, 'certificate.issued': true }`. */
  function IssuedFor(userId: Id): Enrollment -> bool {
    (e: Enrollment) => e.userId == userId && e.certificate.issued
  }

  /** The caller's issued enrollments, most recently issued first. */
  function IssuedOf(s: Store, userId: Id): (r: seq<Enrollment>)
    ensures SortedDesc(r, IssuedAtKey)
    ensures multiset(r) == multiset(Filter(s.enrollments, IssuedFor(userId)))
    ensures forall e :: e in r <==> e in s.enrollments && e.userId == userId && e.certificate.issued
  {
    var mine := Filter(s.enrollments, IssuedFor(userId));
    FilterMembers(s.enrollments, IssuedFor(userId));
    SortDescMembers(mine, IssuedAtKey);
    SortDesc(mine, IssuedAtKey)
  }

  /** GET /certificates/user: one entry per issued certificate of the caller, ordered by
      issue time, newest first. Each entry reads the course's id and its instructor's name,
      so one issued enrollment whose course or instructor is gone fails the whole list. */
  function GetUserCertificates(s: Store, userId: Id): (r: Result<seq<CertificateEntry>>)
    ensures r.Err? <==> exists e :: e in s.enrollments && IssuedFor(userId)(e) && CourseOrphaned(s, e)
    ensures r.Err? ==> r == Err(ServerError(FetchAllFailed))
    ensures r.Ok? ==>
      var es := r.value;
      && |es| == |Filter(s.enrollments, IssuedFor(userId))|
      && (forall i, j :: 0 <= i < j < |es| ==> EntryIssuedAt(es[i]) >= EntryIssuedAt(es[j]))
      && (forall i :: 0 <= i < |es| ==> es[i].certificate.issued)
      && (forall e :: e in s.enrollments && e.userId == userId && e.certificate.issued ==> Entry(e) in es)
      && (forall i :: 0 <= i < |es| ==>
            exists e :: e in s.enrollments && e.userId == userId && es[i] == Entry(e))
  {
    var sorted := IssuedOf(s, userId);
    if exists e :: e in sorted && CourseOrphaned(s, e) then Err(ServerError(FetchAllFailed))
    else
      assert |sorted| == |multiset(sorted)|;
      EntriesSpec(s, userId, sorted);
      Ok(Entries(sorted))
  }

  lemma EntriesSpec(s: Store, userId: Id, es: seq<Enrollment>)
    requires SortedDesc(es, IssuedAtKey)
    requires forall e :: e in es <==> e in s.enrollments && e.userId == userId && e.certificate.issued
    ensures var r := Entries(es);
      && (forall i, j :: 0 <= i < j < |r| ==> EntryIssuedAt(r[i]) >= EntryIssuedAt(r[j]))
      && (forall i :: 0 <= i < |r| ==> r[i].certificate.issued)
      && (forall e :: e in s.enrollments && e.userId == userId && e.certificate.issued ==> Entry(e) in r)
      && (forall i :: 0 <= i < |r| ==> exists e :: e in s.enrollments && e.userId == userId && r[i] == Entry(e))
  {
    EntriesCover(es);
    EntriesSorted(es);
    EntriesFrom(s, userId, es);
  }

  function Entries(es: seq<Enrollment>): (r: seq<CertificateEntry>)
    ensures |r| == |es| && forall i :: 0 <= i < |es| ==> r[i] == Entry(es[i])
  {
    if es == [] then [] else [Entry(es[0])] + Entries(es[1..])
  }

  lemma EntriesCover(es: seq<Enrollment>)
    ensures forall e :: e in es ==> Entry(e) in Entries(es)
  {
    forall e | e in es
      ensures Entry(e) in Entries(es)
    {
      var k :| 0 <= k < |es| && es[k] == e;
      assert Entries(es)[k] == Entry(e);
    }
  }

  lemma EntriesSorted(es: seq<Enrollment>)
    requires SortedDesc(es, IssuedAtKey)
    ensures var r := Entries(es);
      forall i, j :: 0 <= i < j < |r| ==> EntryIssuedAt(r[i]) >= EntryIssuedAt(r[j])
  {
    var r := Entries(es);
    forall i, j | 0 <= i < j < |r|
      ensures EntryIssuedAt(r[i]) >= EntryIssuedAt(r[j])
    {
      assert IssuedAtKey(es[i]) >= IssuedAtKey(es[j]);
    }
  }

  lemma EntriesFrom(s: Store, userId: Id, es: seq<Enrollment>)
    requires forall e :: e in es ==> e in s.enrollments && e.userId == userId && e.certificate.issued
    ensures var r := Entries(es);
      && (forall i :: 0 <= i < |r| ==> r[i].certificate.issued)
      && (forall i :: 0 <= i < |r| ==> exists e :: e in s.enrollments && e.userId == userId && r[i] == Entry(e))
  {
    var r := Entries(es);
    forall i | 0 <= i < |r|
      ensures r[i].certificate.issued
      ensures exists e :: e in s.enrollments && e.userId == userId && r[i] == Entry(e)
    {
      assert es[i] in es;
      assert r[i] == Entry(es[i]);
    }
  }
}

=== FILE: courses.dfy ===
/** Course catalogue of controllers/courseController.js: the filtered, paginated public
    listing, lookup, creation with schema defaults, owner-or-admin update and delete, and the
    instructor's own listing. */
module Courses {
  import opened Outcomes
  import opened Seqs
  import opened Schema

  const CourseNotFound := "Course not found"
  const NotAuthorizedUpdate := "Not authorized to update this course"
  const NotAuthorizedDelete := "Not authorized to delete this course"
  const ValidationFailed := "Course validation failed"
  const PriceCastFailed := "Cast to Number failed for value \"NaN\" (type number) at path \"price\""

  // ---------------------------------------------------------------- queries

  /** What `parseFloat` makes of a price parameter: a number, or NaN when the text does not
      start with one (" " or "abc"). */
  datatype Parsed = Number(value: real) | NotANumber

  /** The query-string parameters of GET /courses, already parsed: `page`/`limit` by
      `parseInt` (None when absent or unparsable), the prices by `parseFloat` (None when
      absent or empty, since only a non-empty string is truthy). */
  datatype CourseQuery = CourseQuery(
    page: Option<int>,
    limit: Option<int>,
    search: Option<string>,
    category: Option<string>,
    level: Option<string>,
    minPrice: Option<Parsed>,
    maxPrice: Option<Parsed>)

  datatype PriceRange = PriceRange(gte: Option<Parsed>, lte: Option<Parsed>)

  /** The MongoDB filter document a handler builds; an absent field places no condition. */
  datatype QueryDoc = QueryDoc(
    isActive: Option<bool>,
    text: Option<string>,
    category: Option<string>,
    level: Option<string>,
    price: Option<PriceRange>,
    instructor: Option<Id>)

  const EmptyQuery := QueryDoc(None, None, None, None, None, None)

  /** A query-string value counts only when it is truthy, i.e. present and non-empty. */
  predicate Given(q: Option<string>) {
    q.Some? && q.value != ""
  }

  /** The filter of `getAllCourses`. */
  function BuildQuery(q: CourseQuery): (d: QueryDoc)
    ensures d.isActive == Some(true) && d.instructor.None?
    ensures d.text.Some? <==> Given(q.search)
    ensures d.category.Some? <==> Given(q.category)
    ensures d.level.Some? <==> Given(q.level)
    ensures d.price.Some? <==> q.minPrice.Some? || q.maxPrice.Some?
    ensures PriceCastFails(d) <==> BadPrice(q)
  {
    QueryDoc(
      Some(true),
      if Given(q.search) then q.search else None,
      if Given(q.category) then q.category else None,
      if Given(q.level) then q.level else None,
      if q.minPrice.Some? || q.maxPrice.Some? then Some(PriceRange(q.minPrice, q.maxPrice)) else None,
      None)
  }

  /** A price parameter that `parseFloat` turned into NaN. */
  predicate BadPrice(q: CourseQuery) {
    q.minPrice == Some(NotANumber) || q.maxPrice == Some(NotANumber)
  }

  /** Mongoose casts a price bound to a Number before the query runs, and NaN fails that
      cast, so such a filter never reaches the database. */
  predicate PriceCastFails(d: QueryDoc) {
    d.price.Some? && (d.price.value.gte == Some(NotANumber) || d.price.value.lte == Some(NotANumber))
  }

  /** `price >= bound` for a numeric bound; an absent bound places no condition. */
  predicate AtLeast(price: real, bound: Option<Parsed>) {
    bound.Some? && bound.value.Number? ==> price >= bound.value.value
  }

  /** `price <= bound` for a numeric bound; an absent bound places no condition. */
  predicate AtMost(price: real, bound: Option<Parsed>) {
    bound.Some? && bound.value.Number? ==> price <= bound.value.value
  }

  /** How MongoDB evaluates a filter that passed the cast on one course. `$text` search is
      left to the `textMatch` parameter. */
  predicate Satisfies(c: Course, d: QueryDoc, textMatch: (Course, string) -> bool) {
    && (d.isActive.Some? ==> c.isActive == d.isActive.value)
    && (d.text.Some? ==> textMatch(c, d.text.value))
    && (d.category.Some? ==> CategoryName(c.category) == d.category.value)
    && (d.level.Some? ==> LevelName(c.level) == d.level.value)
    && (d.price.Some? ==>
          && AtLeast(c.price, d.price.value.gte)
          && AtMost(c.price, d.price.value.lte))
    && (d.instructor.Some? ==> c.instructor == d.instructor.value)
  }

  function SatisfiesFn(d: QueryDoc, textMatch: (Course, string) -> bool): Course -> bool {
    (c: Course) => Satisfies(c, d, textMatch)
  }

  function CreatedKey(c: Course): int { c.createdAt }

  /** `Course.find(d).sort({ createdAt: -1 })`. */
  function Listing(cs: seq<Course>, d: QueryDoc, textMatch: (Course, string) -> bool): (r: seq<Course>)
    ensures SortedDesc(r, CreatedKey)
    ensures |r| <= |cs|
    ensures forall c :: c in r <==> c in cs && Satisfies(c, d, textMatch)
    ensures multiset(r) == multiset(Filter(cs, SatisfiesFn(d, textMatch)))
    ensures forall c :: multiset(r)[c] == if Satisfies(c, d, textMatch) then multiset(cs)[c] else 0
  {
    var hits := Filter(cs, SatisfiesFn(d, textMatch));
    FilterMembers(cs, SatisfiesFn(d, textMatch));
    FilterCounts(cs, SatisfiesFn(d, textMatch));
    SortDescMembers(hits, CreatedKey);
    SortDesc(hits, CreatedKey)
  }

  /** What a listed course satisfies, stated in the terms of the query string: only active
      courses, exact category and level when given, inclusive price bounds when given. */
  lemma BuildQueryMeaning(c: Course, q: CourseQuery, textMatch: (Course, string) -> bool)
    ensures Satisfies(c, BuildQuery(q), textMatch) <==>
      && c.isActive
      && (Given(q.search) ==> textMatch(c, q.search.value))
      && (Given(q.category) ==> CategoryName(c.category) == q.category.value)
      && (Given(q.level) ==> LevelName(c.level) == q.level.value)
      && (q.minPrice.Some? && q.minPrice.value.Number? ==> q.minPrice.value.value <= c.price)
      && (q.maxPrice.Some? && q.maxPrice.value.Number? ==> c.price <= q.maxPrice.value.value)
  {
  }

  /** GET /courses: the matching active courses, newest first, one page of them. A NaN price
      bound fails the cast and a negative skip fails the query; the catch answers 500. */
  function GetAllCourses(s: Store, q: CourseQuery, textMatch: (Course, string) -> bool)
    : (r: Result<(seq<Course>, Pagination)>)
    ensures r.Err? <==> BadPrice(q) || SkipOf(q.page, q.limit) < 0
    ensures BadPrice(q) ==> r == Err(ServerError(PriceCastFailed))
    ensures r.Err? ==> r.error.ServerError?
    ensures r.Ok? ==>
      var all := Listing(s.courses, BuildQuery(q), textMatch);
      && r.value.1.total == |all|
      && r.value.1.page == OrDefault(q.page, 1) && r.value.1.limit == OrDefault(q.limit, 10)
      && r.value.1.pages == CeilDiv(|all|, OrDefault(q.limit, 10))
    ensures r.Ok? ==>
      var all := Listing(s.courses, BuildQuery(q), textMatch);
      var limit := OrDefault(q.limit, 10); var skip := SkipOf(q.page, q.limit);
      var page := r.value.0;
      && |page| == PageLength(|all|, skip, if limit < 0 then -limit else limit)
      && forall i :: 0 <= i < |page| ==> skip + i < |all| && page[i] == all[skip + i]
  {
    if PriceCastFails(BuildQuery(q)) then Err(ServerError(PriceCastFailed))
    else Paginate(Listing(s.courses, BuildQuery(q), textMatch), q.page, q.limit)
  }

  /** The page holds only matching courses of the collection, newest first. */
  lemma GetAllCoursesPage(s: Store, q: CourseQuery, textMatch: (Course, string) -> bool)
    requires GetAllCourses(s, q, textMatch).Ok?
    ensures var page := GetAllCourses(s, q, textMatch).value.0;
      && (forall i :: 0 <= i < |page| ==> page[i] in s.courses && Satisfies(page[i], BuildQuery(q), textMatch))
      && SortedDesc(page, CreatedKey)
  {
    var d := BuildQuery(q);
    var all := Listing(s.courses, d, textMatch);
    var page := Paginate(all, q.page, q.limit).value.0;
    PageOfSorted(all, q.page, q.limit, CreatedKey);
    forall i | 0 <= i < |page|
      ensures page[i] in s.courses && Satisfies(page[i], d, textMatch)
    {
      assert page[i] in all;
    }
  }

  /** GET /courses/:id: any course with that `_id`, active or not. */
  function GetCourseById(s: Store, id: Id): (r: Result<Course>)
    ensures r.Err? <==> forall i :: 0 <= i < |s.courses| ==> s.courses[i].id != id
    ensures r.Err? ==> r == Err(NotFound(CourseNotFound))
    ensures r.Ok? ==> r.value in s.courses && r.value.id == id
  {
    match FindCourse(s.courses, id)
    case None => Err(NotFound(CourseNotFound))
    case Some(i) => Ok(s.courses[i])
  }

  /** GET /courses/instructor: an instructor sees only their own courses, anyone else the
      whole catalogue (the route admits instructors and admins only); newest first. */
  function GetInstructorCourses(s: Store, callerId: Id, callerRole: Role): (r: seq<Course>)
    ensures SortedDesc(r, CreatedKey)
    ensures callerRole == Instructor ==> forall c :: c in r <==> c in s.courses && c.instructor == callerId
    ensures callerRole != Instructor ==> forall c :: c in r <==> c in s.courses
    ensures callerRole == Instructor ==>
      forall c :: multiset(r)[c] == if c.instructor == callerId then multiset(s.courses)[c] else 0
    ensures callerRole != Instructor ==> multiset(r) == multiset(s.courses)
  {
    var d := if callerRole == Instructor then EmptyQuery.(instructor := Some(callerId)) else EmptyQuery;
    Listing(s.courses, d, (c: Course, text: string) => false)
  }

  // ---------------------------------------------------------------- create / update

  /** The JSON body of POST and PUT /courses after the route's sanitizers, which trim
      `title`, `description` and `duration` in place: each field is None when the body omits
      it. */
  datatype CourseBody = CourseBody(
    courseId: Option<string>,
    title: Option<string>,
    description: Option<string>,
    duration: Option<string>,
    price: Option<real>,
    category: Option<string>,
    level: Option<string>,
    thumbnailUrl: Option<string>,
    isActive: Option<bool>,
    studentsEnrolled: Option<int>,
    rating: Option<real>,
    totalRatings: Option<int>,
    objectives: Option<seq<string>>,
    requirements: Option<seq<string>>,
    modules: Option<seq<CourseModule>>,
    instructor: Option<Id>)

  /** The schema validators of the fields the body sets, on the trimmed title, description
      and duration. */
  predicate FieldsValid(b: CourseBody) {
    && (b.title.Some? ==> Trim(b.title.value) != "")
    && (b.description.Some? ==> Trim(b.description.value) != "")
    && (b.duration.Some? ==> Trim(b.duration.value) != "")
    && (b.price.Some? ==> b.price.value >= 0.0)
    && (b.category.Some? ==> ParseCategory(b.category.value).Some?)
    && (b.level.Some? ==> ParseLevel(b.level.value).Some?)
    && (b.rating.Some? ==> 0.0 <= b.rating.value <= 5.0)
  }

  /** An update also validates a `courseId` the body sets, which replaces the stored one. */
  predicate Updatable(b: CourseBody) {
    FieldsValid(b) && (b.courseId.Some? ==> b.courseId.value != "")
  }

  /** A new document also needs every required field; a body `courseId` is overridden. */
  predicate Creatable(b: CourseBody) {
    && FieldsValid(b)
    && b.title.Some? && b.description.Some? && b.duration.Some?
    && b.price.Some? && b.category.Some? && b.level.Some?
  }

  /** The document `createCourse` saves: the body, the caller as instructor, a fresh
      `courseId` in place of any the body sends, and the schema defaults for everything
      omitted. */
  function NewCourse(b: CourseBody, oid: Id, courseId: Uuid, callerId: Id, now: Time): (c: Course)
    requires Creatable(b)
    ensures ValidCourse(c)
    ensures c.id == oid && c.courseId == courseId && c.instructor == callerId && c.createdAt == now
    ensures c.title == Trim(b.title.value) && c.price == b.price.value
    ensures c.description == Trim(b.description.value) && c.duration == Trim(b.duration.value)
    ensures CategoryName(c.category) == b.category.value && LevelName(c.level) == b.level.value
    ensures c.objectives == b.objectives.GetOr([]) && c.requirements == b.requirements.GetOr([])
    ensures c.modules == b.modules.GetOr([])
    ensures b.thumbnailUrl.None? ==> c.thumbnailUrl == ""
    ensures b.isActive.None? ==> c.isActive
    ensures b.studentsEnrolled.None? ==> c.studentsEnrolled == 0
    ensures b.rating.None? ==> c.rating == 0.0
    ensures b.totalRatings.None? ==> c.totalRatings == 0
  {
    TrimIdempotent(b.title.value);
    Course(oid, courseId, Trim(b.title.value), Trim(b.description.value), callerId, Trim(b.duration.value),
           b.price.value, ParseCategory(b.category.value).value, ParseLevel(b.level.value).value,
           b.thumbnailUrl.GetOr(""), b.isActive.GetOr(true), b.studentsEnrolled.GetOr(0),
           b.rating.GetOr(0.0), b.totalRatings.GetOr(0),
           b.objectives.GetOr([]), b.requirements.GetOr([]), b.modules.GetOr([]), now)
  }

  /** POST /courses: validation and unique-index failures both answer 400. */
  function CreateCourse(s: Store, callerId: Id, b: CourseBody, oid: Id, courseId: Uuid, now: Time)
    : (r: Result<Reply<Store, Course>>)
    ensures !Creatable(b) <==> r == Err(BadRequest(ValidationFailed))
    ensures Creatable(b) ==>
      (r == Err(BadRequest(DuplicateKey)) <==>
        HasKey(s.courses, CourseOid, oid) || HasKey(s.courses, CourseUuid, courseId))
    ensures r.Err? ==> r.error.BadRequest?
    ensures Creatable(b) && !HasKey(s.courses, CourseOid, oid) && !HasKey(s.courses, CourseUuid, courseId) ==> r.Ok?
    ensures r.Ok? ==>
      && r.value.data == NewCourse(b, oid, courseId, callerId, now)
      && r.value.store == s.(courses := s.courses + [r.value.data])
  {
    if !Creatable(b) then Err(BadRequest(ValidationFailed))
    else if HasKey(s.courses, CourseOid, oid) || HasKey(s.courses, CourseUuid, courseId) then
      Err(BadRequest(DuplicateKey))
    else
      var c := NewCourse(b, oid, courseId, callerId, now);
      Ok(Reply(s.(courses := s.courses + [c]), c))
  }

  lemma CreateCoursePreservesInv(s: Store, callerId: Id, b: CourseBody, oid: Id, courseId: Uuid, now: Time)
    requires StoreInv(s)
    requires CreateCourse(s, callerId, b, oid, courseId, now).Ok?
    ensures StoreInv(CreateCourse(s, callerId, b, oid, courseId, now).value.store)
  {
    CoursesInvAppend(s.courses, NewCourse(b, oid, courseId, callerId, now));
  }

  /** A course the instructor creates shows up once more in their own listing, and every
      other instructor's listing keeps its courses. */
  lemma CreateThenInstructorListing(s: Store, callerId: Id, b: CourseBody, oid: Id, courseId: Uuid, now: Time, other: Id)
    requires Creatable(b) && !HasKey(s.courses, CourseOid, oid) && !HasKey(s.courses, CourseUuid, courseId)
    ensures var r := CreateCourse(s, callerId, b, oid, courseId, now).value;
      multiset(GetInstructorCourses(r.store, callerId, Instructor))
        == multiset(GetInstructorCourses(s, callerId, Instructor)) + multiset{r.data}
    ensures var r := CreateCourse(s, callerId, b, oid, courseId, now).value;
      other != callerId ==>
        multiset(GetInstructorCourses(r.store, other, Instructor))
          == multiset(GetInstructorCourses(s, other, Instructor))
  {
    CreateCourseAppends(s, callerId, b, oid, courseId, now);
    var r := CreateCourse(s, callerId, b, oid, courseId, now).value;
    OwnListingAfterAppend(s, r.store, r.data, callerId);
    OwnListingAfterAppend(s, r.store, r.data, other);
  }

  /** A successful creation appends one course owned by the caller. */
  lemma CreateCourseAppends(s: Store, callerId: Id, b: CourseBody, oid: Id, courseId: Uuid, now: Time)
    requires Creatable(b) && !HasKey(s.courses, CourseOid, oid) && !HasKey(s.courses, CourseUuid, courseId)
    ensures CreateCourse(s, callerId, b, oid, courseId, now).Ok?
    ensures var r := CreateCourse(s, callerId, b, oid, courseId, now).value;
      r.store.courses == s.courses + [r.data] && r.data.instructor == callerId
  {
  }

  /** Appending course `c` adds it to the listing of its instructor and to no other. */
  lemma OwnListingAfterAppend(s: Store, s2: Store, c: Course, who: Id)
    requires s2.courses == s.courses + [c]
    ensures multiset(GetInstructorCourses(s2, who, Instructor))
      == multiset(GetInstructorCourses(s, who, Instructor)) + (if c.instructor == who then multiset{c} else multiset{})
  {
    assert multiset(s2.courses) == multiset(s.courses) + multiset{c};
    OwnCountsAfterAppend(s.courses, c, GetInstructorCourses(s, who, Instructor),
      GetInstructorCourses(s2, who, Instructor), who);
  }

  lemma OwnCountsAfterAppend(cs: seq<Course>, c: Course, l: seq<Course>, l2: seq<Course>, who: Id)
    requires forall x :: multiset(l)[x] == if x.instructor == who then multiset(cs)[x] else 0
    requires forall x :: multiset(l2)[x] == if x.instructor == who then (multiset(cs) + multiset{c})[x] else 0
    ensures multiset(l2) == multiset(l) + (if c.instructor == who then multiset{c} else multiset{})
  {
    var extra: multiset<Course> := if c.instructor == who then multiset{c} else multiset{};
    forall x ensures multiset(l2)[x] == (multiset(l) + extra)[x] {
    }
  }

  /** A trimmed text field the body sets, or the stored value when it omits it. */
  function TrimmedOr(o: Option<string>, current: string): (r: string)
    ensures o.Some? ==> r == Trim(o.value)
    ensures o.None? ==> r == current
  {
    if o.Some? then Trim(o.value) else current
  }

  /** The document after `findByIdAndUpdate`: each field the body sets replaces the stored
      one, `courseId` included; the three lists keep their stored value when omitted. */
  function ApplyBody(c: Course, b: CourseBody): (u: Course)
    requires FieldsValid(b)
    ensures u.id == c.id && u.createdAt == c.createdAt
    ensures b.courseId.Some? ==> u.courseId == b.courseId.value
    ensures b.title.Some? ==> u.title == Trim(b.title.value)
    ensures b.description.Some? ==> u.description == Trim(b.description.value)
    ensures b.duration.Some? ==> u.duration == Trim(b.duration.value)
    ensures b.objectives.None? ==> u.objectives == c.objectives
    ensures b.requirements.None? ==> u.requirements == c.requirements
    ensures b.modules.None? ==> u.modules == c.modules
  {
    c.(courseId := b.courseId.GetOr(c.courseId),
       title := TrimmedOr(b.title, c.title),
       description := TrimmedOr(b.description, c.description),
       duration := TrimmedOr(b.duration, c.duration),
       price := b.price.GetOr(c.price),
       category := if b.category.Some? then ParseCategory(b.category.value).value else c.category,
       level := if b.level.Some? then ParseLevel(b.level.value).value else c.level,
       thumbnailUrl := b.thumbnailUrl.GetOr(c.thumbnailUrl),
       isActive := b.isActive.GetOr(c.isActive),
       studentsEnrolled := b.studentsEnrolled.GetOr(c.studentsEnrolled),
       rating := b.rating.GetOr(c.rating),
       totalRatings := b.totalRatings.GetOr(c.totalRatings),
       objectives := b.objectives.GetOr(c.objectives),
       requirements := b.requirements.GetOr(c.requirements),
       modules := b.modules.GetOr(c.modules),
       instructor := b.instructor.GetOr(c.instructor))
  }

  /** An update that passes the validators keeps a valid document valid. */
  lemma ApplyBodyValid(c: Course, b: CourseBody)
    requires Updatable(b) && ValidCourse(c)
    ensures ValidCourse(ApplyBody(c, b))
  {
    ApplyBodyTitleValid(c, b);
    ApplyBodyRestValid(c, b);
  }

  /** The updated title is trimmed and non-empty. */
  lemma ApplyBodyTitleValid(c: Course, b: CourseBody)
    requires FieldsValid(b) && ValidCourse(c)
    ensures var u := ApplyBody(c, b); Trim(u.title) == u.title && u.title != ""
  {
    ApplyBodyFields(c, b);
    TrimmedOrTrimmed(b.title, c.title);
    TrimmedOrNonEmpty(b.title, c.title);
  }

  /** The other validated fields of the update stay within their validators. */
  lemma ApplyBodyRestValid(c: Course, b: CourseBody)
    requires Updatable(b) && ValidCourse(c)
    ensures var u := ApplyBody(c, b);
      && u.courseId != ""
      && u.description != "" && u.duration != ""
      && u.price >= 0.0 && 0.0 <= u.rating <= 5.0
  {
    ApplyBodyFields(c, b);
    TrimmedOrNonEmpty(b.description, c.description);
    TrimmedOrNonEmpty(b.duration, c.duration);
  }

  /** The fields the schema validates, as an update writes them. */
  lemma ApplyBodyFields(c: Course, b: CourseBody)
    requires FieldsValid(b)
    ensures var u := ApplyBody(c, b);
      && u.courseId == b.courseId.GetOr(c.courseId)
      && u.title == TrimmedOr(b.title, c.title)
      && u.description == TrimmedOr(b.description, c.description)
      && u.duration == TrimmedOr(b.duration, c.duration)
      && u.price == b.price.GetOr(c.price)
      && u.rating == b.rating.GetOr(c.rating)
  {
  }

  /** Trimming a field, or keeping a trimmed one, leaves a trimmed field. */
  lemma TrimmedOrTrimmed(o: Option<string>, current: string)
    requires Trim(current) == current
    ensures Trim(TrimmedOr(o, current)) == TrimmedOr(o, current)
  {
    if o.Some? {
      TrimIdempotent(o.value);
    }
  }

  /** A field the validators let through, or a kept non-empty one, is non-empty. */
  lemma TrimmedOrNonEmpty(o: Option<string>, current: string)
    requires o.Some? ==> Trim(o.value) != ""
    requires current != ""
    ensures TrimmedOr(o, current) != ""
  {
  }

  const EmptyBody := CourseBody(None, None, None, None, None, None, None, None, None, None, None,
                                None, None, None, None, None)

  /** PUT /courses/:id: 404 for a missing course, 403 unless the caller owns it or is an
      admin, 400 when an update validator rejects a field or a new `courseId` is already
      another course's; otherwise only that course changes. */
  function UpdateCourse(s: Store, callerId: Id, callerRole: Role, id: Id, b: CourseBody)
    : (r: Result<Reply<Store, Course>>)
    ensures FindCourse(s.courses, id).None? <==> r == Err(NotFound(CourseNotFound))
    ensures FindCourse(s.courses, id).Some? ==>
      var c := s.courses[FindCourse(s.courses, id).value];
      && (!CanManage(callerId, callerRole, c.instructor) <==> r == Err(Forbidden(NotAuthorizedUpdate)))
      && (CanManage(callerId, callerRole, c.instructor) ==>
            (!Updatable(b) <==> r == Err(BadRequest(ValidationFailed))))
      && (CanManage(callerId, callerRole, c.instructor) && Updatable(b) ==>
            var clash := KeyElsewhere(s.courses, FindCourse(s.courses, id).value, CourseUuid, ApplyBody(c, b).courseId);
            && (clash <==> r == Err(BadRequest(DuplicateKey)))
            && (!clash ==> r.Ok?))
    ensures r.Ok? ==>
      var i := FindCourse(s.courses, id).value; var c := s.courses[i]; var u := r.value.data;
      && CanManage(callerId, callerRole, c.instructor) && Updatable(b)
      && u == ApplyBody(c, b)
      && r.value.store == s.(courses := s.courses[i := u])
  {
    match FindCourse(s.courses, id)
    case None => Err(NotFound(CourseNotFound))
    case Some(i) =>
      var c := s.courses[i];
      if !CanManage(callerId, callerRole, c.instructor) then Err(Forbidden(NotAuthorizedUpdate))
      else if !Updatable(b) then Err(BadRequest(ValidationFailed))
      else
        var u := ApplyBody(c, b);
        if KeyElsewhere(s.courses, i, CourseUuid, u.courseId) then Err(BadRequest(DuplicateKey))
        else Ok(Reply(s.(courses := s.courses[i := u]), u))
  }

  /** The body that sends back every stored field of a course. */
  function Resend(c: Course): (b: CourseBody)
    ensures b.courseId == Some(c.courseId) && b.title == Some(c.title)
    ensures b.category.Some? && ParseCategory(b.category.value) == Some(c.category)
    ensures b.level.Some? && ParseLevel(b.level.value) == Some(c.level)
  {
    CourseBody(Some(c.courseId), Some(c.title), Some(c.description), Some(c.duration), Some(c.price),
               Some(CategoryName(c.category)), Some(LevelName(c.level)), Some(c.thumbnailUrl),
               Some(c.isActive), Some(c.studentsEnrolled), Some(c.rating), Some(c.totalRatings),
               Some(c.objectives), Some(c.requirements), Some(c.modules), Some(c.instructor))
  }

  /** Sending a stored course back unchanged is an update that changes nothing: it passes the
      validators, its `courseId` clashes with no other course, and the store stays as it was.
      It needs the description and duration stored trimmed, as `createCourse` stores them. */
  lemma ResendIsNoOp(s: Store, callerId: Id, callerRole: Role, id: Id)
    requires StoreInv(s)
    requires FindCourse(s.courses, id).Some?
    requires var c := s.courses[FindCourse(s.courses, id).value];
      && CanManage(callerId, callerRole, c.instructor)
      && Trim(c.description) == c.description && Trim(c.duration) == c.duration
    ensures var c := s.courses[FindCourse(s.courses, id).value];
      UpdateCourse(s, callerId, callerRole, id, Resend(c)) == Ok(Reply(s, c))
  {
    var i := FindCourse(s.courses, id).value;
    var c := s.courses[i];
    assert ValidCourse(c);
    assert Updatable(Resend(c));
    assert ApplyBody(c, Resend(c)) == c;
    assert s.courses[i := c] == s.courses;
  }

  /** A body that sets nothing leaves a stored (hence valid) course exactly as it was. */
  lemma EmptyUpdateIsNoOp(s: Store, callerId: Id, callerRole: Role, id: Id)
    requires forall i :: 0 <= i < |s.courses| ==> ValidCourse(s.courses[i])
    requires UpdateCourse(s, callerId, callerRole, id, EmptyBody).Ok?
    ensures UpdateCourse(s, callerId, callerRole, id, EmptyBody).value.store == s
  {
    var i := FindCourse(s.courses, id).value;
    assert ValidCourse(s.courses[i]);
    ApplyEmptyBody(s.courses[i]);
    assert s.courses[i := s.courses[i]] == s.courses;
  }

  /** A body that sets nothing leaves a valid document as it is. */
  lemma ApplyEmptyBody(c: Course)
    requires ValidCourse(c)
    ensures ApplyBody(c, EmptyBody) == c
  {
  }

  lemma UpdateCoursePreservesInv(s: Store, callerId: Id, callerRole: Role, id: Id, b: CourseBody)
    requires StoreInv(s)
    requires UpdateCourse(s, callerId, callerRole, id, b).Ok?
    ensures StoreInv(UpdateCourse(s, callerId, callerRole, id, b).value.store)
  {
    var i := FindCourse(s.courses, id).value;
    assert ValidCourse(s.courses[i]);
    ApplyBodyValid(s.courses[i], b);
    CoursesInvReplace(s.courses, i, ApplyBody(s.courses[i], b));
  }

  /** DELETE /courses/:id: removes only the course document; its enrollments, resources and
      ratings stay. */
  function DeleteCourse(s: Store, callerId: Id, callerRole: Role, id: Id): (r: Result<Reply<Store, ()>>)
    ensures FindCourse(s.courses, id).None? <==> r == Err(NotFound(CourseNotFound))
    ensures FindCourse(s.courses, id).Some? ==>
      var c := s.courses[FindCourse(s.courses, id).value];
      && (!CanManage(callerId, callerRole, c.instructor) <==> r == Err(Forbidden(NotAuthorizedDelete)))
      && (CanManage(callerId, callerRole, c.instructor) ==> r.Ok?)
    ensures r.Ok? ==>
      var i := FindCourse(s.courses, id).value; var t := r.value.store;
      && t.courses == s.courses[..i] + s.courses[i + 1..]
      && t.users == s.users && t.resources == s.resources
      && t.enrollments == s.enrollments && t.ratings == s.ratings
  {
    match FindCourse(s.courses, id)
    case None => Err(NotFound(CourseNotFound))
    case Some(i) =>
      var c := s.courses[i];
      if !CanManage(callerId, callerRole, c.instructor) then Err(Forbidden(NotAuthorizedDelete))
      else Ok(Reply(s.(courses := s.courses[..i] + s.courses[i + 1..]), ()))
  }

  /** After a delete no course with that `_id` remains (course `_id`s are unique). */
  lemma DeleteCourseRemoves(s: Store, callerId: Id, callerRole: Role, id: Id)
    requires UniqueBy(s.courses, CourseOid)
    requires DeleteCourse(s, callerId, callerRole, id).Ok?
    ensures var t := DeleteCourse(s, callerId, callerRole, id).value.store;
      && |t.courses| == |s.courses| - 1
      && FindCourse(t.courses, id).None?
  {
    var i := FindCourse(s.courses, id).value;
    var t := s.courses[..i] + s.courses[i + 1..];
    RemovedIdGone(s.courses, i);
    assert forall j :: 0 <= j < |t| ==> t[j] in t;
  }

  lemma DeleteCoursePreservesInv(s: Store, callerId: Id, callerRole: Role, id: Id)
    requires StoreInv(s)
    requires DeleteCourse(s, callerId, callerRole, id).Ok?
    ensures StoreInv(DeleteCourse(s, callerId, callerRole, id).value.store)
  {
    var i := FindCourse(s.courses, id).value;
    var cs := s.courses[..i] + s.courses[i + 1..];
    CoursesInvRemove(s.courses, i);
    assert DeleteCourse(s, callerId, callerRole, id).value.store == s.(courses := cs);
    assert StoreInv(s.(courses := cs));
  }

  lemma CoursesInvRemove(cs: seq<Course>, i: nat)
    requires CoursesInv(cs) && i < |cs|
    ensures CoursesInv(cs[..i] + cs[i + 1..])
  {
    var t := cs[..i] + cs[i + 1..];
    forall j | 0 <= j < |t|
      ensures ValidCourse(t[j])
    {
      if j < i { assert t[j] == cs[j]; } else { assert t[j] == cs[j + 1]; }
    }
    UniqueByRemove(cs, i, CourseOid);
    UniqueByRemove(cs, i, CourseUuid);
  }

  lemma RemovedIdGone(cs: seq<Course>, i: nat)
    requires UniqueBy(cs, CourseOid) && i < |cs|
    ensures forall c :: c in cs[..i] + cs[i + 1..] ==> c.id != cs[i].id
  {
    var t := cs[..i] + cs[i + 1..];
    forall c | c in t
      ensures c.id != cs[i].id
    {
      var j :| 0 <= j < |t| && t[j] == c;
      if j < i {
        assert t[j] == cs[j];
        assert CourseOid(cs[j]) != CourseOid(cs[i]);
      } else {
        assert t[j] == cs[j + 1];
        assert CourseOid(cs[i]) != CourseOid(cs[j + 1]);
      }
    }
  }
}

=== FILE: enrollments.dfy ===
/** The enrollment state machine of controllers/enrollmentController.js: enrolling in a
    course, the two progress-update entry points, lesson completion, and the read handlers
    with their access rules. */
module Enrollments {
  import opened Outcomes
  import opened Seqs
  import opened Schema

  const CourseNotFound := "Course not found"
  const AlreadyEnrolled := "Already enrolled in this course"
  const EnrollmentNotFound := "Enrollment not found"
  const NotYourEnrollment := "Not authorized to update this enrollment"
  const AccessDenied := "Access denied"
  const NotEnrolled := "Not enrolled in this course"
  /** What reading `_id` of a reference that did not resolve throws. */
  const NullReference := "Cannot read properties of null (reading '_id')"
  /** What `toString()` on a completed entry without a resource id throws. */
  const UndefinedResourceId := "Cannot read properties of undefined (reading 'toString')"
  /** Mongoose's cast error for the NaN that clamping an absent progress gives. */
  const ProgressCastFailed := "Cast to Number failed for value \"NaN\" (type number) at path \"progress\""
  /** Mongoose's message when `save` fails a path validator or cast of the Enrollment model. */
  const EnrollmentValidationFailed := "Enrollment validation failed"
  /** Mongoose's cast error for a resource id that is not an ObjectId. */
  const ResourceCastFailed := "Cast to ObjectId failed"
  const LessonIdRequired := "Lesson ID is required"

  // ---------------------------------------------------------------- progress arithmetic

  function Dist(a: int, b: int): nat {
    if a >= b then a - b else b - a
  }

  /** `Math.min(Math.max(p, 0), 100)`: the point of [0, 100] nearest to `p`. */
  function Clamp(p: int): (r: int)
    ensures 0 <= r <= 100
    ensures forall q :: 0 <= q <= 100 ==> Dist(r, p) <= Dist(q, p)
  {
    if p < 0 then 0 else if p > 100 then 100 else p
  }

  /** The status thresholds: at least 100 completes, anything above 0 is in progress, and
      otherwise the previous status stays. */
  function NextStatus(raw: int, prev: Status): (r: Status)
    ensures r == NotStarted ==> prev == NotStarted
    ensures r == Completed <==> raw >= 100 || (raw <= 0 && prev == Completed)
    ensures r == InProgress <==> (0 < raw < 100) || (raw <= 0 && prev == InProgress)
  {
    if raw >= 100 then Completed
    else if raw > 0 then InProgress
    else prev
  }

  /** Deciding the status on the raw value or on the clamped value is the same. */
  lemma StatusIgnoresClamping(raw: int, prev: Status)
    ensures NextStatus(Clamp(raw), prev) == NextStatus(raw, prev)
  {
  }

  /** Status is not a function of progress: an enrollment at progress 0 can be completed. */
  lemma StatusCanDisagreeWithProgress(e: Enrollment, now: Time)
    requires e.completionStatus == Completed
    ensures ApplyProgress(e, 0, now).progress == 0
    ensures ApplyProgress(e, 0, now).completionStatus == Completed
  {
  }

  /** The fields a progress update writes: clamped progress, derived status, access time;
      nothing else changes, in particular not the completed resources. */
  function ApplyProgress(e: Enrollment, p: int, now: Time): (r: Enrollment)
    ensures r.progress == Clamp(p) && r.lastAccessed == now
    ensures r.completionStatus == NextStatus(p, e.completionStatus)
    ensures r.(progress := e.progress, completionStatus := e.completionStatus,
               lastAccessed := e.lastAccessed) == e
    ensures ProgressCoherent(r)
    ensures ValidEnrollment(e) ==> ValidEnrollment(r)
  {
    e.(progress := Clamp(p), lastAccessed := now,
       completionStatus := NextStatus(p, e.completionStatus))
  }

  // ---------------------------------------------------------------- enrollInCourse

  /** `$push` of an enrolled-course entry onto the user with `_id == userId`, if any. */
  function PushEnrolledCourse(us: seq<User>, userId: Id, entry: EnrolledCourse): (r: seq<User>)
    ensures |r| == |us|
    ensures FindUser(us, userId).None? ==> r == us
    ensures FindUser(us, userId).Some? ==>
      var k := FindUser(us, userId).value;
      && r[k] == us[k].(enrolledCourses := us[k].enrolledCourses + [entry])
      && forall i :: 0 <= i < |us| && i != k ==> r[i] == us[i]
  {
    match FindUser(us, userId)
    case None => us
    case Some(k) => us[k := us[k].(enrolledCourses := us[k].enrolledCourses + [entry])]
  }

  /** POST /enrollments: the course must exist, the (user, course) pair must not be
      enrolled yet; then one enrollment with every default is stored and the user's
      enrolled-course list grows by one entry. The course record is not touched. */
  function EnrollInCourse(s: Store, userId: Id, courseId: Id, oid: Id, uuid: Uuid, now: Time)
    : (r: Result<Reply<Store, Enrollment>>)
    ensures FindCourse(s.courses, courseId).None? ==> r == Err(NotFound(CourseNotFound))
    ensures FindCourse(s.courses, courseId).Some? && FindEnrollmentFor(s.enrollments, userId, courseId).Some?
            ==> r == Err(BadRequest(AlreadyEnrolled))
    ensures FindCourse(s.courses, courseId).Some? && FindEnrollmentFor(s.enrollments, userId, courseId).None? ==>
      (r.Err? ==> r == Err(BadRequest(DuplicateKey)))
    ensures r.Ok? <==>
      && FindCourse(s.courses, courseId).Some?
      && FindEnrollmentFor(s.enrollments, userId, courseId).None?
      && !HasKey(s.enrollments, EnrollmentOid, oid)
      && !HasKey(s.enrollments, EnrollmentUuid, uuid)
    ensures r.Ok? ==>
      var t := r.value.store; var e := r.value.data;
      && t.enrollments == s.enrollments + [e]
      && e.userId == userId && e.courseId == courseId
      && e.progress == 0 && e.completionStatus == NotStarted
      && e.completedResources == [] && e.certificate == NoCertificate
      && t.courses == s.courses && t.resources == s.resources && t.ratings == s.ratings
      && t.users == PushEnrolledCourse(s.users, userId, EnrolledCourse(courseId, now))
  {
    if FindCourse(s.courses, courseId).None? then Err(NotFound(CourseNotFound))
    else if FindEnrollmentFor(s.enrollments, userId, courseId).Some? then
      Err(BadRequest(AlreadyEnrolled))
    else if HasKey(s.enrollments, EnrollmentOid, oid) || HasKey(s.enrollments, EnrollmentUuid, uuid) then
      Err(BadRequest(DuplicateKey))
    else
      var e := NewEnrollment(oid, uuid, userId, courseId, now);
      var t := s.(enrollments := s.enrollments + [e],
                  users := PushEnrolledCourse(s.users, userId, EnrolledCourse(courseId, now)));
      Ok(Reply(t, e))
  }

  lemma EnrollPreservesInv(s: Store, userId: Id, courseId: Id, oid: Id, uuid: Uuid, now: Time)
    requires StoreInv(s)
    requires EnrollInCourse(s, userId, courseId, oid, uuid, now).Ok?
    ensures StoreInv(EnrollInCourse(s, userId, courseId, oid, uuid, now).value.store)
  {
    var r := EnrollInCourse(s, userId, courseId, oid, uuid, now).value;
    var e := r.data;
    assert e == NewEnrollment(oid, uuid, userId, courseId, now);
    EnrollmentsAppendInv(s.enrollments, e);
    PushEnrolledCourseInv(s.users, userId, EnrolledCourse(courseId, now));
  }

  lemma EnrollmentsAppendInv(es: seq<Enrollment>, e: Enrollment)
    requires EnrollmentsInv(es) && ValidEnrollment(e)
    requires !HasKey(es, EnrollmentOid, e.id) && !HasKey(es, EnrollmentUuid, e.enrollmentId)
    requires FindEnrollmentFor(es, e.userId, e.courseId).None?
    ensures EnrollmentsInv(es + [e])
  {
    UniqueByAppend(es, e, EnrollmentOid);
    UniqueByAppend(es, e, EnrollmentUuid);
    UniqueByAppend(es, e, EnrollmentPair);
  }

  lemma PushEnrolledCourseInv(us: seq<User>, userId: Id, entry: EnrolledCourse)
    requires UsersInv(us)
    ensures UsersInv(PushEnrolledCourse(us, userId, entry))
  {
    match FindUser(us, userId)
    case None =>
    case Some(k) =>
      UsersInvUpdate(us, k, us[k].(enrolledCourses := us[k].enrolledCourses + [entry]));
  }

  /** Enrolling the same user in the same course again is refused, whatever ids are drawn. */
  lemma EnrollTwiceFails(s: Store, userId: Id, courseId: Id, oid: Id, uuid: Uuid, now: Time,
                         oid2: Id, uuid2: Uuid, now2: Time)
    requires EnrollInCourse(s, userId, courseId, oid, uuid, now).Ok?
    ensures var t := EnrollInCourse(s, userId, courseId, oid, uuid, now).value.store;
      EnrollInCourse(t, userId, courseId, oid2, uuid2, now2) == Err(BadRequest(AlreadyEnrolled))
  {
    var t := EnrollInCourse(s, userId, courseId, oid, uuid, now).value.store;
    assert t.enrollments[|t.enrollments| - 1].userId == userId;
    assert t.enrollments[|t.enrollments| - 1].courseId == courseId;
  }

  // ---------------------------------------------------------------- completed-resource lookup

  /** Where `completedResources.find(r => r.resourceId.toString() === id)` stops: at an entry
      recording `id`, or at an entry without an id, whose `toString` throws. */
  function Stops(id: Option<string>): CompletedResource -> bool {
    (c: CompletedResource) => c.resourceId.None? || c.resourceId == id
  }

  datatype Scan = Found(index: nat) | Absent | Throws

  /** The outcome of that `find`: the first entry recording `id`, no such entry, or the
      TypeError of an entry without an id met first. An absent `id` (undefined) equals no
      string. */
  function ScanCompleted(crs: seq<CompletedResource>, id: Option<string>): (r: Scan)
    ensures r.Found? ==> r.index < |crs| && id.Some? && crs[r.index].resourceId == id
    ensures r.Found? ==> forall j :: 0 <= j < r.index ==> crs[j].resourceId.Some? && crs[j].resourceId != id
    ensures r == Absent <==> forall j :: 0 <= j < |crs| ==> crs[j].resourceId.Some? && crs[j].resourceId != id
    ensures r == Throws ==> exists k :: 0 <= k < |crs| && crs[k].resourceId.None?
  {
    match FindFirst(crs, Stops(id))
    case None => Absent
    case Some(k) => if crs[k].resourceId.None? then Throws else Found(k)
  }

  /** Appending an entry that stops the lookup after entries that do not: the lookup now
      ends at the new entry. */
  lemma ScanAppend(crs: seq<CompletedResource>, id: Option<string>, c: CompletedResource)
    requires ScanCompleted(crs, id) == Absent && Stops(id)(c)
    ensures ScanCompleted(crs + [c], id) == if c.resourceId.None? then Throws else Found(|crs|)
  {
    FindFirstAppend(crs, c, Stops(id));
  }

  /** The lookup of `updateProgress` throws: the resource id is truthy and an entry without
      an id comes before any entry recording it. */
  predicate LookupThrows(e: Enrollment, resourceId: Option<string>) {
    Truthy(resourceId) && ScanCompleted(e.completedResources, resourceId) == Throws
  }

  // ---------------------------------------------------------------- updateProgress

  /** PUT /enrollments/:id/progress. Only the enrollment's own user may update it. A truthy
      resource id is first looked up among the completed entries, then pushed onto the
      document that was read; but only the separately updated document is saved, so the
      stored completed resources never change on this path. An absent progress clamps to
      NaN, which the update cannot cast. The handler's catch answers 400 for both the
      lookup's TypeError and the cast error. */
  function UpdateProgress(s: Store, callerId: Id, id: Id, progress: Option<int>,
                          resourceId: Option<string>, now: Time)
    : (r: Result<Reply<Store, Enrollment>>)
    ensures FindEnrollment(s.enrollments, id).None? ==> r == Err(NotFound(EnrollmentNotFound))
    ensures FindEnrollment(s.enrollments, id).Some? ==>
      var e := s.enrollments[FindEnrollment(s.enrollments, id).value];
      && (e.userId != callerId ==> r == Err(Forbidden(NotYourEnrollment)))
      && (e.userId == callerId ==>
            && (LookupThrows(e, resourceId) <==> r == Err(BadRequest(UndefinedResourceId)))
            && (!LookupThrows(e, resourceId) && progress.None? <==> r == Err(BadRequest(ProgressCastFailed)))
            && (!LookupThrows(e, resourceId) && progress.Some? <==> r.Ok?))
    ensures r.Ok? ==>
      var i := FindEnrollment(s.enrollments, id).value; var e := s.enrollments[i];
      var t := r.value.store; var d := r.value.data;
      && e.userId == callerId && progress.Some?
      && t == s.(enrollments := s.enrollments[i := d])
      && d.progress == Clamp(progress.value) && d.lastAccessed == now
      && d.completionStatus == NextStatus(progress.value, e.completionStatus)
      && d.completedResources == e.completedResources
      && d.certificate == e.certificate
      && d.id == e.id && d.userId == e.userId && d.courseId == e.courseId
  {
    match FindEnrollment(s.enrollments, id)
    case None => Err(NotFound(EnrollmentNotFound))
    case Some(i) =>
      var e := s.enrollments[i];
      if e.userId != callerId then Err(Forbidden(NotYourEnrollment))
      else if LookupThrows(e, resourceId) then Err(BadRequest(UndefinedResourceId))
      else if progress.None? then Err(BadRequest(ProgressCastFailed))
      else
        var d := ApplyProgress(e, progress.value, now);
        Ok(Reply(s.(enrollments := s.enrollments[i := d]), d))
  }

  lemma UpdateProgressPreservesInv(s: Store, callerId: Id, id: Id, progress: Option<int>,
                                   resourceId: Option<string>, now: Time)
    requires StoreInv(s)
    requires UpdateProgress(s, callerId, id, progress, resourceId, now).Ok?
    ensures StoreInv(UpdateProgress(s, callerId, id, progress, resourceId, now).value.store)
  {
    var i := FindEnrollment(s.enrollments, id).value;
    EnrollmentsInvUpdate(s.enrollments, i, ApplyProgress(s.enrollments[i], progress.value, now));
  }

  /** As written, a resource named in a progress update is not recorded. */
  lemma UpdateProgressDropsResource(s: Store, callerId: Id, id: Id, progress: Option<int>,
                                    resourceId: string, now: Time)
    requires IsObjectIdString(resourceId)
    requires UpdateProgress(s, callerId, id, progress, Some(resourceId), now).Ok?
    requires var i := FindEnrollment(s.enrollments, id).value;
      !HasKey(s.enrollments[i].completedResources, CompletedId, Some(ObjectIdText(resourceId)))
    ensures var d := UpdateProgress(s, callerId, id, progress, Some(resourceId), now).value.data;
      !HasKey(d.completedResources, CompletedId, Some(ObjectIdText(resourceId)))
  {
  }

  /** No two entries record the same resource id. */
  ghost predicate UniqueRecorded(crs: seq<CompletedResource>) {
    forall i, j :: 0 <= i < j < |crs| && crs[i].resourceId.Some? ==> crs[i].resourceId != crs[j].resourceId
  }

  /** Appends a completion record for the id text `k` unless one is already there. */
  function RecordOnce(crs: seq<CompletedResource>, k: Id, now: Time): (r: seq<CompletedResource>)
    ensures HasKey(r, CompletedId, Some(k))
    ensures HasKey(crs, CompletedId, Some(k)) ==> r == crs
    ensures !HasKey(crs, CompletedId, Some(k)) ==> r == crs + [CompletedResource(Some(k), now)]
    ensures UniqueRecorded(crs) ==> UniqueRecorded(r)
  {
    var c := CompletedResource(Some(k), now);
    if HasKey(crs, CompletedId, Some(k)) then crs
    else
      var r := crs + [c];
      assert CompletedId(r[|crs|]) == Some(k);
      assert forall i :: 0 <= i < |crs| ==> r[i] == crs[i] && crs[i].resourceId != Some(k);
      r
  }

  /** The evidently intended progress update: the same gate and fields, and a named
      resource is recorded once, in the form it is stored in, as lesson completion means to
      record it. A resource id that is not an ObjectId fails the cast. */
  function UpdateProgressRecording(s: Store, callerId: Id, id: Id, progress: Option<int>,
                                   resourceId: Option<string>, now: Time)
    : (r: Result<Reply<Store, Enrollment>>)
    ensures FindEnrollment(s.enrollments, id).None? ==> r == Err(NotFound(EnrollmentNotFound))
    ensures FindEnrollment(s.enrollments, id).Some? ==>
      var e := s.enrollments[FindEnrollment(s.enrollments, id).value];
      && (e.userId != callerId ==> r == Err(Forbidden(NotYourEnrollment)))
      && (e.userId == callerId ==>
            (r.Ok? <==> progress.Some? && (Truthy(resourceId) ==> IsObjectIdString(resourceId.value))))
    ensures r.Ok? ==>
      var i := FindEnrollment(s.enrollments, id).value; var e := s.enrollments[i];
      var d := r.value.data;
      && r.value.store == s.(enrollments := s.enrollments[i := d])
      && d.progress == Clamp(progress.value)
      && d.completionStatus == NextStatus(progress.value, e.completionStatus)
      && (Truthy(resourceId) ==> HasKey(d.completedResources, CompletedId, Some(ObjectIdText(resourceId.value))))
      && (!Truthy(resourceId) ==> d.completedResources == e.completedResources)
      && (UniqueRecorded(e.completedResources) ==> UniqueRecorded(d.completedResources))
  {
    match FindEnrollment(s.enrollments, id)
    case None => Err(NotFound(EnrollmentNotFound))
    case Some(i) =>
      var e := s.enrollments[i];
      if e.userId != callerId then Err(Forbidden(NotYourEnrollment))
      else if Truthy(resourceId) && !IsObjectIdString(resourceId.value) then Err(BadRequest(ResourceCastFailed))
      else if progress.None? then Err(BadRequest(ProgressCastFailed))
      else
        var withResource :=
          if Truthy(resourceId) then RecordOnce(e.completedResources, ObjectIdText(resourceId.value), now)
          else e.completedResources;
        var d := ApplyProgress(e, progress.value, now).(completedResources := withResource);
        Ok(Reply(s.(enrollments := s.enrollments[i := d]), d))
  }

  // ---------------------------------------------------------------- markLessonComplete

  /** What the pushed entry's `resourceId` holds: the cast of the body's `lessonId`, unset
      when the body has none. */
  function StoredLessonId(lessonId: Option<string>): (r: Option<Id>)
    requires lessonId.Some? ==> IsObjectIdString(lessonId.value)
    ensures r.None? <==> lessonId.None?
    ensures r.Some? ==> IsObjectIdString(r.value) && ObjectIdText(r.value) == r.value
  {
    match lessonId
    case None => None
    case Some(l) => Some(ObjectIdText(l))
  }

  /** PUT /enrollments/course/:courseId/lesson, as written. The body's `lessonId` is compared
      as sent with the stored id texts; the lookup throws at an entry without an id. When no
      entry matches, a new one is pushed with the cast id (unset when the body has none) and
      saved; a `lessonId` that is not an ObjectId fails the save. A lesson already recorded
      changes nothing at all, not even the access time. The catch answers 500. */
  function MarkLessonComplete(s: Store, userId: Id, courseId: Id, lessonId: Option<string>, now: Time)
    : (r: Result<Reply<Store, Enrollment>>)
    ensures FindEnrollmentFor(s.enrollments, userId, courseId).None? <==> r == Err(NotFound(EnrollmentNotFound))
    ensures FindEnrollmentFor(s.enrollments, userId, courseId).Some? ==>
      var i := FindEnrollmentFor(s.enrollments, userId, courseId).value; var e := s.enrollments[i];
      var scan := ScanCompleted(e.completedResources, lessonId);
      && (scan == Throws <==> r == Err(ServerError(UndefinedResourceId)))
      && (scan.Found? ==> r == Ok(Reply(s, e)))
      && (scan == Absent && lessonId.Some? && !IsObjectIdString(lessonId.value) <==>
            r == Err(ServerError(EnrollmentValidationFailed)))
      && (scan == Absent && (lessonId.Some? ==> IsObjectIdString(lessonId.value)) ==>
            && r.Ok?
            && r.value.data == e.(completedResources := e.completedResources
                                    + [CompletedResource(StoredLessonId(lessonId), now)],
                                  lastAccessed := now)
            && r.value.store == s.(enrollments := s.enrollments[i := r.value.data]))
  {
    match FindEnrollmentFor(s.enrollments, userId, courseId)
    case None => Err(NotFound(EnrollmentNotFound))
    case Some(i) =>
      var e := s.enrollments[i];
      match ScanCompleted(e.completedResources, lessonId)
      case Throws => Err(ServerError(UndefinedResourceId))
      case Found(_) => Ok(Reply(s, e))
      case Absent =>
        if lessonId.Some? && !IsObjectIdString(lessonId.value) then Err(ServerError(EnrollmentValidationFailed))
        else
          var d := e.(completedResources := e.completedResources
                        + [CompletedResource(StoredLessonId(lessonId), now)],
                      lastAccessed := now);
          Ok(Reply(s.(enrollments := s.enrollments[i := d]), d))
  }

  /** As written, marking the same lesson twice is the same as marking it once when the
      body sends the id in the canonical lower-case form it is stored in. */
  lemma MarkLessonIdempotent(s: Store, userId: Id, courseId: Id, lessonId: string, now: Time, now2: Time)
    requires IsObjectIdString(lessonId) && ObjectIdText(lessonId) == lessonId
    requires MarkLessonComplete(s, userId, courseId, Some(lessonId), now).Ok?
    ensures var r := MarkLessonComplete(s, userId, courseId, Some(lessonId), now).value;
      MarkLessonComplete(r.store, userId, courseId, Some(lessonId), now2) == Ok(r)
  {
    var r := MarkLessonComplete(s, userId, courseId, Some(lessonId), now).value;
    var i := FindEnrollmentFor(s.enrollments, userId, courseId).value;
    var e := s.enrollments[i];
    if ScanCompleted(e.completedResources, Some(lessonId)) == Absent {
      FindEnrollmentForUpdate(s.enrollments, userId, courseId, r.data);
      ScanAppend(e.completedResources, Some(lessonId), CompletedResource(Some(lessonId), now));
    }
  }

  /** As written, an id sent in upper-case hex is stored in lower case and never found
      again: every call pushes another entry for the same lesson. */
  lemma MarkLessonRepeatsNonCanonical(s: Store, userId: Id, courseId: Id, lessonId: string,
                                      now: Time, now2: Time)
    requires IsObjectIdString(lessonId) && ObjectIdText(lessonId) != lessonId
    requires MarkLessonComplete(s, userId, courseId, Some(lessonId), now).Ok?
    requires CanonicalEntries(s.enrollments[FindEnrollmentFor(s.enrollments, userId, courseId).value].completedResources)
    ensures var r := MarkLessonComplete(s, userId, courseId, Some(lessonId), now).value;
      var r2 := MarkLessonComplete(r.store, userId, courseId, Some(lessonId), now2);
      var before := s.enrollments[FindEnrollmentFor(s.enrollments, userId, courseId).value];
      && |r.data.completedResources| == |before.completedResources| + 1
      && r2.Ok? && |r2.value.data.completedResources| == |before.completedResources| + 2
  {
    var i := FindEnrollmentFor(s.enrollments, userId, courseId).value;
    var e := s.enrollments[i];
    var crs := e.completedResources;
    var scan := ScanCompleted(crs, Some(lessonId));
    assert !scan.Found?;
    var r := MarkLessonComplete(s, userId, courseId, Some(lessonId), now).value;
    var stored := CompletedResource(Some(ObjectIdText(lessonId)), now);
    assert r.data.completedResources == crs + [stored];
    FindEnrollmentForUpdate(s.enrollments, userId, courseId, r.data);
    assert ScanCompleted(crs + [stored], Some(lessonId)) == Absent by {
      var t := crs + [stored];
      assert forall j :: 0 <= j < |crs| ==> t[j] == crs[j];
    }
  }

  /** As written, a request without `lessonId` stores an entry without an id; from then on
      every request for a lesson not recorded before it answers 500. */
  lemma MarkLessonAbsentBreaks(s: Store, userId: Id, courseId: Id, now: Time, later: Option<string>, now2: Time)
    requires MarkLessonComplete(s, userId, courseId, None, now).Ok?
    requires later.Some? ==>
      !HasKey(s.enrollments[FindEnrollmentFor(s.enrollments, userId, courseId).value].completedResources,
              CompletedId, later)
    ensures var t := MarkLessonComplete(s, userId, courseId, None, now).value.store;
      MarkLessonComplete(t, userId, courseId, later, now2) == Err(ServerError(UndefinedResourceId))
  {
    var i := FindEnrollmentFor(s.enrollments, userId, courseId).value;
    var e := s.enrollments[i];
    var crs := e.completedResources;
    var r := MarkLessonComplete(s, userId, courseId, None, now).value;
    var unset := CompletedResource(None, now);
    assert ScanCompleted(crs, None) == Absent;
    assert r.data.completedResources == crs + [unset];
    FindEnrollmentForUpdate(s.enrollments, userId, courseId, r.data);
    assert ScanCompleted(crs, later) == Absent by {
      forall j | 0 <= j < |crs|
        ensures crs[j].resourceId.Some? && crs[j].resourceId != later
      {
        assert CompletedId(crs[j]) == crs[j].resourceId;
      }
    }
    ScanAppend(crs, later, unset);
  }

  lemma MarkLessonPreservesInv(s: Store, userId: Id, courseId: Id, lessonId: Option<string>, now: Time)
    requires StoreInv(s)
    requires MarkLessonComplete(s, userId, courseId, lessonId, now).Ok?
    ensures StoreInv(MarkLessonComplete(s, userId, courseId, lessonId, now).value.store)
  {
    var r := MarkLessonComplete(s, userId, courseId, lessonId, now).value;
    var i := FindEnrollmentFor(s.enrollments, userId, courseId).value;
    var e := s.enrollments[i];
    assert ValidEnrollment(e);
    if ScanCompleted(e.completedResources, lessonId) == Absent {
      var crs := r.data.completedResources;
      assert crs == e.completedResources + [CompletedResource(StoredLessonId(lessonId), now)];
      assert CanonicalEntries(crs) by {
        forall j | 0 <= j < |crs| && crs[j].resourceId.Some?
          ensures IsObjectIdString(crs[j].resourceId.value)
          ensures ObjectIdText(crs[j].resourceId.value) == crs[j].resourceId.value
        {
          if j < |e.completedResources| { assert crs[j] == e.completedResources[j]; }
        }
      }
      EnrollmentsInvUpdate(s.enrollments, i, r.data);
    }
  }

  /** The evidently intended lesson completion: the body's id is compared in the form it is
      stored in, entries without an id are passed over, and a request without an id is
      refused; so each lesson is recorded once, however its id is spelled. */
  function MarkLessonOnce(s: Store, userId: Id, courseId: Id, lessonId: Option<string>, now: Time)
    : (r: Result<Reply<Store, Enrollment>>)
    ensures FindEnrollmentFor(s.enrollments, userId, courseId).None? <==> r == Err(NotFound(EnrollmentNotFound))
    ensures FindEnrollmentFor(s.enrollments, userId, courseId).Some? ==>
      var i := FindEnrollmentFor(s.enrollments, userId, courseId).value; var e := s.enrollments[i];
      && (lessonId.None? <==> r == Err(BadRequest(LessonIdRequired)))
      && (lessonId.Some? && !IsObjectIdString(lessonId.value) <==> r == Err(ServerError(EnrollmentValidationFailed)))
      && (lessonId.Some? && IsObjectIdString(lessonId.value) ==>
            var k := ObjectIdText(lessonId.value);
            && r.Ok?
            && (HasKey(e.completedResources, CompletedId, Some(k)) ==> r.value == Reply(s, e))
            && (!HasKey(e.completedResources, CompletedId, Some(k)) ==>
                  && r.value.data == e.(completedResources := e.completedResources + [CompletedResource(Some(k), now)],
                                        lastAccessed := now)
                  && r.value.store == s.(enrollments := s.enrollments[i := r.value.data])))
    ensures r.Ok? ==>
      var e := s.enrollments[FindEnrollmentFor(s.enrollments, userId, courseId).value];
      UniqueRecorded(e.completedResources) ==> UniqueRecorded(r.value.data.completedResources)
  {
    match FindEnrollmentFor(s.enrollments, userId, courseId)
    case None => Err(NotFound(EnrollmentNotFound))
    case Some(i) =>
      var e := s.enrollments[i];
      if lessonId.None? then Err(BadRequest(LessonIdRequired))
      else if !IsObjectIdString(lessonId.value) then Err(ServerError(EnrollmentValidationFailed))
      else
        var k := ObjectIdText(lessonId.value);
        if HasKey(e.completedResources, CompletedId, Some(k)) then Ok(Reply(s, e))
        else
          var d := e.(completedResources := RecordOnce(e.completedResources, k, now), lastAccessed := now);
          Ok(Reply(s.(enrollments := s.enrollments[i := d]), d))
  }

  /** The corrected completion is idempotent for every request, whatever the spelling of
      the id: a repeat answers the same and writes nothing. */
  lemma MarkLessonOnceIdempotent(s: Store, userId: Id, courseId: Id, lessonId: Option<string>,
                                 now: Time, now2: Time)
    requires MarkLessonOnce(s, userId, courseId, lessonId, now).Ok?
    ensures var r := MarkLessonOnce(s, userId, courseId, lessonId, now).value;
      MarkLessonOnce(r.store, userId, courseId, lessonId, now2) == Ok(r)
  {
    var r := MarkLessonOnce(s, userId, courseId, lessonId, now).value;
    var i := FindEnrollmentFor(s.enrollments, userId, courseId).value;
    FindEnrollmentForUpdate(s.enrollments, userId, courseId, r.data);
  }

  /** Where the as-written handler behaves, the correction agrees with it: a canonical id
      on an enrollment whose entries all carry an id. */
  lemma MarkLessonOnceAgrees(s: Store, userId: Id, courseId: Id, lessonId: string, now: Time)
    requires IsObjectIdString(lessonId) && ObjectIdText(lessonId) == lessonId
    requires FindEnrollmentFor(s.enrollments, userId, courseId).Some?
    requires var e := s.enrollments[FindEnrollmentFor(s.enrollments, userId, courseId).value];
      forall j :: 0 <= j < |e.completedResources| ==> e.completedResources[j].resourceId.Some?
    ensures MarkLessonOnce(s, userId, courseId, Some(lessonId), now)
         == MarkLessonComplete(s, userId, courseId, Some(lessonId), now)
  {
    var e := s.enrollments[FindEnrollmentFor(s.enrollments, userId, courseId).value];
    var crs := e.completedResources;
    var scan := ScanCompleted(crs, Some(lessonId));
    if HasKey(crs, CompletedId, Some(lessonId)) {
      assert scan != Absent;
      assert scan != Throws;
    } else {
      assert scan == Absent;
    }
  }

  // ---------------------------------------------------------------- updateCourseProgress

  /** PUT /enrollments/course/:courseId/progress: the caller's own enrollment in the course,
      with the same clamping and status thresholds as the other progress path. An absent
      progress clamps to NaN and fails the save; the catch answers 500. */
  function UpdateCourseProgress(s: Store, userId: Id, courseId: Id, progress: Option<int>, now: Time)
    : (r: Result<Reply<Store, Enrollment>>)
    ensures FindEnrollmentFor(s.enrollments, userId, courseId).None? <==> r == Err(NotFound(EnrollmentNotFound))
    ensures FindEnrollmentFor(s.enrollments, userId, courseId).Some? ==>
      (progress.None? <==> r == Err(ServerError(EnrollmentValidationFailed)))
    ensures r.Ok? ==>
      var i := FindEnrollmentFor(s.enrollments, userId, courseId).value; var e := s.enrollments[i];
      var d := r.value.data;
      && progress.Some?
      && r.value.store == s.(enrollments := s.enrollments[i := d])
      && d == ApplyProgress(e, progress.value, now)
      && 0 <= d.progress <= 100
      && d.completedResources == e.completedResources
  {
    match FindEnrollmentFor(s.enrollments, userId, courseId)
    case None => Err(NotFound(EnrollmentNotFound))
    case Some(i) =>
      if progress.None? then Err(ServerError(EnrollmentValidationFailed))
      else
        var d := ApplyProgress(s.enrollments[i], progress.value, now);
        Ok(Reply(s.(enrollments := s.enrollments[i := d]), d))
  }

  lemma UpdateCourseProgressPreservesInv(s: Store, userId: Id, courseId: Id, progress: Option<int>, now: Time)
    requires StoreInv(s)
    requires UpdateCourseProgress(s, userId, courseId, progress, now).Ok?
    ensures StoreInv(UpdateCourseProgress(s, userId, courseId, progress, now).value.store)
  {
    var i := FindEnrollmentFor(s.enrollments, userId, courseId).value;
    EnrollmentsInvUpdate(s.enrollments, i, ApplyProgress(s.enrollments[i], progress.value, now));
  }

  // ---------------------------------------------------------------- reads

  /** GET /enrollments/:id: the enrollment's own user or an admin. The user reference is
      dereferenced first, so an enrollment whose user is gone fails on the server side. */
  function GetEnrollmentById(s: Store, callerId: Id, callerRole: Role, id: Id)
    : (r: Result<Enrollment>)
    ensures FindEnrollment(s.enrollments, id).None? <==> r == Err(NotFound(EnrollmentNotFound))
    ensures FindEnrollment(s.enrollments, id).Some? ==>
      var e := s.enrollments[FindEnrollment(s.enrollments, id).value];
      && (FindUser(s.users, e.userId).None? <==> r == Err(ServerError(NullReference)))
      && (FindUser(s.users, e.userId).Some? ==>
            && (e.userId != callerId && callerRole != Admin <==> r == Err(Forbidden(AccessDenied)))
            && (e.userId == callerId || callerRole == Admin <==> r == Ok(e)))
    ensures r.Ok? ==> r.value.id == id && (r.value.userId == callerId || callerRole == Admin)
  {
    match FindEnrollment(s.enrollments, id)
    case None => Err(NotFound(EnrollmentNotFound))
    case Some(i) =>
      var e := s.enrollments[i];
      if FindUser(s.users, e.userId).None? then Err(ServerError(NullReference))
      else if e.userId != callerId && callerRole != Admin then Err(Forbidden(AccessDenied))
      else Ok(e)
  }

  /** After a successful progress update, reading the enrollment back returns what the
      update answered, as long as its user still exists. */
  lemma UpdateProgressThenGet(s: Store, callerId: Id, id: Id, progress: Option<int>,
                              resourceId: Option<string>, now: Time, role: Role)
    requires UpdateProgress(s, callerId, id, progress, resourceId, now).Ok?
    requires FindUser(s.users, callerId).Some?
    ensures var r := UpdateProgress(s, callerId, id, progress, resourceId, now).value;
      GetEnrollmentById(r.store, callerId, role, id) == Ok(r.data)
  {
    var r := UpdateProgress(s, callerId, id, progress, resourceId, now).value;
    FindEnrollmentUpdate(s.enrollments, id, r.data);
  }

  /** GET /enrollments/course/:courseId: the caller's enrollment in the course; instructors
      and admins without one get an empty success instead of 404. */
  function GetEnrollmentStatus(s: Store, callerId: Id, callerRole: Role, courseId: Id)
    : (r: Result<Option<Enrollment>>)
    ensures FindEnrollmentFor(s.enrollments, callerId, courseId).Some? ==>
      r == Ok(Some(s.enrollments[FindEnrollmentFor(s.enrollments, callerId, courseId).value]))
    ensures FindEnrollmentFor(s.enrollments, callerId, courseId).None? ==>
      && (callerRole == Student <==> r == Err(NotFound(NotEnrolled)))
      && (callerRole != Student <==> r == Ok(None))
  {
    match FindEnrollmentFor(s.enrollments, callerId, courseId)
    case Some(i) => Ok(Some(s.enrollments[i]))
    case None =>
      if callerRole == Student then Err(NotFound(NotEnrolled))
      else Ok(None)
  }

  /** After enrolling, the status read of that course answers the new enrollment, whatever
      the caller's role. */
  lemma EnrollThenStatus(s: Store, userId: Id, courseId: Id, oid: Id, uuid: Uuid, now: Time, role: Role)
    requires EnrollInCourse(s, userId, courseId, oid, uuid, now).Ok?
    ensures var r := EnrollInCourse(s, userId, courseId, oid, uuid, now).value;
      GetEnrollmentStatus(r.store, userId, role, courseId) == Ok(Some(r.data))
  {
    var r := EnrollInCourse(s, userId, courseId, oid, uuid, now).value;
    FindFirstAppend(s.enrollments, r.data, (e: Enrollment) => e.userId == userId && e.courseId == courseId);
  }

  function EnrollmentDateKey(e: Enrollment): int { e.enrollmentDate }

  /** The enrollments of user `userId`, in stored order (`Enrollment.find({ userId })`). */
  function EnrollmentsOf(es: seq<Enrollment>, userId: Id): seq<Enrollment> {
    Filter(es, (e: Enrollment) => e.userId == userId)
  }

  /** GET /enrollments/user: each of the caller's enrollments exactly once, newest first. */
  function GetUserEnrollments(s: Store, userId: Id): (r: seq<Enrollment>)
    ensures SortedDesc(r, EnrollmentDateKey)
    ensures multiset(r) == multiset(EnrollmentsOf(s.enrollments, userId))
    ensures forall e :: e in r <==> e in s.enrollments && e.userId == userId
  {
    var isMine := (e: Enrollment) => e.userId == userId;
    var mine := EnrollmentsOf(s.enrollments, userId);
    FilterMembers(s.enrollments, isMine);
    SortDescMembers(mine, EnrollmentDateKey);
    SortDesc(mine, EnrollmentDateKey)
  }
}

=== FILE: groups.dfy ===
/** Grouped sums: the `reduce` into a keyed accumulator object and the `$group` stage with
    `$sum` that the analytics handlers use. Keys keep the order of their first appearance,
    as the properties of a JavaScript object do. */
module Groups {
  import opened Outcomes
  import opened Seqs

  datatype Group<K> = Group(key: K, total: real)

  function GroupKey<K>(g: Group<K>): K { g.key }

  /** Sum of `w` over `xs`. */
  function SumOf<T>(xs: seq<T>, w: T -> real): real {
    if xs == [] then 0.0 else SumOf(xs[..|xs| - 1], w) + w(xs[|xs| - 1])
  }

  /** Sum of `w` over the elements of `xs` whose key is `k`. */
  function SumWhere<T, K(==)>(xs: seq<T>, key: T -> K, k: K, w: T -> real): real {
    if xs == [] then 0.0
    else SumWhere(xs[..|xs| - 1], key, k, w) + (if key(xs[|xs| - 1]) == k then w(xs[|xs| - 1]) else 0.0)
  }

  /** Sum of the group totals. */
  function Totals<K>(gs: seq<Group<K>>): real {
    if gs == [] then 0.0 else Totals(gs[..|gs| - 1]) + gs[|gs| - 1].total
  }

  /** Position of the group with key `k`. */
  function IndexOf<K(==)>(gs: seq<Group<K>>, k: K): (r: Option<nat>)
    ensures r.Some? ==> r.value < |gs| && gs[r.value].key == k
    ensures r.None? <==> !HasKey(gs, GroupKey, k)
  {
    FindFirst(gs, (g: Group<K>) => g.key == k)
  }

  /** One step of the fold: open the group of `x`'s key at zero if absent, then add `w(x)`. */
  function AddTo<T, K(==)>(acc: seq<Group<K>>, x: T, key: T -> K, w: T -> real): seq<Group<K>> {
    match IndexOf(acc, key(x))
    case None => acc + [Group(key(x), w(x))]
    case Some(k) => acc[k := acc[k].(total := acc[k].total + w(x))]
  }

  /** The fold over `xs`, left to right. */
  function GroupSums<T, K(==)>(xs: seq<T>, key: T -> K, w: T -> real): seq<Group<K>> {
    if xs == [] then [] else AddTo(GroupSums(xs[..|xs| - 1], key, w), xs[|xs| - 1], key, w)
  }

  lemma {:induction false} TotalsUpdate<K>(gs: seq<Group<K>>, i: nat, x: Group<K>)
    requires i < |gs|
    ensures Totals(gs[i := x]) == Totals(gs) - gs[i].total + x.total
  {
    var n := |gs|;
    if i < n - 1 {
      assert gs[i := x][..n - 1] == gs[..n - 1][i := x];
      TotalsUpdate(gs[..n - 1], i, x);
    } else {
      assert gs[i := x][..n - 1] == gs[..n - 1];
    }
  }

  lemma TotalsAppend<K>(gs: seq<Group<K>>, x: Group<K>)
    ensures Totals(gs + [x]) == Totals(gs) + x.total
  {
    assert (gs + [x])[..|gs|] == gs;
  }

  /** The fold's groups add up to the sum over all elements. */
  lemma {:induction false} GroupSumsTotal<T, K>(xs: seq<T>, key: T -> K, w: T -> real)
    ensures Totals(GroupSums(xs, key, w)) == SumOf(xs, w)
  {
    if xs != [] {
      var n := |xs|;
      var acc := GroupSums(xs[..n - 1], key, w);
      GroupSumsTotal(xs[..n - 1], key, w);
      var x := xs[n - 1];
      match IndexOf(acc, key(x))
      case None =>
        TotalsAppend(acc, Group(key(x), w(x)));
      case Some(k) =>
        TotalsUpdate(acc, k, acc[k].(total := acc[k].total + w(x)));
    }
  }

  /** The fold opens one group per key. */
  lemma {:induction false} GroupSumsUnique<T, K>(xs: seq<T>, key: T -> K, w: T -> real)
    ensures UniqueBy(GroupSums(xs, key, w), GroupKey)
  {
    if xs != [] {
      var n := |xs|;
      var acc := GroupSums(xs[..n - 1], key, w);
      var x := xs[n - 1];
      GroupSumsUnique(xs[..n - 1], key, w);
      match IndexOf(acc, key(x))
      case None =>
        assert forall i :: 0 <= i < |acc| ==> GroupKey(acc[i]) != GroupKey(Group(key(x), w(x)));
        UniqueByAppend(acc, Group(key(x), w(x)), GroupKey);
      case Some(p) =>
        UniqueByUpdate(acc, p, acc[p].(total := acc[p].total + w(x)), GroupKey);
    }
  }

  /** A key has a group exactly when some element carries it. */
  lemma {:induction false} GroupSumsKeys<T, K>(xs: seq<T>, key: T -> K, w: T -> real, k: K)
    ensures HasKey(GroupSums(xs, key, w), GroupKey, k) <==> exists i :: 0 <= i < |xs| && key(xs[i]) == k
  {
    if xs != [] {
      var n := |xs|;
      var init := xs[..n - 1];
      var acc := GroupSums(init, key, w);
      var x := xs[n - 1];
      var gs := GroupSums(xs, key, w);
      GroupSumsKeys(init, key, w, k);
      if exists i :: 0 <= i < |xs| && key(xs[i]) == k {
        var i :| 0 <= i < |xs| && key(xs[i]) == k;
        if i < n - 1 {
          assert key(init[i]) == k;
          var j :| 0 <= j < |acc| && GroupKey(acc[j]) == k;
          assert GroupKey(gs[j]) == k;
        } else {
          match IndexOf(acc, key(x))
          case None => assert GroupKey(gs[|acc|]) == k;
          case Some(p) => assert GroupKey(gs[p]) == k;
        }
      }
      if HasKey(gs, GroupKey, k) {
        var j :| 0 <= j < |gs| && GroupKey(gs[j]) == k;
        if j < |acc| && GroupKey(acc[j]) == k {
          assert HasKey(acc, GroupKey, k);
          var i :| 0 <= i < |init| && key(init[i]) == k;
          assert xs[i] == init[i];
        } else {
          assert key(xs[n - 1]) == k;
        }
      }
    }
  }

  /** Each group's total is the sum over the elements with that key. */
  lemma GroupSumsValues<T, K>(xs: seq<T>, key: T -> K, w: T -> real)
    ensures var gs := GroupSums(xs, key, w);
      forall i :: 0 <= i < |gs| ==> gs[i].total == SumWhere(xs, key, gs[i].key, w)
  {
    var gs := GroupSums(xs, key, w);
    forall i | 0 <= i < |gs|
      ensures gs[i].total == SumWhere(xs, key, gs[i].key, w)
    {
      GroupSumsValueAt(xs, key, w, i);
    }
  }

  /** The group at position `i` totals the elements with its key; the fold never moves a group. */
  lemma {:induction false} GroupSumsValueAt<T, K>(xs: seq<T>, key: T -> K, w: T -> real, i: nat)
    requires i < |GroupSums(xs, key, w)|
    ensures GroupSums(xs, key, w)[i].total == SumWhere(xs, key, GroupSums(xs, key, w)[i].key, w)
  {
    var n := |xs|;
    var init := xs[..n - 1];
    var acc := GroupSums(init, key, w);
    var x := xs[n - 1];
    var gs := GroupSums(xs, key, w);
    assert gs == AddTo(acc, x, key, w);
    SumWhereStep(xs, key, gs[i].key, w);
    match IndexOf(acc, key(x))
    case None =>
      if i < |acc| {
        assert gs[i] == acc[i];
        GroupSumsValueAt(init, key, w, i);
      } else {
        assert gs[i] == Group(key(x), w(x));
        GroupSumsKeys(init, key, w, key(x));
        SumWhereAbsent(init, key, key(x), w);
      }
    case Some(p) =>
      GroupSumsValueAt(init, key, w, i);
      if i != p {
        GroupSumsUnique(init, key, w);
        assert gs[i] == acc[i];
        assert GroupKey(acc[i]) != GroupKey(acc[p]);
      }
  }

  /** Position of the first element of `xs` whose key is `k`, or `|xs|` when there is none. */
  function FirstIndex<T, K(==)>(xs: seq<T>, key: T -> K, k: K): (r: nat)
    ensures r <= |xs|
    ensures r < |xs| ==> key(xs[r]) == k
    ensures forall i :: 0 <= i < r ==> key(xs[i]) != k
  {
    if xs == [] then 0
    else
      var f := FirstIndex(xs[..|xs| - 1], key, k);
      if f < |xs| - 1 then f
      else if key(xs[|xs| - 1]) == k then |xs| - 1
      else |xs|
  }

  /** The groups come in the order in which their keys first occur in `xs`, as the keys of
      the accumulator object are created. */
  lemma {:induction false} GroupSumsOrder<T, K>(xs: seq<T>, key: T -> K, w: T -> real)
    ensures var gs := GroupSums(xs, key, w);
      forall i, j :: 0 <= i < j < |gs| ==>
        FirstIndex(xs, key, gs[i].key) < FirstIndex(xs, key, gs[j].key) < |xs|
  {
    var gs := GroupSums(xs, key, w);
    forall i, j | 0 <= i < j < |gs|
      ensures FirstIndex(xs, key, gs[i].key) < FirstIndex(xs, key, gs[j].key) < |xs|
    {
      GroupSumsOrderAt(xs, key, w, i, j);
    }
  }

  /** Every group's key occurs in `xs`. */
  lemma GroupKeyOccurs<T, K>(xs: seq<T>, key: T -> K, w: T -> real, i: nat)
    requires i < |GroupSums(xs, key, w)|
    ensures FirstIndex(xs, key, GroupSums(xs, key, w)[i].key) < |xs|
  {
    var k := GroupSums(xs, key, w)[i].key;
    assert GroupKey(GroupSums(xs, key, w)[i]) == k;
    GroupSumsKeys(xs, key, w, k);
  }

  lemma {:induction false} GroupSumsOrderAt<T, K>(xs: seq<T>, key: T -> K, w: T -> real, i: nat, j: nat)
    requires i < j < |GroupSums(xs, key, w)|
    ensures FirstIndex(xs, key, GroupSums(xs, key, w)[i].key) < FirstIndex(xs, key, GroupSums(xs, key, w)[j].key) < |xs|
  {
    var n := |xs|;
    var init := xs[..n - 1];
    var acc := GroupSums(init, key, w);
    var x := xs[n - 1];
    var gs := GroupSums(xs, key, w);
    assert gs == AddTo(acc, x, key, w);
    match IndexOf(acc, key(x))
    case None =>
      assert gs[i] == acc[i];
      GroupKeyOccurs(init, key, w, i);
      if j < |acc| {
        assert gs[j] == acc[j];
        GroupSumsOrderAt(init, key, w, i, j);
      } else {
        assert gs[j].key == key(x);
        GroupSumsKeys(init, key, w, key(x));
        assert FirstIndex(init, key, key(x)) == n - 1;
      }
    case Some(p) =>
      assert gs[i].key == acc[i].key && gs[j].key == acc[j].key;
      GroupSumsOrderAt(init, key, w, i, j);
  }

  /** Unfolds `SumWhere` at the last element. */
  lemma SumWhereStep<T, K>(xs: seq<T>, key: T -> K, k: K, w: T -> real)
    requires xs != []
    ensures SumWhere(xs, key, k, w) == SumWhere(xs[..|xs| - 1], key, k, w)
      + (if key(xs[|xs| - 1]) == k then w(xs[|xs| - 1]) else 0.0)
  {
  }

  /** Nothing sums to zero when the key never occurs. */
  lemma {:induction false} SumWhereAbsent<T, K>(xs: seq<T>, key: T -> K, k: K, w: T -> real)
    requires forall i :: 0 <= i < |xs| ==> key(xs[i]) != k
    ensures SumWhere(xs, key, k, w) == 0.0
  {
    if xs != [] {
      var n := |xs|;
      assert forall i :: 0 <= i < n - 1 ==> xs[..n - 1][i] == xs[i];
      SumWhereAbsent(xs[..n - 1], key, k, w);
    }
  }

  /** The group keys, and their order, do not depend on what is summed. */
  lemma {:induction false} GroupKeysIndependent<T, K>(xs: seq<T>, key: T -> K, w1: T -> real, w2: T -> real)
    ensures |GroupSums(xs, key, w1)| == |GroupSums(xs, key, w2)|
    ensures forall i :: 0 <= i < |GroupSums(xs, key, w1)| ==>
      GroupSums(xs, key, w1)[i].key == GroupSums(xs, key, w2)[i].key
  {
    if xs != [] {
      var n := |xs|;
      GroupKeysIndependent(xs[..n - 1], key, w1, w2);
      var a1 := GroupSums(xs[..n - 1], key, w1);
      var a2 := GroupSums(xs[..n - 1], key, w2);
      SameKeysSameIndex(a1, a2, key(xs[n - 1]));
    }
  }

  lemma SameKeysSameIndex<K>(a1: seq<Group<K>>, a2: seq<Group<K>>, k: K)
    requires |a1| == |a2| && forall i :: 0 <= i < |a1| ==> a1[i].key == a2[i].key
    ensures IndexOf(a1, k).None? <==> IndexOf(a2, k).None?
    ensures IndexOf(a1, k).Some? ==> IndexOf(a1, k) == IndexOf(a2, k)
  {
    var i1 := IndexOf(a1, k);
    var i2 := IndexOf(a2, k);
    if HasKey(a1, GroupKey, k) {
      var j :| 0 <= j < |a1| && GroupKey(a1[j]) == k;
      assert GroupKey(a2[j]) == k;
    }
    if HasKey(a2, GroupKey, k) {
      var j :| 0 <= j < |a2| && GroupKey(a2[j]) == k;
      assert GroupKey(a1[j]) == k;
    }
  }
}

=== FILE: outcomes.dfy ===
/** Failure-compatible wrappers shared by every handler of the marketplace backend.
    Each handler either answers with data or with one of the HTTP error families the
    controllers use, carrying a message: the controller's own text where it writes one, and a
    fixed stand-in where a catch forwards the driver's or Mongoose's `error.message`. */
module Outcomes {

  datatype Option<+T> = None | Some(value: T) {
    function GetOr(default: T): T {
      match this
      case Some(v) => v
      case None => default
    }
  }

  /** The error families the controllers answer with (the status code is `Code`). */
  datatype Error =
    | BadRequest(message: string)
    | Unauthorized(message: string)
    | Forbidden(message: string)
    | NotFound(message: string)
    | ServerError(message: string)
  {
    function Code(): int {
      match this
      case BadRequest(_) => 400
      case Unauthorized(_) => 401
      case Forbidden(_) => 403
      case NotFound(_) => 404
      case ServerError(_) => 500
    }
  }

  datatype Result<+T> = Ok(value: T) | Err(error: Error) {
    predicate IsFailure() {
      Err?
    }
  }

  /** A successful answer: the store after the handler's writes, and the data it returns. */
  datatype Reply<+S, +T> = Reply(store: S, data: T)

  /** Leading part of the message MongoDB attaches to a write that violates a unique index. */
  const DuplicateKey := "E11000 duplicate key error"
}

=== FILE: ratings.dfy ===
/** Ratings of controllers/ratingController.js: adding, re-rating and deleting a rating, the
    recomputation of the course's cached `rating`/`totalRatings` after each of them, and the
    paginated listing with its star distribution. */
module Ratings {
  import opened Outcomes
  import opened Seqs
  import opened Schema

  const NotEnrolledToRate := "You must be enrolled in this course to rate it"
  const AddFailed := "Failed to add rating"
  const RatingNotFound := "Rating not found"
  const InvalidCourseId := "Invalid course ID"
  const FetchFailed := "Failed to fetch ratings"

  // ---------------------------------------------------------------- aggregates

  /** Sum of `f` over the ratings of course `courseId` (the `$match` + `$group` stages). */
  function Tally(rs: seq<Rating>, courseId: Id, f: Rating -> int): int {
    if rs == [] then 0
    else
      var last := rs[|rs| - 1];
      Tally(rs[..|rs| - 1], courseId, f) + (if last.courseId == courseId then f(last) else 0)
  }

  function One(r: Rating): int { 1 }
  function Score(r: Rating): int { r.score }

  /** Counts ratings whose score is exactly `k` (the `$cond`/`$eq` stars). */
  function Stars(k: int): Rating -> int {
    (r: Rating) => if r.score == k then 1 else 0
  }

  /** The course's ratings with exactly `k` stars. */
  function WithStars(courseId: Id, k: int): Rating -> bool {
    (r: Rating) => r.courseId == courseId && r.score == k
  }

  /** The `$cond` sum of a star bucket counts the course's ratings with that score. */
  lemma {:induction false} StarsCount(rs: seq<Rating>, c: Id, k: int)
    ensures Tally(rs, c, Stars(k)) == |Filter(rs, WithStars(c, k))|
  {
    if rs != [] {
      var n := |rs|;
      assert rs == rs[..n - 1] + [rs[n - 1]];
      FilterAppend(rs[..n - 1], rs[n - 1], WithStars(c, k));
      StarsCount(rs[..n - 1], c, k);
    }
  }

  /** `$sum: 1` over the course's ratings. */
  function CountFor(rs: seq<Rating>, courseId: Id): (n: int)
    ensures n >= 0
  {
    CountNonNegative(rs, courseId);
    Tally(rs, courseId, One)
  }

  lemma {:induction false} CountNonNegative(rs: seq<Rating>, courseId: Id)
    ensures Tally(rs, courseId, One) >= 0
  {
    if rs != [] {
      CountNonNegative(rs[..|rs| - 1], courseId);
    }
  }

  function ScoreSum(rs: seq<Rating>, courseId: Id): int {
    Tally(rs, courseId, Score)
  }

  ghost predicate ScoresValidFor(rs: seq<Rating>, courseId: Id) {
    forall i :: 0 <= i < |rs| && rs[i].courseId == courseId ==> ValidScore(rs[i].score)
  }

  /** Ratings of other courses do not contribute to a course's tallies: replacing one. */
  lemma {:induction false} TallyUpdateOther(rs: seq<Rating>, i: nat, x: Rating, c: Id, f: Rating -> int)
    requires i < |rs| && rs[i].courseId != c && x.courseId != c
    ensures Tally(rs[i := x], c, f) == Tally(rs, c, f)
  {
    var n := |rs|;
    if i < n - 1 {
      assert rs[i := x][..n - 1] == rs[..n - 1][i := x];
      TallyUpdateOther(rs[..n - 1], i, x, c, f);
    } else {
      assert rs[i := x][..n - 1] == rs[..n - 1];
    }
  }

  /** ... removing one. */
  lemma {:induction false} TallyRemoveOther(rs: seq<Rating>, i: nat, c: Id, f: Rating -> int)
    requires i < |rs| && rs[i].courseId != c
    ensures Tally(rs[..i] + rs[i + 1..], c, f) == Tally(rs, c, f)
  {
    var n := |rs|;
    var t := rs[..i] + rs[i + 1..];
    if i < n - 1 {
      assert t[..|t| - 1] == rs[..n - 1][..i] + rs[..n - 1][i + 1..];
      assert t[|t| - 1] == rs[n - 1];
      TallyRemoveOther(rs[..n - 1], i, c, f);
    } else {
      assert t == rs[..n - 1];
    }
  }

  /** ... appending one. */
  lemma TallyAppend(rs: seq<Rating>, x: Rating, c: Id, f: Rating -> int)
    ensures Tally(rs + [x], c, f) == Tally(rs, c, f) + (if x.courseId == c then f(x) else 0)
  {
    assert (rs + [x])[..|rs|] == rs;
  }

  /** Removing one rating of the course lowers its count by one. */
  lemma {:induction false} CountRemoveSame(rs: seq<Rating>, i: nat)
    requires i < |rs|
    ensures CountFor(rs[..i] + rs[i + 1..], rs[i].courseId) == CountFor(rs, rs[i].courseId) - 1
  {
    var n := |rs|;
    var c := rs[i].courseId;
    var t := rs[..i] + rs[i + 1..];
    if i < n - 1 {
      assert t[..|t| - 1] == rs[..n - 1][..i] + rs[..n - 1][i + 1..];
      assert t[|t| - 1] == rs[n - 1];
      CountRemoveSame(rs[..n - 1], i);
    } else {
      assert t == rs[..n - 1];
    }
  }

  /** With scores in 1..5 the sum lies between the count and five times the count. */
  lemma {:induction false} ScoreSumBounds(rs: seq<Rating>, c: Id)
    requires ScoresValidFor(rs, c)
    ensures 0 <= CountFor(rs, c) <= ScoreSum(rs, c) <= 5 * CountFor(rs, c)
  {
    if rs != [] {
      var n := |rs|;
      assert ScoresValidFor(rs[..n - 1], c) by {
        var p := rs[..n - 1];
        forall i | 0 <= i < |p| && p[i].courseId == c
          ensures ValidScore(p[i].score)
        {
          assert p[i] == rs[i];
        }
      }
      ScoreSumBounds(rs[..n - 1], c);
    }
  }

  /** With scores in 1..5 the five star buckets partition the ratings. */
  lemma {:induction false} StarsPartition(rs: seq<Rating>, c: Id)
    requires ScoresValidFor(rs, c)
    ensures Tally(rs, c, Stars(5)) + Tally(rs, c, Stars(4)) + Tally(rs, c, Stars(3))
          + Tally(rs, c, Stars(2)) + Tally(rs, c, Stars(1)) == CountFor(rs, c)
  {
    if rs != [] {
      var n := |rs|;
      assert ScoresValidFor(rs[..n - 1], c) by {
        var p := rs[..n - 1];
        forall i | 0 <= i < |p| && p[i].courseId == c
          ensures ValidScore(p[i].score)
        {
          assert p[i] == rs[i];
        }
      }
      StarsPartition(rs[..n - 1], c);
    }
  }

  /** Ratings of one course, in natural order (`Rating.find({ courseId })`). */
  function OfCourse(courseId: Id): Rating -> bool {
    (r: Rating) => r.courseId == courseId
  }

  /** `countDocuments({ courseId })` agrees with the `$sum: 1` of the aggregate. */
  lemma {:induction false} FilterCount(rs: seq<Rating>, c: Id)
    ensures |Filter(rs, OfCourse(c))| == CountFor(rs, c)
  {
    if rs != [] {
      var n := |rs|;
      assert rs == rs[..n - 1] + [rs[n - 1]];
      FilterAppend(rs[..n - 1], rs[n - 1], OfCourse(c));
      FilterCount(rs[..n - 1], c);
    }
  }

  // ---------------------------------------------------------------- the cached course rating

  /** `Math.round(avg * 10)` on the exact mean `sum / n`: the nearest integer to `10 * sum / n`,
      halves rounded up. */
  function RoundedTenths(sum: int, n: int): (t: int)
    requires n > 0
    ensures n * (2 * t - 1) <= 20 * sum < n * (2 * t + 1)
  {
    var t := (20 * sum + n) / (2 * n);
    DivBounds(20 * sum + n, 2 * n);
    assert 2 * n * t <= 20 * sum + n < 2 * n * t + 2 * n;
    t
  }

  /** The rounding is the only integer within half a tenth of the mean. */
  lemma RoundedTenthsUnique(sum: int, n: int, t: int)
    requires n > 0 && n * (2 * t - 1) <= 20 * sum < n * (2 * t + 1)
    ensures t == RoundedTenths(sum, n)
  {
    var u := RoundedTenths(sum, n);
    if t < u {
      assert n * (2 * t + 1) <= n * (2 * u - 1) by {
        assert 2 * t + 1 <= 2 * u - 1;
        MulMonotone(n, 2 * t + 1, 2 * u - 1);
      }
    } else if t > u {
      assert n * (2 * u + 1) <= n * (2 * t - 1) by {
        assert 2 * u + 1 <= 2 * t - 1;
        MulMonotone(n, 2 * u + 1, 2 * t - 1);
      }
    }
  }

  lemma MulMonotone(n: int, a: int, b: int)
    requires n > 0 && a <= b
    ensures n * a <= n * b
  {
  }

  /** A mean of scores between 1 and 5 rounds to between 1.0 and 5.0. */
  lemma RoundedTenthsBounds(sum: int, n: int)
    requires n > 0 && n <= sum <= 5 * n
    ensures 10 <= RoundedTenths(sum, n) <= 50
  {
    var t := RoundedTenths(sum, n);
    if t < 10 {
      assert n * (2 * t + 1) <= n * 19 by { MulMonotone(n, 2 * t + 1, 19); }
    } else if t > 50 {
      assert n * 101 <= n * (2 * t - 1) by { MulMonotone(n, 101, 2 * t - 1); }
    }
  }

  /** The pair `updateCourseRating` stores: rounded mean and count, or zeros for no ratings. */
  datatype Cache = Cache(rating: real, totalRatings: int)

  lemma TenthsExact(t: int)
    ensures (t as real / 10.0) * 10.0 == t as real
    ensures ((t as real / 10.0) * 10.0).Floor == t
  {
  }

  function CacheOf(rs: seq<Rating>, courseId: Id): (r: Cache)
    ensures r.totalRatings == CountFor(rs, courseId)
    ensures CountFor(rs, courseId) == 0 ==> r.rating == 0.0
    ensures CountFor(rs, courseId) > 0 ==>
      var t := (r.rating * 10.0).Floor;
      && t as real == r.rating * 10.0
      && CountFor(rs, courseId) * (2 * t - 1) <= 20 * ScoreSum(rs, courseId) < CountFor(rs, courseId) * (2 * t + 1)
  {
    var n := CountFor(rs, courseId);
    if n <= 0 then Cache(0.0, n)
    else
      var t := RoundedTenths(ScoreSum(rs, courseId), n);
      TenthsExact(t);
      Cache(t as real / 10.0, n)
  }

  /** When the course has ratings with scores in 1..5, its cached rating lies in [1.0, 5.0]. */
  lemma CacheInRange(rs: seq<Rating>, courseId: Id)
    requires ScoresValidFor(rs, courseId)
    ensures 0 <= CacheOf(rs, courseId).totalRatings
    ensures 0.0 <= CacheOf(rs, courseId).rating <= 5.0
    ensures CountFor(rs, courseId) > 0 ==> 1.0 <= CacheOf(rs, courseId).rating <= 5.0
  {
    ScoreSumBounds(rs, courseId);
    var n := CountFor(rs, courseId);
    if n > 0 {
      RoundedTenthsBounds(ScoreSum(rs, courseId), n);
    }
  }

  /** The course's cached fields agree with its ratings. */
  ghost predicate CacheConsistent(s: Store, courseId: Id) {
    match FindCourse(s.courses, courseId)
    case None => true
    case Some(i) =>
      Cache(s.courses[i].rating, s.courses[i].totalRatings) == CacheOf(s.ratings, courseId)
  }

  /** Every course's cached fields agree with its ratings. */
  ghost predicate AllCachesConsistent(s: Store) {
    forall i :: 0 <= i < |s.courses| ==>
      Cache(s.courses[i].rating, s.courses[i].totalRatings) == CacheOf(s.ratings, s.courses[i].id)
  }

  /** `updateCourseRating`: recompute the cache of `courseId` from all its ratings; a missing
      course is skipped and only that course's two cached fields are written. */
  function RecomputeCache(s: Store, courseId: Id): (t: Store)
    ensures t.users == s.users && t.resources == s.resources
    ensures t.enrollments == s.enrollments && t.ratings == s.ratings
    ensures FindCourse(s.courses, courseId).None? ==> t == s
    ensures FindCourse(s.courses, courseId).Some? ==>
      var i := FindCourse(s.courses, courseId).value;
      && |t.courses| == |s.courses|
      && (forall j :: 0 <= j < |s.courses| && j != i ==> t.courses[j] == s.courses[j])
      && t.courses[i] == s.courses[i].(rating := t.courses[i].rating, totalRatings := t.courses[i].totalRatings)
    ensures CacheConsistent(t, courseId)
  {
    match FindCourse(s.courses, courseId)
    case None => s
    case Some(i) =>
      var cache := CacheOf(s.ratings, courseId);
      var c := s.courses[i].(rating := cache.rating, totalRatings := cache.totalRatings);
      var t := s.(courses := s.courses[i := c]);
      FindCourseUpdate(s.courses, courseId, c);
      t
  }

  /** Recomputing one course's cache keeps the course collection valid when that course's
      scores are in 1..5. */
  lemma RecomputePreservesCourses(s: Store, courseId: Id)
    requires CoursesInv(s.courses) && ScoresValidFor(s.ratings, courseId)
    ensures CoursesInv(RecomputeCache(s, courseId).courses)
  {
    match FindCourse(s.courses, courseId)
    case None =>
    case Some(i) =>
      CacheInRange(s.ratings, courseId);
      var t := RecomputeCache(s, courseId);
      assert ValidCourse(s.courses[i]);
      assert t.courses == s.courses[i := t.courses[i]];
      CoursesInvUpdate(s.courses, i, t.courses[i]);
  }

  /** After a change confined to the ratings of `courseId`, recomputing that course's cache
      restores consistency of every course (course `_id`s are unique). */
  lemma RecomputeRestoresAll(s: Store, courseId: Id, rs: seq<Rating>)
    requires AllCachesConsistent(s) && UniqueBy(s.courses, CourseOid)
    requires forall c :: c != courseId ==> CacheOf(rs, c) == CacheOf(s.ratings, c)
    ensures AllCachesConsistent(RecomputeCache(s.(ratings := rs), courseId))
  {
    var s' := s.(ratings := rs);
    var t := RecomputeCache(s', courseId);
    forall j | 0 <= j < |t.courses|
      ensures Cache(t.courses[j].rating, t.courses[j].totalRatings) == CacheOf(t.ratings, t.courses[j].id)
    {
      match FindCourse(s'.courses, courseId)
      case None =>
        assert s.courses[j].id != courseId;
      case Some(i) =>
        if j != i {
          assert CourseOid(s.courses[j]) != CourseOid(s.courses[i]);
          assert t.courses[j] == s.courses[j];
        } else {
          FindCourseUpdate(s'.courses, courseId, t.courses[i]);
        }
    }
  }

  /** A caches-preserving change: replacing one rating by another of the same course. */
  lemma UpdateKeepsOtherCaches(rs: seq<Rating>, i: nat, x: Rating)
    requires i < |rs| && x.courseId == rs[i].courseId
    ensures forall c :: c != x.courseId ==> CacheOf(rs[i := x], c) == CacheOf(rs, c)
  {
    forall c | c != x.courseId
      ensures CacheOf(rs[i := x], c) == CacheOf(rs, c)
    {
      TallyUpdateOther(rs, i, x, c, One);
      TallyUpdateOther(rs, i, x, c, Score);
    }
  }

  lemma AppendKeepsOtherCaches(rs: seq<Rating>, x: Rating)
    ensures forall c :: c != x.courseId ==> CacheOf(rs + [x], c) == CacheOf(rs, c)
  {
    forall c | c != x.courseId
      ensures CacheOf(rs + [x], c) == CacheOf(rs, c)
    {
      TallyAppend(rs, x, c, One);
      TallyAppend(rs, x, c, Score);
    }
  }

  lemma RemoveKeepsOtherCaches(rs: seq<Rating>, i: nat)
    requires i < |rs|
    ensures forall c :: c != rs[i].courseId ==> CacheOf(rs[..i] + rs[i + 1..], c) == CacheOf(rs, c)
  {
    forall c | c != rs[i].courseId
      ensures CacheOf(rs[..i] + rs[i + 1..], c) == CacheOf(rs, c)
    {
      TallyRemoveOther(rs, i, c, One);
      TallyRemoveOther(rs, i, c, Score);
    }
  }

  // ---------------------------------------------------------------- handlers

  /** POST /ratings/course/:courseId: the caller must be enrolled; an existing rating by the
      caller is overwritten in score and review (keeping `isVerified`), otherwise a new one is
      created, verified iff the enrollment is completed. Schema validation and the `_id` index
      fail inside the handler's try, so they answer 500. Every success recomputes the cache. */
  function AddRating(s: Store, userId: Id, courseId: Id, score: Option<int>, review: Option<string>,
                     oid: Id, now: Time): (r: Result<Reply<Store, Rating>>)
    ensures FindEnrollmentFor(s.enrollments, userId, courseId).None? <==>
      r == Err(Forbidden(NotEnrolledToRate))
    ensures FindEnrollmentFor(s.enrollments, userId, courseId).Some? ==>
      (r == Err(ServerError(AddFailed)) <==>
        || score.None? || !ValidScore(score.value) || !ValidReview(review)
        || (FindRatingFor(s.ratings, userId, courseId).None? && HasKey(s.ratings, RatingOid, oid)))
    ensures r.Err? ==> r.error.Forbidden? || r.error.ServerError?
    ensures r.Ok? ==>
      var e := s.enrollments[FindEnrollmentFor(s.enrollments, userId, courseId).value];
      var t := r.value.store; var x := r.value.data;
      && score.Some? && x.score == score.value && x.review == review
      && x.userId == userId && x.courseId == courseId && ValidRating(x)
      && t == RecomputeCache(s.(ratings := t.ratings), courseId)
      && CacheConsistent(t, courseId)
      && match FindRatingFor(s.ratings, userId, courseId)
         case Some(i) =>
           && x == s.ratings[i].(score := score.value, review := review)
           && t.ratings == s.ratings[i := x]
         case None =>
           && x == Rating(oid, userId, courseId, score.value, review, e.completionStatus == Completed, now)
           && t.ratings == s.ratings + [x]
  {
    match FindEnrollmentFor(s.enrollments, userId, courseId)
    case None => Err(Forbidden(NotEnrolledToRate))
    case Some(k) =>
      if score.None? || !ValidScore(score.value) || !ValidReview(review) then Err(ServerError(AddFailed))
      else
        match FindRatingFor(s.ratings, userId, courseId)
        case Some(i) =>
          var x := s.ratings[i].(score := score.value, review := review);
          Ok(Reply(RecomputeCache(s.(ratings := s.ratings[i := x]), courseId), x))
        case None =>
          if HasKey(s.ratings, RatingOid, oid) then Err(ServerError(AddFailed))
          else
            var verified := s.enrollments[k].completionStatus == Completed;
            var x := Rating(oid, userId, courseId, score.value, review, verified, now);
            Ok(Reply(RecomputeCache(s.(ratings := s.ratings + [x]), courseId), x))
  }

  /** A successful add leaves one rating per (user, course): the count grows by one exactly
      when the caller had not rated the course before. */
  lemma AddRatingCount(s: Store, userId: Id, courseId: Id, score: Option<int>, review: Option<string>,
                       oid: Id, now: Time)
    requires AddRating(s, userId, courseId, score, review, oid, now).Ok?
    ensures var t := AddRating(s, userId, courseId, score, review, oid, now).value.store;
      CountFor(t.ratings, courseId) ==
        CountFor(s.ratings, courseId) + (if FindRatingFor(s.ratings, userId, courseId).None? then 1 else 0)
  {
    var t := AddRating(s, userId, courseId, score, review, oid, now).value.store;
    match FindRatingFor(s.ratings, userId, courseId)
    case None =>
      TallyAppend(s.ratings, t.ratings[|s.ratings|], courseId, One);
    case Some(i) =>
      var x := t.ratings[i];
      CountUpdateSame(s.ratings, i, x);
  }

  /** Replacing a rating by one of the same course does not change that course's count. */
  lemma {:induction false} CountUpdateSame(rs: seq<Rating>, i: nat, x: Rating)
    requires i < |rs| && x.courseId == rs[i].courseId
    ensures CountFor(rs[i := x], x.courseId) == CountFor(rs, x.courseId)
  {
    var n := |rs|;
    if i < n - 1 {
      assert rs[i := x][..n - 1] == rs[..n - 1][i := x];
      CountUpdateSame(rs[..n - 1], i, x);
    } else {
      assert rs[i := x][..n - 1] == rs[..n - 1];
    }
  }

  lemma AddRatingPreservesInv(s: Store, userId: Id, courseId: Id, score: Option<int>,
                              review: Option<string>, oid: Id, now: Time)
    requires StoreInv(s)
    requires AddRating(s, userId, courseId, score, review, oid, now).Ok?
    ensures StoreInv(AddRating(s, userId, courseId, score, review, oid, now).value.store)
  {
    var r := AddRating(s, userId, courseId, score, review, oid, now).value;
    var t, x := r.store, r.data;
    assert ValidRating(x) && x.userId == userId && x.courseId == courseId;
    assert t == RecomputeCache(s.(ratings := t.ratings), courseId);
    match FindRatingFor(s.ratings, userId, courseId) {
    case Some(i) =>
      assert t.ratings == s.ratings[i := x];
      RatingsInvUpdate(s.ratings, i, x);
    case None =>
      assert t.ratings == s.ratings + [x] && x.id == oid;
      assert !HasKey(s.ratings, RatingOid, oid);
      RatingsInvAppend(s.ratings, x);
    }
    RecomputeKeepsInv(s, t.ratings, courseId);
  }

  /** Replacing the ratings by a valid collection and refreshing one course's cache keeps
      every collection's invariant. */
  lemma RecomputeKeepsInv(s: Store, rs: seq<Rating>, courseId: Id)
    requires StoreInv(s) && RatingsInv(rs)
    ensures StoreInv(RecomputeCache(s.(ratings := rs), courseId))
  {
    ValidScoresOf(rs, courseId);
    RecomputePreservesCourses(s.(ratings := rs), courseId);
  }

  lemma ValidScoresOf(rs: seq<Rating>, courseId: Id)
    requires forall i :: 0 <= i < |rs| ==> ValidRating(rs[i])
    ensures ScoresValidFor(rs, courseId)
  {
  }

  /** Adding or re-rating keeps every course's cache consistent with the ratings. */
  lemma AddRatingKeepsCaches(s: Store, userId: Id, courseId: Id, score: Option<int>,
                             review: Option<string>, oid: Id, now: Time)
    requires StoreInv(s) && AllCachesConsistent(s)
    requires AddRating(s, userId, courseId, score, review, oid, now).Ok?
    ensures AllCachesConsistent(AddRating(s, userId, courseId, score, review, oid, now).value.store)
  {
    var t := AddRating(s, userId, courseId, score, review, oid, now).value.store;
    var x := AddRating(s, userId, courseId, score, review, oid, now).value.data;
    match FindRatingFor(s.ratings, userId, courseId)
    case Some(i) =>
      UpdateKeepsOtherCaches(s.ratings, i, x);
      RecomputeRestoresAll(s, courseId, t.ratings);
    case None =>
      AppendKeepsOtherCaches(s.ratings, x);
      RecomputeRestoresAll(s, courseId, t.ratings);
  }

  /** DELETE /ratings/course/:courseId: removes the caller's rating of the course and
      recomputes the cache; without one, 404 and nothing changes. */
  function DeleteRating(s: Store, userId: Id, courseId: Id): (r: Result<Reply<Store, ()>>)
    ensures FindRatingFor(s.ratings, userId, courseId).None? <==> r == Err(NotFound(RatingNotFound))
    ensures r.Err? ==> r == Err(NotFound(RatingNotFound))
    ensures r.Ok? ==>
      var i := FindRatingFor(s.ratings, userId, courseId).value; var t := r.value.store;
      && t.ratings == s.ratings[..i] + s.ratings[i + 1..]
      && t == RecomputeCache(s.(ratings := t.ratings), courseId)
      && CacheConsistent(t, courseId)
  {
    match FindRatingFor(s.ratings, userId, courseId)
    case None => Err(NotFound(RatingNotFound))
    case Some(i) => Ok(Reply(RecomputeCache(s.(ratings := s.ratings[..i] + s.ratings[i + 1..]), courseId), ()))
  }

  /** Deleting takes exactly one rating away from the course's count, and no rating by the
      caller for that course remains (under the unique (user, course) index). */
  lemma DeleteRatingEffect(s: Store, userId: Id, courseId: Id)
    requires RatingsInv(s.ratings)
    requires DeleteRating(s, userId, courseId).Ok?
    ensures var t := DeleteRating(s, userId, courseId).value.store;
      && CountFor(t.ratings, courseId) == CountFor(s.ratings, courseId) - 1
      && FindRatingFor(t.ratings, userId, courseId).None?
  {
    var i := FindRatingFor(s.ratings, userId, courseId).value;
    var rs := s.ratings;
    var t := DeleteRating(s, userId, courseId).value.store;
    CountRemoveSame(rs, i);
    forall j | 0 <= j < |t.ratings|
      ensures RatingPair(t.ratings[j]) != (userId, courseId)
    {
      if j < i {
        assert t.ratings[j] == rs[j];
        assert RatingPair(rs[j]) != RatingPair(rs[i]);
      } else {
        assert t.ratings[j] == rs[j + 1];
        assert RatingPair(rs[i]) != RatingPair(rs[j + 1]);
      }
    }
  }

  lemma DeleteRatingPreservesInv(s: Store, userId: Id, courseId: Id)
    requires StoreInv(s)
    requires DeleteRating(s, userId, courseId).Ok?
    ensures StoreInv(DeleteRating(s, userId, courseId).value.store)
  {
    var i := FindRatingFor(s.ratings, userId, courseId).value;
    var rs := s.ratings[..i] + s.ratings[i + 1..];
    RatingsInvRemove(s.ratings, i);
    RecomputeKeepsInv(s, rs, courseId);
  }

  lemma RatingsInvRemove(rs: seq<Rating>, i: nat)
    requires RatingsInv(rs) && i < |rs|
    ensures RatingsInv(rs[..i] + rs[i + 1..])
  {
    var t := rs[..i] + rs[i + 1..];
    UniqueByRemove(rs, i, RatingOid);
    UniqueByRemove(rs, i, RatingPair);
    forall j | 0 <= j < |t|
      ensures ValidRating(t[j])
    {
      if j < i { assert t[j] == rs[j]; } else { assert t[j] == rs[j + 1]; }
    }
  }

  /** Deleting keeps every course's cache consistent with the ratings. */
  lemma DeleteRatingKeepsCaches(s: Store, userId: Id, courseId: Id)
    requires CoursesInv(s.courses) && AllCachesConsistent(s)
    requires DeleteRating(s, userId, courseId).Ok?
    ensures AllCachesConsistent(DeleteRating(s, userId, courseId).value.store)
  {
    var i := FindRatingFor(s.ratings, userId, courseId).value;
    RemoveKeepsOtherCaches(s.ratings, i);
    RecomputeRestoresAll(s, courseId, s.ratings[..i] + s.ratings[i + 1..]);
  }

  /** GET /ratings/course/:courseId/user: the caller's rating of the course, or null. */
  function GetUserRating(s: Store, userId: Id, courseId: Id): (r: Option<Rating>)
    ensures r.None? <==> forall i :: 0 <= i < |s.ratings| ==> RatingPair(s.ratings[i]) != (userId, courseId)
    ensures r.Some? ==> r.value in s.ratings && r.value.userId == userId && r.value.courseId == courseId
  {
    match FindRatingFor(s.ratings, userId, courseId)
    case None => None
    case Some(i) => Some(s.ratings[i])
  }

  // ---------------------------------------------------------------- listing

  datatype RatingStats = RatingStats(
    averageRating: real,
    totalRatings: int,
    fiveStars: int,
    fourStars: int,
    threeStars: int,
    twoStars: int,
    oneStar: int)

  const ZeroStats := RatingStats(0.0, 0, 0, 0, 0, 0, 0)

  /** The `$group` stage over the course's ratings; all zeros when it has none. */
  function StatsOf(rs: seq<Rating>, courseId: Id): (r: RatingStats)
    ensures r.totalRatings == |Filter(rs, OfCourse(courseId))|
    ensures CountFor(rs, courseId) <= 0 ==> r == ZeroStats
    ensures CountFor(rs, courseId) > 0 ==>
      && r.averageRating == (ScoreSum(rs, courseId) as real) / (CountFor(rs, courseId) as real)
      && r.fiveStars == |Filter(rs, WithStars(courseId, 5))|
      && r.fourStars == |Filter(rs, WithStars(courseId, 4))|
      && r.threeStars == |Filter(rs, WithStars(courseId, 3))|
      && r.twoStars == |Filter(rs, WithStars(courseId, 2))|
      && r.oneStar == |Filter(rs, WithStars(courseId, 1))|
  {
    var n := CountFor(rs, courseId);
    FilterCount(rs, courseId);
    StarsCount(rs, courseId, 5);
    StarsCount(rs, courseId, 4);
    StarsCount(rs, courseId, 3);
    StarsCount(rs, courseId, 2);
    StarsCount(rs, courseId, 1);
    if n <= 0 then ZeroStats
    else
      RatingStats((ScoreSum(rs, courseId) as real) / (n as real), n,
                  Tally(rs, courseId, Stars(5)), Tally(rs, courseId, Stars(4)),
                  Tally(rs, courseId, Stars(3)), Tally(rs, courseId, Stars(2)),
                  Tally(rs, courseId, Stars(1)))
  }

  /** With scores in 1..5 the star buckets add up to the total, and the average lies in
      [1, 5] whenever there is a rating. */
  lemma StatsConsistent(rs: seq<Rating>, courseId: Id)
    requires ScoresValidFor(rs, courseId)
    ensures var st := StatsOf(rs, courseId);
      && st.fiveStars + st.fourStars + st.threeStars + st.twoStars + st.oneStar == st.totalRatings
      && (st.totalRatings > 0 ==> 1.0 <= st.averageRating <= 5.0)
  {
    StarsPartition(rs, courseId);
    ScoreSumBounds(rs, courseId);
    var n := CountFor(rs, courseId);
    if n > 0 {
      MeanBounds(ScoreSum(rs, courseId) as real, n as real, 1.0, 5.0);
    }
  }

  /** A sum between `lo * n` and `hi * n` has its mean between `lo` and `hi`. */
  lemma MeanBounds(sum: real, n: real, lo: real, hi: real)
    requires n > 0.0 && lo * n <= sum <= hi * n
    ensures lo <= sum / n <= hi
  {
    var m := sum / n;
    assert (m - lo) * n == sum - lo * n;
    assert (hi - m) * n == hi * n - sum;
  }

  function CreatedKey(r: Rating): int { r.createdAt }

  datatype RatingsPage = RatingsPage(ratings: seq<Rating>, stats: RatingStats, pagination: Pagination)

  /** GET /ratings/course/:courseId: 400 on a malformed id, then the course's ratings newest
      first, one page of them, and the statistics of all of them. */
  function GetCourseRatings(s: Store, courseId: Id, pageQ: Option<int>, limitQ: Option<int>)
    : (r: Result<RatingsPage>)
    ensures !IsObjectIdString(courseId) <==> r == Err(BadRequest(InvalidCourseId))
    ensures IsObjectIdString(courseId) ==>
      (r.Err? <==> SkipOf(pageQ, limitQ) < 0)
    ensures r.Err? ==> r == Err(BadRequest(InvalidCourseId)) || r == Err(ServerError(FetchFailed))
    ensures r.Ok? ==>
      && r.value.stats == StatsOf(s.ratings, courseId)
      && r.value.pagination.total == r.value.stats.totalRatings
      && r.value.pagination.page == OrDefault(pageQ, 1)
      && r.value.pagination.limit == OrDefault(limitQ, 10)
      && r.value.pagination.pages == CeilDiv(CountFor(s.ratings, courseId), OrDefault(limitQ, 10))
    ensures r.Ok? ==>
      var limit := OrDefault(limitQ, 10); var skip := SkipOf(pageQ, limitQ);
      var sorted := NewestFirst(s.ratings, courseId); var page := r.value.ratings;
      && |page| == PageLength(|sorted|, skip, if limit < 0 then -limit else limit)
      && forall i :: 0 <= i < |page| ==> skip + i < |sorted| && page[i] == sorted[skip + i]
  {
    if !IsObjectIdString(courseId) then Err(BadRequest(InvalidCourseId))
    else
      match Paginate(NewestFirst(s.ratings, courseId), pageQ, limitQ)
      case Err(_) => Err(ServerError(FetchFailed))
      case Ok((page, info)) => Ok(RatingsPage(page, StatsOf(s.ratings, courseId), info))
  }

  /** The page holds only ratings of that course, newest first. */
  lemma GetCourseRatingsPage(s: Store, courseId: Id, pageQ: Option<int>, limitQ: Option<int>)
    requires GetCourseRatings(s, courseId, pageQ, limitQ).Ok?
    ensures var page := GetCourseRatings(s, courseId, pageQ, limitQ).value.ratings;
      && (forall i :: 0 <= i < |page| ==> page[i] in s.ratings && page[i].courseId == courseId)
      && SortedDesc(page, CreatedKey)
  {
    var sorted := NewestFirst(s.ratings, courseId);
    var page := Paginate(sorted, pageQ, limitQ).value.0;
    PageOfSorted(sorted, pageQ, limitQ, CreatedKey);
    forall i | 0 <= i < |page|
      ensures page[i] in s.ratings && page[i].courseId == courseId
    {
      assert page[i] in sorted;
    }
  }

  /** `Rating.find({ courseId }).sort({ createdAt: -1 })`. */
  function NewestFirst(rs: seq<Rating>, courseId: Id): (r: seq<Rating>)
    ensures SortedDesc(r, CreatedKey)
    ensures |r| == CountFor(rs, courseId)
    ensures forall x :: x in r <==> x in rs && x.courseId == courseId
  {
    var mine := Filter(rs, OfCourse(courseId));
    FilterCount(rs, courseId);
    SortDescMembers(mine, CreatedKey);
    FilterMembers(rs, OfCourse(courseId));
    SortDesc(mine, CreatedKey)
  }
}

=== FILE: resources.dfy ===
/** Course resources of controllers/resourceController.js: the active resources of a course in
    order, and creation, update and deletion gated on owning the resource's course. */
module Resources {
  import opened Outcomes
  import opened Seqs
  import opened Schema

  const CourseNotFound := "Course not found"
  const ResourceNotFound := "Resource not found"
  const NotAuthorizedAdd := "Not authorized to add resources to this course"
  const NotAuthorizedUpdate := "Not authorized to update this resource"
  const NotAuthorizedDelete := "Not authorized to delete this resource"
  const ValidationFailed := "Resource validation failed"
  /** What dereferencing the populated course of a resource whose course is gone throws. */
  const NullInstructor := "Cannot read properties of null (reading 'instructor')"

  // ---------------------------------------------------------------- listing

  function ActiveOf(courseId: Id): Resource -> bool {
    (x: Resource) => x.courseId == courseId && x.isActive
  }

  /** Sorting ascending by `order` is sorting descending by its negation. */
  function NegOrder(x: Resource): int { -x.order }

  /** GET /resources/course/:courseId: exactly the course's active resources, in ascending
      `order`. */
  function GetCourseResources(s: Store, courseId: Id): (r: seq<Resource>)
    ensures forall x :: x in r <==> x in s.resources && x.courseId == courseId && x.isActive
    ensures forall i, j :: 0 <= i < j < |r| ==> r[i].order <= r[j].order
    ensures multiset(r) == multiset(Filter(s.resources, ActiveOf(courseId)))
  {
    var hits := Filter(s.resources, ActiveOf(courseId));
    FilterMembers(s.resources, ActiveOf(courseId));
    SortDescMembers(hits, NegOrder);
    var r := SortDesc(hits, NegOrder);
    assert forall i, j :: 0 <= i < j < |r| ==> NegOrder(r[i]) >= NegOrder(r[j]);
    r
  }

  // ---------------------------------------------------------------- create

  /** The JSON body of POST and PUT /resources, after the route's sanitizer trims `title`:
      None when the body omits the field. */
  datatype ResourceBody = ResourceBody(
    resourceId: Option<string>,
    courseId: Option<Id>,
    title: Option<string>,
    kind: Option<string>,
    url: Option<string>,
    duration: Option<string>,
    pages: Option<int>,
    order: Option<int>,
    isActive: Option<bool>)

  /** The schema validators of the fields the body sets (title after its trim setter). */
  predicate FieldsValid(b: ResourceBody) {
    && (b.title.Some? ==> Trim(b.title.value) != "")
    && (b.kind.Some? ==> ParseKind(b.kind.value).Some?)
    && (b.url.Some? ==> b.url.value != "")
  }

  /** An update also validates a `resourceId` the body sets, which replaces the stored one. */
  predicate Updatable(b: ResourceBody) {
    FieldsValid(b) && (b.resourceId.Some? ==> b.resourceId.value != "")
  }

  /** A new document also needs the required fields without a default; a body `resourceId`
      is overridden by the fresh one. */
  predicate Creatable(b: ResourceBody) {
    FieldsValid(b) && b.courseId.Some? && b.title.Some? && b.kind.Some? && b.url.Some?
  }

  function NewResource(b: ResourceBody, oid: Id, resourceId: Uuid, now: Time): (x: Resource)
    requires Creatable(b)
    ensures ValidResource(x)
    ensures x.id == oid && x.resourceId == resourceId && x.courseId == b.courseId.value
    ensures x.title == Trim(b.title.value) && KindName(x.kind) == b.kind.value && x.url == b.url.value
    ensures x.order == b.order.GetOr(1) && x.isActive == b.isActive.GetOr(true)
    ensures x.duration == b.duration.GetOr("") && x.pages == b.pages
  {
    TrimIdempotent(b.title.value);
    Resource(oid, resourceId, b.courseId.value, Trim(b.title.value), ParseKind(b.kind.value).value,
             b.url.value, b.duration.GetOr(""), b.pages, b.order.GetOr(1), b.isActive.GetOr(true), now)
  }

  /** POST /resources: 404 unless the body names an existing course, 403 unless the caller
      owns it or is an admin, 400 for a schema or unique-index failure. */
  function CreateResource(s: Store, callerId: Id, callerRole: Role, b: ResourceBody,
                          oid: Id, resourceId: Uuid, now: Time): (r: Result<Reply<Store, Resource>>)
    ensures (b.courseId.None? || FindCourse(s.courses, b.courseId.value).None?) <==>
      r == Err(NotFound(CourseNotFound))
    ensures b.courseId.Some? && FindCourse(s.courses, b.courseId.value).Some? ==>
      var c := s.courses[FindCourse(s.courses, b.courseId.value).value];
      && (!CanManage(callerId, callerRole, c.instructor) <==> r == Err(Forbidden(NotAuthorizedAdd)))
      && (CanManage(callerId, callerRole, c.instructor) ==>
            (!Creatable(b) <==> r == Err(BadRequest(ValidationFailed))))
    ensures b.courseId.Some? && FindCourse(s.courses, b.courseId.value).Some? ==>
      var c := s.courses[FindCourse(s.courses, b.courseId.value).value];
      var taken := HasKey(s.resources, ResourceOid, oid) || HasKey(s.resources, ResourceUuid, resourceId);
      CanManage(callerId, callerRole, c.instructor) && Creatable(b) ==>
        && (taken <==> r == Err(BadRequest(DuplicateKey)))
        && (!taken ==> r.Ok?)
    ensures r.Ok? ==>
      var x := r.value.data;
      && x == NewResource(b, oid, resourceId, now)
      && !HasKey(s.resources, ResourceOid, oid) && !HasKey(s.resources, ResourceUuid, resourceId)
      && r.value.store == s.(resources := s.resources + [x])
  {
    if b.courseId.None? then Err(NotFound(CourseNotFound))
    else match FindCourse(s.courses, b.courseId.value)
      case None => Err(NotFound(CourseNotFound))
      case Some(i) =>
        if !CanManage(callerId, callerRole, s.courses[i].instructor) then Err(Forbidden(NotAuthorizedAdd))
        else if !Creatable(b) then Err(BadRequest(ValidationFailed))
        else if HasKey(s.resources, ResourceOid, oid) || HasKey(s.resources, ResourceUuid, resourceId) then
          Err(BadRequest(DuplicateKey))
        else
          var x := NewResource(b, oid, resourceId, now);
          Ok(Reply(s.(resources := s.resources + [x]), x))
  }

  lemma CreateResourcePreservesInv(s: Store, callerId: Id, callerRole: Role, b: ResourceBody,
                                   oid: Id, resourceId: Uuid, now: Time)
    requires StoreInv(s)
    requires CreateResource(s, callerId, callerRole, b, oid, resourceId, now).Ok?
    ensures StoreInv(CreateResource(s, callerId, callerRole, b, oid, resourceId, now).value.store)
  {
    var x := NewResource(b, oid, resourceId, now);
    ResourcesInvAppend(s.resources, x);
    assert CreateResource(s, callerId, callerRole, b, oid, resourceId, now).value.store
      == s.(resources := s.resources + [x]);
  }

  lemma ResourcesInvAppend(rs: seq<Resource>, x: Resource)
    requires ResourcesInv(rs) && ValidResource(x)
    requires !HasKey(rs, ResourceOid, x.id) && !HasKey(rs, ResourceUuid, x.resourceId)
    ensures ResourcesInv(rs + [x])
  {
    var t := rs + [x];
    UniqueByAppend(rs, x, ResourceOid);
    UniqueByAppend(rs, x, ResourceUuid);
    forall i | 0 <= i < |t|
      ensures ValidResource(t[i])
    {
      if i < |rs| { assert t[i] == rs[i]; }
    }
  }

  // ---------------------------------------------------------------- update / delete

  /** The owner check dereferences the resource's populated course. */
  datatype Gate = Missing | Orphan | Denied | Allowed(index: nat)

  /** Looks up resource `id` and decides whether the caller may change it: `Orphan` when its
      course no longer exists. */
  function CheckResource(s: Store, callerId: Id, callerRole: Role, id: Id): (g: Gate)
    ensures g == Missing <==> FindResource(s.resources, id).None?
    ensures g.Allowed? ==> g.index == FindResource(s.resources, id).value
    ensures FindResource(s.resources, id).Some? ==>
      var x := s.resources[FindResource(s.resources, id).value];
      && (g == Orphan <==> FindCourse(s.courses, x.courseId).None?)
      && (FindCourse(s.courses, x.courseId).Some? ==>
            (g.Allowed? <==> CanManage(callerId, callerRole, s.courses[FindCourse(s.courses, x.courseId).value].instructor)))
  {
    match FindResource(s.resources, id)
    case None => Missing
    case Some(i) =>
      match FindCourse(s.courses, s.resources[i].courseId)
      case None => Orphan
      case Some(k) => if CanManage(callerId, callerRole, s.courses[k].instructor) then Allowed(i) else Denied
  }

  /** The document after `findByIdAndUpdate`: each field the body sets replaces the stored
      one, `resourceId` included. */
  function ApplyBody(x: Resource, b: ResourceBody): (u: Resource)
    requires FieldsValid(b)
    ensures u.id == x.id && u.createdAt == x.createdAt
    ensures b.resourceId.Some? ==> u.resourceId == b.resourceId.value
    ensures b.resourceId.None? ==> u.resourceId == x.resourceId
    ensures b.title.Some? ==> u.title == Trim(b.title.value)
    ensures b.courseId.None? ==> u.courseId == x.courseId
    ensures b.order.None? ==> u.order == x.order
    ensures b.isActive.None? ==> u.isActive == x.isActive
    ensures ValidResource(x) && Updatable(b) ==> ValidResource(u)
  {
    var title := if b.title.Some? then Trim(b.title.value) else x.title;
    TrimIdempotent(b.title.GetOr(""));
    assert b.title.Some? ==> Trim(title) == title && title != "";
    x.(resourceId := b.resourceId.GetOr(x.resourceId),
       courseId := b.courseId.GetOr(x.courseId),
       title := title,
       kind := if b.kind.Some? then ParseKind(b.kind.value).value else x.kind,
       url := b.url.GetOr(x.url),
       duration := b.duration.GetOr(x.duration),
       pages := if b.pages.Some? then b.pages else x.pages,
       order := b.order.GetOr(x.order),
       isActive := b.isActive.GetOr(x.isActive))
  }

  /** PUT /resources/:id: 404, 403 unless the caller owns the resource's course or is an
      admin, 400 for a validator failure, a new `resourceId` already another resource's, or
      a resource whose course is gone. */
  function UpdateResource(s: Store, callerId: Id, callerRole: Role, id: Id, b: ResourceBody)
    : (r: Result<Reply<Store, Resource>>)
    ensures var g := CheckResource(s, callerId, callerRole, id);
      && (g == Missing <==> r == Err(NotFound(ResourceNotFound)))
      && (g == Orphan <==> r == Err(BadRequest(NullInstructor)))
      && (g == Denied <==> r == Err(Forbidden(NotAuthorizedUpdate)))
      && (g.Allowed? ==> (!Updatable(b) <==> r == Err(BadRequest(ValidationFailed))))
      && (g.Allowed? && Updatable(b) ==>
            var clash := KeyElsewhere(s.resources, g.index, ResourceUuid, ApplyBody(s.resources[g.index], b).resourceId);
            && (clash <==> r == Err(BadRequest(DuplicateKey)))
            && (!clash ==> r.Ok?))
    ensures r.Ok? ==>
      var i := FindResource(s.resources, id).value; var u := r.value.data;
      && CheckResource(s, callerId, callerRole, id) == Allowed(i)
      && u == ApplyBody(s.resources[i], b)
      && r.value.store == s.(resources := s.resources[i := u])
  {
    match CheckResource(s, callerId, callerRole, id)
    case Missing => Err(NotFound(ResourceNotFound))
    case Orphan => Err(BadRequest(NullInstructor))
    case Denied => Err(Forbidden(NotAuthorizedUpdate))
    case Allowed(i) =>
      if !Updatable(b) then Err(BadRequest(ValidationFailed))
      else
        var u := ApplyBody(s.resources[i], b);
        if KeyElsewhere(s.resources, i, ResourceUuid, u.resourceId) then Err(BadRequest(DuplicateKey))
        else Ok(Reply(s.(resources := s.resources[i := u]), u))
  }

  lemma UpdateResourcePreservesInv(s: Store, callerId: Id, callerRole: Role, id: Id, b: ResourceBody)
    requires StoreInv(s)
    requires UpdateResource(s, callerId, callerRole, id, b).Ok?
    ensures StoreInv(UpdateResource(s, callerId, callerRole, id, b).value.store)
  {
    var g := CheckResource(s, callerId, callerRole, id);
    assert g.Allowed? && Updatable(b);
    var i := g.index;
    var u := ApplyBody(s.resources[i], b);
    assert !KeyElsewhere(s.resources, i, ResourceUuid, u.resourceId);
    assert ValidResource(s.resources[i]);
    ResourcesInvReplace(s.resources, i, u);
  }

  /** DELETE /resources/:id: removes exactly that resource; a resource whose course is gone
      answers 500. */
  function DeleteResource(s: Store, callerId: Id, callerRole: Role, id: Id): (r: Result<Reply<Store, ()>>)
    ensures var g := CheckResource(s, callerId, callerRole, id);
      && (g == Missing <==> r == Err(NotFound(ResourceNotFound)))
      && (g == Orphan <==> r == Err(ServerError(NullInstructor)))
      && (g == Denied <==> r == Err(Forbidden(NotAuthorizedDelete)))
      && (g.Allowed? <==> r.Ok?)
    ensures r.Ok? ==>
      var i := FindResource(s.resources, id).value;
      r.value.store == s.(resources := s.resources[..i] + s.resources[i + 1..])
  {
    match CheckResource(s, callerId, callerRole, id)
    case Missing => Err(NotFound(ResourceNotFound))
    case Orphan => Err(ServerError(NullInstructor))
    case Denied => Err(Forbidden(NotAuthorizedDelete))
    case Allowed(i) => Ok(Reply(s.(resources := s.resources[..i] + s.resources[i + 1..]), ()))
  }

  /** Deleting removes that resource and keeps every other one, in order. */
  lemma DeleteResourceExact(s: Store, callerId: Id, callerRole: Role, id: Id)
    requires UniqueBy(s.resources, ResourceOid)
    requires DeleteResource(s, callerId, callerRole, id).Ok?
    ensures var t := DeleteResource(s, callerId, callerRole, id).value.store;
      && |t.resources| == |s.resources| - 1
      && (forall x :: x in t.resources ==> x.id != id)
      && (forall x :: x in s.resources && x.id != id ==> x in t.resources)
  {
    var i := FindResource(s.resources, id).value;
    RemoveAtExact(s.resources, i, ResourceOid);
  }

}

=== FILE: schema.dfy ===
/** The five collections of the marketplace (models/User.js, Course.js, Resource.js,
    Enrollment.js, Rating.js) as immutable records, the closed value sets their enums
    declare, the defaults a new document receives, and the store invariant: the schema
    bounds and unique indexes plus two properties every handler keeps. */
module Schema {
  import opened Outcomes
  import opened Seqs

  /** A document `_id` or a reference to one. */
  type Id = string
  /** A `Date`, as milliseconds. */
  type Time = int
  /** A public id minted by `crypto.randomUUID()`, which never returns an empty string. */
  type Uuid = s: string | s != "" witness "0"

  datatype Role = Student | Instructor | Admin

  function RoleName(r: Role): string {
    match r
    case Student => "student"
    case Instructor => "instructor"
    case Admin => "admin"
  }

  /** The role enum check: only the three role names are accepted. */
  function ParseRole(s: string): (r: Option<Role>)
    ensures r.Some? ==> RoleName(r.value) == s
    ensures r.None? ==> forall x: Role :: RoleName(x) != s
  {
    if s == "student" then Some(Student)
    else if s == "instructor" then Some(Instructor)
    else if s == "admin" then Some(Admin)
    else None
  }

  datatype Category = Programming | DataScience | Design | Business | Language | Other

  function CategoryName(c: Category): string {
    match c
    case Programming => "Programming"
    case DataScience => "Data Science"
    case Design => "Design"
    case Business => "Business"
    case Language => "Language"
    case Other => "Other"
  }

  function ParseCategory(s: string): (r: Option<Category>)
    ensures r.Some? ==> CategoryName(r.value) == s
    ensures r.None? ==> forall x: Category :: CategoryName(x) != s
  {
    if s == "Programming" then Some(Programming)
    else if s == "Data Science" then Some(DataScience)
    else if s == "Design" then Some(Design)
    else if s == "Business" then Some(Business)
    else if s == "Language" then Some(Language)
    else if s == "Other" then Some(Other)
    else None
  }

  datatype Level = Beginner | Intermediate | Advanced

  function LevelName(l: Level): string {
    match l
    case Beginner => "beginner"
    case Intermediate => "intermediate"
    case Advanced => "advanced"
  }

  function ParseLevel(s: string): (r: Option<Level>)
    ensures r.Some? ==> LevelName(r.value) == s
    ensures r.None? ==> forall x: Level :: LevelName(x) != s
  {
    if s == "beginner" then Some(Beginner)
    else if s == "intermediate" then Some(Intermediate)
    else if s == "advanced" then Some(Advanced)
    else None
  }

  datatype ResourceKind = Video | Pdf | Article | Quiz | Assignment

  function KindName(k: ResourceKind): string {
    match k
    case Video => "video"
    case Pdf => "pdf"
    case Article => "article"
    case Quiz => "quiz"
    case Assignment => "assignment"
  }

  function ParseKind(s: string): (r: Option<ResourceKind>)
    ensures r.Some? ==> KindName(r.value) == s
    ensures r.None? ==> forall x: ResourceKind :: KindName(x) != s
  {
    if s == "video" then Some(Video)
    else if s == "pdf" then Some(Pdf)
    else if s == "article" then Some(Article)
    else if s == "quiz" then Some(Quiz)
    else if s == "assignment" then Some(Assignment)
    else None
  }

  /** `completionStatus` of an enrollment. */
  datatype Status = NotStarted | InProgress | Completed

  // ---------------------------------------------------------------- text setters

  /** The white space JavaScript's `trim` (and the regular-expression class `\s` of the
      validator sanitiser) removes: the WhiteSpace and LineTerminator code points of
      ECMA-262. */
  predicate IsSpace(c: char) {
    || c == '\t' || c == '\n' || c == '\U{000B}' || c == '\U{000C}' || c == '\r' || c == ' '
    || c == '\U{00A0}' || c == '\U{1680}' || ('\U{2000}' <= c <= '\U{200A}')
    || c == '\U{2028}' || c == '\U{2029}' || c == '\U{202F}' || c == '\U{205F}'
    || c == '\U{3000}' || c == '\U{FEFF}'
  }

  function TrimStart(s: string): (r: string)
    ensures |r| <= |s| && r == s[|s| - |r|..]
    ensures |r| > 0 ==> !IsSpace(r[0])
    ensures forall i :: 0 <= i < |s| - |r| ==> IsSpace(s[i])
  {
    if |s| > 0 && IsSpace(s[0]) then TrimStart(s[1..]) else s
  }

  function TrimEnd(s: string): (r: string)
    ensures |r| <= |s| && r == s[..|r|]
    ensures |r| > 0 ==> !IsSpace(r[|r| - 1])
    ensures forall i :: |r| <= i < |s| ==> IsSpace(s[i])
  {
    if |s| > 0 && IsSpace(s[|s| - 1]) then TrimEnd(s[..|s| - 1]) else s
  }

  /** The `trim: true` setter: leading and trailing white space removed. */
  function Trim(s: string): (r: string)
    ensures |r| > 0 ==> !IsSpace(r[0]) && !IsSpace(r[|r| - 1])
    ensures |r| <= |s|
    ensures r == "" <==> forall i :: 0 <= i < |s| ==> IsSpace(s[i])
  {
    var t := TrimStart(s);
    var r := TrimEnd(t);
    assert |t| > 0 ==> t[0] == s[|s| - |t|];
    assert |t| > 0 ==> |r| > 0;
    r
  }

  lemma TrimIdempotent(s: string)
    ensures Trim(Trim(s)) == Trim(s)
  {
    var t := Trim(s);
    assert TrimStart(t) == t;
    assert TrimEnd(t) == t;
  }

  /** A string without white space at either end is its own trim. */
  lemma TrimTrimmed(s: string)
    requires |s| > 0 ==> !IsSpace(s[0]) && !IsSpace(s[|s| - 1])
    ensures Trim(s) == s
  {
    assert TrimStart(s) == s;
    assert TrimEnd(s) == s;
  }

  function LowerChar(c: char): char {
    if 'A' <= c <= 'Z' then (c as int - 'A' as int + 'a' as int) as char else c
  }

  /** The `lowercase: true` setter, on ASCII letters only. */
  function Lower(s: string): (r: string)
    ensures |r| == |s|
    ensures forall i :: 0 <= i < |s| ==> r[i] == LowerChar(s[i])
    ensures forall i :: 0 <= i < |r| ==> !('A' <= r[i] <= 'Z')
  {
    seq(|s|, i requires 0 <= i < |s| => LowerChar(s[i]))
  }

  /** What the email path of the User schema stores: lower-cased and trimmed. */
  function StoredEmail(e: string): string {
    Lower(Trim(e))
  }

  /** Storing a stored email again changes nothing. */
  lemma StoredEmailIdempotent(e: string)
    ensures StoredEmail(StoredEmail(e)) == StoredEmail(e)
  {
    var t := Trim(e);
    var l := Lower(t);
    if |t| > 0 {
      LowerKeepsSpace(t[0]);
      LowerKeepsSpace(t[|t| - 1]);
    }
    TrimTrimmed(l);
    LowerIdempotent(t);
  }

  lemma LowerKeepsSpace(c: char)
    ensures IsSpace(LowerChar(c)) <==> IsSpace(c)
  {
  }

  lemma LowerIdempotent(s: string)
    ensures Lower(Lower(s)) == Lower(s)
  {
    var l := Lower(s);
    assert forall i :: 0 <= i < |l| ==> Lower(l)[i] == l[i];
  }

  /** `String.prototype.length`, which `maxlength` compares: UTF-16 code units, two for a
      code point above U+FFFF. */
  function Utf16Length(s: string): (n: nat)
    ensures |s| <= n <= 2 * |s|
  {
    if s == [] then 0
    else Utf16Length(s[..|s| - 1]) + (if s[|s| - 1] as int > 0xFFFF then 2 else 1)
  }

  /** What the validator `isLength` counts: code points, leaving out the variation
      selectors U+FE0E and U+FE0F. */
  function ValidatorLength(s: string): (n: nat)
    ensures n <= |s|
  {
    if s == [] then 0
    else ValidatorLength(s[..|s| - 1]) + (if s[|s| - 1] == '\U{FE0E}' || s[|s| - 1] == '\U{FE0F}' then 0 else 1)
  }

  /** A string body field that JavaScript treats as true: present and not empty. */
  predicate Truthy(o: Option<string>) {
    o.Some? && o.value != ""
  }

  // ---------------------------------------------------------------- object ids

  predicate IsHexDigit(c: char) {
    '0' <= c <= '9' || 'a' <= c <= 'f' || 'A' <= c <= 'F'
  }

  /** `mongoose.Types.ObjectId.isValid` on a string, and the strings an ObjectId path
      casts: 24 hexadecimal digits. */
  predicate IsObjectIdString(s: string) {
    |s| == 24 && forall i :: 0 <= i < |s| ==> IsHexDigit(s[i])
  }

  /** What `toString()` of the ObjectId cast from a valid id string gives back: the same
      24 digits in lower case. */
  function ObjectIdText(s: string): (r: string)
    requires IsObjectIdString(s)
    ensures IsObjectIdString(r) && |r| == 24
    ensures forall i :: 0 <= i < 24 ==> !('A' <= r[i] <= 'F') && LowerChar(s[i]) == r[i]
    ensures Lower(r) == r
  {
    LowerIdempotent(s);
    Lower(s)
  }

  // ---------------------------------------------------------------- records

  datatype EnrolledCourse = EnrolledCourse(courseId: Id, enrollmentDate: Time)

  datatype User = User(
    id: Id,
    userId: string,
    name: string,
    email: string,
    passwordHash: string,
    role: Role,
    enrolledCourses: seq<EnrolledCourse>,
    avatar: string,
    isActive: bool,
    createdAt: Time)

  datatype LessonResource = LessonResource(title: string, url: string, description: string)
  datatype Lesson = Lesson(id: Id, title: string, duration: string, content: string,
                           videoUrl: string, resources: seq<LessonResource>)
  datatype CourseModule = CourseModule(title: string, description: string, lessons: seq<Lesson>)

  datatype Course = Course(
    id: Id,
    courseId: string,
    title: string,
    description: string,
    instructor: Id,
    duration: string,
    price: real,
    category: Category,
    level: Level,
    thumbnailUrl: string,
    isActive: bool,
    studentsEnrolled: int,
    rating: real,
    totalRatings: int,
    objectives: seq<string>,
    requirements: seq<string>,
    modules: seq<CourseModule>,
    createdAt: Time)

  datatype Resource = Resource(
    id: Id,
    resourceId: string,
    courseId: Id,
    title: string,
    kind: ResourceKind,
    url: string,
    duration: string,
    pages: Option<int>,
    order: int,
    isActive: bool,
    createdAt: Time)

  /** One entry of `completedResources`; `resourceId` is None when the entry was pushed
      without one. */
  datatype CompletedResource = CompletedResource(resourceId: Option<Id>, completedAt: Time)

  datatype Certificate = Certificate(
    issued: bool,
    issuedAt: Option<Time>,
    certificateId: Option<string>,
    certificateUrl: Option<string>)

  datatype Enrollment = Enrollment(
    id: Id,
    enrollmentId: string,
    userId: Id,
    courseId: Id,
    enrollmentDate: Time,
    progress: int,
    completionStatus: Status,
    lastAccessed: Time,
    completedResources: seq<CompletedResource>,
    certificate: Certificate)

  datatype Rating = Rating(
    id: Id,
    userId: Id,
    courseId: Id,
    score: int,
    review: Option<string>,
    isVerified: bool,
    createdAt: Time)

  datatype Store = Store(
    users: seq<User>,
    courses: seq<Course>,
    resources: seq<Resource>,
    enrollments: seq<Enrollment>,
    ratings: seq<Rating>)

  // ---------------------------------------------------------------- keys

  function UserOid(u: User): Id { u.id }
  function UserUuid(u: User): string { u.userId }
  function UserEmail(u: User): string { u.email }
  function CourseOid(c: Course): Id { c.id }
  function CourseUuid(c: Course): string { c.courseId }
  function ResourceOid(r: Resource): Id { r.id }
  function ResourceUuid(r: Resource): string { r.resourceId }
  function EnrollmentOid(e: Enrollment): Id { e.id }
  function EnrollmentUuid(e: Enrollment): string { e.enrollmentId }
  function EnrollmentPair(e: Enrollment): (Id, Id) { (e.userId, e.courseId) }
  function RatingOid(r: Rating): Id { r.id }
  function RatingPair(r: Rating): (Id, Id) { (r.userId, r.courseId) }
  function CompletedId(c: CompletedResource): Option<Id> { c.resourceId }

  // ---------------------------------------------------------------- lookups

  function FindUser(us: seq<User>, id: Id): (r: Option<nat>)
    ensures r.Some? ==> r.value < |us| && us[r.value].id == id
    ensures r.Some? ==> forall j :: 0 <= j < r.value ==> us[j].id != id
    ensures r.None? <==> forall i :: 0 <= i < |us| ==> us[i].id != id
  {
    FindFirst(us, (u: User) => u.id == id)
  }

  function FindCourse(cs: seq<Course>, id: Id): (r: Option<nat>)
    ensures r.Some? ==> r.value < |cs| && cs[r.value].id == id
    ensures r.Some? ==> forall j :: 0 <= j < r.value ==> cs[j].id != id
    ensures r.None? <==> forall i :: 0 <= i < |cs| ==> cs[i].id != id
  {
    FindFirst(cs, (c: Course) => c.id == id)
  }

  function FindResource(rs: seq<Resource>, id: Id): (r: Option<nat>)
    ensures r.Some? ==> r.value < |rs| && rs[r.value].id == id
    ensures r.Some? ==> forall j :: 0 <= j < r.value ==> rs[j].id != id
    ensures r.None? <==> forall i :: 0 <= i < |rs| ==> rs[i].id != id
  {
    FindFirst(rs, (x: Resource) => x.id == id)
  }

  function FindEnrollment(es: seq<Enrollment>, id: Id): (r: Option<nat>)
    ensures r.Some? ==> r.value < |es| && es[r.value].id == id
    ensures r.Some? ==> forall j :: 0 <= j < r.value ==> es[j].id != id
    ensures r.None? <==> forall i :: 0 <= i < |es| ==> es[i].id != id
  {
    FindFirst(es, (e: Enrollment) => e.id == id)
  }

  /** `Enrollment.findOne({ userId, courseId })`. */
  function FindEnrollmentFor(es: seq<Enrollment>, userId: Id, courseId: Id): (r: Option<nat>)
    ensures r.Some? ==> r.value < |es| && es[r.value].userId == userId && es[r.value].courseId == courseId
    ensures r.Some? ==> forall j :: 0 <= j < r.value ==> EnrollmentPair(es[j]) != (userId, courseId)
    ensures r.None? <==> forall i :: 0 <= i < |es| ==> EnrollmentPair(es[i]) != (userId, courseId)
  {
    FindFirst(es, (e: Enrollment) => e.userId == userId && e.courseId == courseId)
  }

  /** Rewriting the found course with one of the same `_id` keeps it the one found. */
  lemma FindCourseUpdate(cs: seq<Course>, id: Id, c: Course)
    requires FindCourse(cs, id).Some? && c.id == id
    ensures FindCourse(cs[FindCourse(cs, id).value := c], id) == FindCourse(cs, id)
  {
    var i := FindCourse(cs, id).value;
    var t := cs[i := c];
    assert t[i].id == id;
  }

  /** Rewriting the found enrollment with one of the same `_id` keeps it the one found. */
  lemma FindEnrollmentUpdate(es: seq<Enrollment>, id: Id, e: Enrollment)
    requires FindEnrollment(es, id).Some? && e.id == id
    ensures FindEnrollment(es[FindEnrollment(es, id).value := e], id) == FindEnrollment(es, id)
  {
    var i := FindEnrollment(es, id).value;
    var t := es[i := e];
    assert t[i].id == id;
  }

  /** Rewriting the found enrollment with one of the same pair keeps it the one found. */
  lemma FindEnrollmentForUpdate(es: seq<Enrollment>, userId: Id, courseId: Id, e: Enrollment)
    requires FindEnrollmentFor(es, userId, courseId).Some? && e.userId == userId && e.courseId == courseId
    ensures FindEnrollmentFor(es[FindEnrollmentFor(es, userId, courseId).value := e], userId, courseId)
         == FindEnrollmentFor(es, userId, courseId)
  {
    var i := FindEnrollmentFor(es, userId, courseId).value;
    var t := es[i := e];
    assert t[i].userId == userId && t[i].courseId == courseId;
  }

  /** Rewriting the found user with one of the same `_id` keeps it the one found. */
  lemma FindUserUpdate(us: seq<User>, id: Id, u: User)
    requires FindUser(us, id).Some? && u.id == id
    ensures FindUser(us[FindUser(us, id).value := u], id) == FindUser(us, id)
  {
    var i := FindUser(us, id).value;
    var t := us[i := u];
    assert t[i].id == id;
  }

  /** `Rating.findOne({ userId, courseId })`. */
  function FindRatingFor(rs: seq<Rating>, userId: Id, courseId: Id): (r: Option<nat>)
    ensures r.Some? ==> r.value < |rs| && rs[r.value].userId == userId && rs[r.value].courseId == courseId
    ensures r.Some? ==> forall j :: 0 <= j < r.value ==> RatingPair(rs[j]) != (userId, courseId)
    ensures r.None? <==> forall i :: 0 <= i < |rs| ==> RatingPair(rs[i]) != (userId, courseId)
  {
    FindFirst(rs, (x: Rating) => x.userId == userId && x.courseId == courseId)
  }

  /** The owner-or-admin gate of the course and resource mutations. */
  predicate CanManage(callerId: Id, callerRole: Role, ownerId: Id) {
    ownerId == callerId || callerRole == Admin
  }

  // ---------------------------------------------------------------- schema bounds

  /** The path validators of a stored user. The password's `minlength` is checked on the
      plain text before the save hook hashes it, so it constrains nothing stored. */
  ghost predicate ValidUser(u: User) {
    && u.userId != ""
    && Trim(u.name) == u.name && u.name != ""
    && StoredEmail(u.email) == u.email && u.email != ""
  }

  ghost predicate ValidCourse(c: Course) {
    && c.courseId != ""
    && Trim(c.title) == c.title && c.title != ""
    && c.description != ""
    && c.duration != ""
    && c.price >= 0.0
    && 0.0 <= c.rating <= 5.0
  }

  ghost predicate ValidResource(r: Resource) {
    && r.resourceId != ""
    && Trim(r.title) == r.title && r.title != ""
    && r.url != ""
  }

  /** The certificate sub-record is either the default (nothing issued) or a complete
      issued certificate whose URL is derived from its id. */
  ghost predicate WellFormedCertificate(c: Certificate) {
    if c.issued then
      c.issuedAt.Some? && c.certificateId.Some?
      && c.certificateUrl == Some(CertificateUrl(c.certificateId.value))
    else
      c.issuedAt.None? && c.certificateId.None? && c.certificateUrl.None?
  }

  /** Where the certificate image of `certificateId` is served. */
  function CertificateUrl(certificateId: string): string {
    "/certificates/" + certificateId + ".png"
  }

  /** Progress and status agree the way every progress update leaves them: full progress
      means completed, and any progress means started. */
  ghost predicate ProgressCoherent(e: Enrollment) {
    && (e.progress == 100 ==> e.completionStatus == Completed)
    && (e.progress > 0 ==> e.completionStatus != NotStarted)
  }

  /** The `resourceId` of a completed entry is an ObjectId path: what it holds is the
      canonical lower-case text of a valid id. */
  ghost predicate CanonicalEntries(crs: seq<CompletedResource>) {
    forall i :: 0 <= i < |crs| && crs[i].resourceId.Some? ==>
      IsObjectIdString(crs[i].resourceId.value) && ObjectIdText(crs[i].resourceId.value) == crs[i].resourceId.value
  }

  ghost predicate ValidEnrollment(e: Enrollment) {
    && e.enrollmentId != ""
    && 0 <= e.progress <= 100
    && CanonicalEntries(e.completedResources)
    && WellFormedCertificate(e.certificate)
    && ProgressCoherent(e)
  }

  const MaxReviewLength := 1000

  predicate ValidScore(score: int) {
    1 <= score <= 5
  }

  /** `maxlength: 1000` on the review, counted in UTF-16 code units. */
  predicate ValidReview(review: Option<string>) {
    review.Some? ==> Utf16Length(review.value) <= MaxReviewLength
  }

  ghost predicate ValidRating(r: Rating) {
    ValidScore(r.score) && ValidReview(r.review)
  }

  ghost predicate UsersInv(us: seq<User>) {
    && (forall i :: 0 <= i < |us| ==> ValidUser(us[i]))
    && UniqueBy(us, UserOid) && UniqueBy(us, UserUuid) && UniqueBy(us, UserEmail)
  }

  ghost predicate CoursesInv(cs: seq<Course>) {
    && (forall i :: 0 <= i < |cs| ==> ValidCourse(cs[i]))
    && UniqueBy(cs, CourseOid) && UniqueBy(cs, CourseUuid)
  }

  ghost predicate ResourcesInv(rs: seq<Resource>) {
    && (forall i :: 0 <= i < |rs| ==> ValidResource(rs[i]))
    && UniqueBy(rs, ResourceOid) && UniqueBy(rs, ResourceUuid)
  }

  ghost predicate EnrollmentsInv(es: seq<Enrollment>) {
    && (forall i :: 0 <= i < |es| ==> ValidEnrollment(es[i]))
    && UniqueBy(es, EnrollmentOid) && UniqueBy(es, EnrollmentUuid) && UniqueBy(es, EnrollmentPair)
  }

  ghost predicate RatingsInv(rs: seq<Rating>) {
    && (forall i :: 0 <= i < |rs| ==> ValidRating(rs[i]))
    && UniqueBy(rs, RatingOid) && UniqueBy(rs, RatingPair)
  }

  /** The schema bounds and unique indexes of the five collections, and completed-resource
      ids in the canonical form the ObjectId cast stores. Also two properties no schema
      enforces but every handler keeps: a well-formed certificate sub-record and progress
      coherent with status. */
  ghost predicate StoreInv(s: Store) {
    && UsersInv(s.users)
    && CoursesInv(s.courses)
    && ResourcesInv(s.resources)
    && EnrollmentsInv(s.enrollments)
    && RatingsInv(s.ratings)
  }

  // ---------------------------------------------------------------- defaults

  const NoCertificate := Certificate(false, None, None, None)

  /** A new enrollment document with every schema default. */
  function NewEnrollment(id: Id, enrollmentId: Uuid, userId: Id, courseId: Id, now: Time)
    : (e: Enrollment)
    ensures ValidEnrollment(e)
    ensures e.progress == 0 && e.completionStatus == NotStarted
    ensures e.completedResources == [] && !e.certificate.issued
    ensures e.certificate.issuedAt.None? && e.certificate.certificateId.None?
    ensures e.certificate.certificateUrl.None?
  {
    Enrollment(id, enrollmentId, userId, courseId, now, 0, NotStarted, now, [], NoCertificate)
  }

  // ---------------------------------------------------------------- invariant framing

  lemma EnrollmentsInvUpdate(es: seq<Enrollment>, i: nat, e: Enrollment)
    requires EnrollmentsInv(es) && i < |es| && ValidEnrollment(e)
    requires e.id == es[i].id && e.enrollmentId == es[i].enrollmentId
    requires e.userId == es[i].userId && e.courseId == es[i].courseId
    ensures EnrollmentsInv(es[i := e])
  {
    UniqueByUpdate(es, i, e, EnrollmentOid);
    UniqueByUpdate(es, i, e, EnrollmentUuid);
    UniqueByUpdate(es, i, e, EnrollmentPair);
  }

  lemma UsersInvUpdate(us: seq<User>, i: nat, u: User)
    requires UsersInv(us) && i < |us| && ValidUser(u)
    requires u.id == us[i].id && u.userId == us[i].userId && u.email == us[i].email
    ensures UsersInv(us[i := u])
  {
    UniqueByUpdate(us, i, u, UserOid);
    UniqueByUpdate(us, i, u, UserUuid);
    UniqueByUpdate(us, i, u, UserEmail);
  }

  lemma UsersInvAppend(us: seq<User>, u: User)
    requires UsersInv(us) && ValidUser(u)
    requires !HasKey(us, UserOid, u.id) && !HasKey(us, UserUuid, u.userId) && !HasKey(us, UserEmail, u.email)
    ensures UsersInv(us + [u])
  {
    var t := us + [u];
    forall i | 0 <= i < |t|
      ensures ValidUser(t[i])
    {
      if i < |us| { assert t[i] == us[i]; }
    }
    UniqueByAppend(us, u, UserOid);
    UniqueByAppend(us, u, UserUuid);
    UniqueByAppend(us, u, UserEmail);
  }

  lemma CoursesInvAppend(cs: seq<Course>, c: Course)
    requires CoursesInv(cs) && ValidCourse(c)
    requires !HasKey(cs, CourseOid, c.id) && !HasKey(cs, CourseUuid, c.courseId)
    ensures CoursesInv(cs + [c])
  {
    UniqueByAppend(cs, c, CourseOid);
    UniqueByAppend(cs, c, CourseUuid);
  }

  lemma CoursesInvUpdate(cs: seq<Course>, i: nat, c: Course)
    requires CoursesInv(cs) && i < |cs| && ValidCourse(c)
    requires c.id == cs[i].id && c.courseId == cs[i].courseId
    ensures CoursesInv(cs[i := c])
  {
    UniqueByUpdate(cs, i, c, CourseOid);
    UniqueByUpdate(cs, i, c, CourseUuid);
  }

  /** A rewrite that may change the public `courseId`, to one no other course has. */
  lemma CoursesInvReplace(cs: seq<Course>, i: nat, c: Course)
    requires CoursesInv(cs) && i < |cs| && ValidCourse(c)
    requires c.id == cs[i].id && !KeyElsewhere(cs, i, CourseUuid, c.courseId)
    ensures CoursesInv(cs[i := c])
  {
    UniqueByUpdate(cs, i, c, CourseOid);
    UniqueByReplace(cs, i, c, CourseUuid);
  }

  /** A rewrite that may change the public `resourceId`, to one no other resource has. */
  lemma ResourcesInvReplace(rs: seq<Resource>, i: nat, x: Resource)
    requires ResourcesInv(rs) && i < |rs| && ValidResource(x)
    requires x.id == rs[i].id && !KeyElsewhere(rs, i, ResourceUuid, x.resourceId)
    ensures ResourcesInv(rs[i := x])
  {
    UniqueByUpdate(rs, i, x, ResourceOid);
    UniqueByReplace(rs, i, x, ResourceUuid);
  }

  lemma ResourcesInvUpdate(rs: seq<Resource>, i: nat, x: Resource)
    requires ResourcesInv(rs) && i < |rs| && ValidResource(x)
    requires x.id == rs[i].id && x.resourceId == rs[i].resourceId
    ensures ResourcesInv(rs[i := x])
  {
    UniqueByUpdate(rs, i, x, ResourceOid);
    UniqueByUpdate(rs, i, x, ResourceUuid);
  }

  lemma RatingsInvUpdate(rs: seq<Rating>, i: nat, x: Rating)
    requires RatingsInv(rs) && i < |rs| && ValidRating(x)
    requires x.id == rs[i].id && x.userId == rs[i].userId && x.courseId == rs[i].courseId
    ensures RatingsInv(rs[i := x])
  {
    UniqueByUpdate(rs, i, x, RatingOid);
    UniqueByUpdate(rs, i, x, RatingPair);
  }

  lemma RatingsInvAppend(rs: seq<Rating>, x: Rating)
    requires RatingsInv(rs) && ValidRating(x)
    requires !HasKey(rs, RatingOid, RatingOid(x)) && !HasKey(rs, RatingPair, RatingPair(x))
    ensures RatingsInv(rs + [x])
  {
    UniqueByAppend(rs, x, RatingOid);
    UniqueByAppend(rs, x, RatingPair);
  }
}

=== FILE: seqs.dfy ===
/** Query primitives over collections kept in natural (insertion) order:
    first-match lookup, filtering, uniqueness of a key, a stable sort on an integer key,
    and the skip/limit window with the `page`/`limit` defaults the list handlers use. */
module Seqs {
  import opened Outcomes

  /** Index of the first element satisfying `p`, as `findOne`/`findById` return the first
      document in natural order. */
  function FindFirst<T>(s: seq<T>, p: T -> bool): (r: Option<nat>)
    ensures r.Some? ==> r.value < |s| && p(s[r.value])
    ensures r.Some? ==> forall j :: 0 <= j < r.value ==> !p(s[j])
    ensures r.None? <==> forall j :: 0 <= j < |s| ==> !p(s[j])
  {
    if |s| == 0 then None
    else if p(s[0]) then Some(0)
    else
      match FindFirst(s[1..], p)
      case None => None
      case Some(k) => Some(k + 1)
  }

  /** The elements satisfying `p`, in their original order. */
  function Filter<T>(s: seq<T>, p: T -> bool): (r: seq<T>)
    ensures |r| <= |s|
    ensures forall i :: 0 <= i < |r| ==> p(r[i])
    ensures forall i :: 0 <= i < |r| ==> r[i] in s
    ensures forall i :: 0 <= i < |s| && p(s[i]) ==> s[i] in r
  {
    if |s| == 0 then []
    else
      var rest := Filter(s[1..], p);
      assert s == [s[0]] + s[1..];
      if p(s[0]) then [s[0]] + rest else rest
  }

  /** Filtering keeps each element at most as often as it occurs. */
  lemma {:induction false} FilterSubMultiset<T>(s: seq<T>, p: T -> bool)
    ensures multiset(Filter(s, p)) <= multiset(s)
  {
    if |s| > 0 {
      FilterSubMultiset(s[1..], p);
      assert s == [s[0]] + s[1..];
    }
  }

  /** Filtering keeps every copy of a passing element and no copy of a failing one. */
  lemma {:induction false} FilterCount<T>(s: seq<T>, p: T -> bool, x: T)
    ensures multiset(Filter(s, p))[x] == if p(x) then multiset(s)[x] else 0
  {
    if |s| > 0 {
      FilterCount(s[1..], p, x);
      assert s == [s[0]] + s[1..];
    }
  }

  lemma FilterCounts<T>(s: seq<T>, p: T -> bool)
    ensures forall x :: multiset(Filter(s, p))[x] == if p(x) then multiset(s)[x] else 0
  {
    forall x
      ensures multiset(Filter(s, p))[x] == if p(x) then multiset(s)[x] else 0
    {
      FilterCount(s, p, x);
    }
  }

  /** `f` applied to each element of `s`, keeping the defined results in order. */
  function Collect<S, T>(s: seq<S>, f: S -> Option<T>): (r: seq<T>)
    ensures |r| <= |s|
  {
    if s == [] then []
    else
      var rest := Collect(s[..|s| - 1], f);
      match f(s[|s| - 1])
      case None => rest
      case Some(y) => rest + [y]
  }

  /** Every defined result is collected. */
  lemma {:induction false} CollectCover<S, T>(s: seq<S>, f: S -> Option<T>, i: nat)
    requires i < |s| && f(s[i]).Some?
    ensures f(s[i]).value in Collect(s, f)
  {
    var n := |s|;
    if i < n - 1 {
      assert s[..n - 1][i] == s[i];
      CollectCover(s[..n - 1], f, i);
    }
  }

  /** Everything collected is the result for some element. */
  lemma {:induction false} CollectSound<S, T>(s: seq<S>, f: S -> Option<T>, y: T)
    requires y in Collect(s, f)
    ensures exists i :: 0 <= i < |s| && f(s[i]) == Some(y)
  {
    var n := |s|;
    var init := s[..n - 1];
    if y in Collect(init, f) {
      CollectSound(init, f, y);
      var i :| 0 <= i < |init| && f(init[i]) == Some(y);
      assert init[i] == s[i];
    } else {
      assert f(s[n - 1]) == Some(y);
    }
  }

  lemma FilterMembers<T>(s: seq<T>, p: T -> bool)
    ensures forall x :: x in Filter(s, p) <==> x in s && p(x)
  {
    var r := Filter(s, p);
    forall x | x in r
      ensures x in s && p(x)
    {
      var k :| 0 <= k < |r| && r[k] == x;
    }
  }

  lemma {:induction false} FilterAppend<T>(s: seq<T>, x: T, p: T -> bool)
    ensures Filter(s + [x], p) == if p(x) then Filter(s, p) + [x] else Filter(s, p)
  {
    if |s| == 0 {
      assert s + [x] == [x];
      assert ([x])[1..] == [];
    } else {
      assert (s + [x])[1..] == s[1..] + [x];
      FilterAppend(s[1..], x, p);
    }
  }

  /** Both conditions at once. */
  function Both<T>(p: T -> bool, q: T -> bool): T -> bool {
    (x: T) => p(x) && q(x)
  }

  /** Filtering twice is filtering once by both conditions. */
  lemma {:induction false} FilterFilter<T>(s: seq<T>, p: T -> bool, q: T -> bool)
    ensures Filter(Filter(s, p), q) == Filter(s, Both(p, q))
  {
    if |s| > 0 {
      FilterFilter(s[1..], p, q);
      var rest := Filter(s[1..], p);
      if p(s[0]) {
        assert Filter(s, p) == [s[0]] + rest;
        assert ([s[0]] + rest)[1..] == rest;
      }
    }
  }

  lemma {:induction false} FilterAll<T>(s: seq<T>, p: T -> bool)
    requires forall i :: 0 <= i < |s| ==> p(s[i])
    ensures Filter(s, p) == s
  {
    if |s| > 0 {
      FilterAll(s[1..], p);
    }
  }

  lemma {:induction false} FilterNone<T>(s: seq<T>, p: T -> bool)
    requires forall i :: 0 <= i < |s| ==> !p(s[i])
    ensures Filter(s, p) == []
  {
    if |s| > 0 {
      FilterNone(s[1..], p);
    }
  }

  /** Filtering with two predicates that agree on every element gives the same result. */
  lemma {:induction false} FilterCongruent<T>(s: seq<T>, p: T -> bool, q: T -> bool)
    requires forall i :: 0 <= i < |s| ==> p(s[i]) == q(s[i])
    ensures Filter(s, p) == Filter(s, q)
  {
    if |s| > 0 {
      FilterCongruent(s[1..], p, q);
    }
  }

  /** Replacing an element by one that `p` treats the same way only replaces it in the result. */
  lemma {:induction false} FilterUpdateOutside<T>(s: seq<T>, i: nat, x: T, p: T -> bool)
    requires i < |s| && !p(s[i]) && !p(x)
    ensures Filter(s[i := x], p) == Filter(s, p)
  {
    if i == 0 {
      assert s[i := x][1..] == s[1..];
    } else {
      assert s[i := x][1..] == s[1..][i - 1 := x];
      FilterUpdateOutside(s[1..], i - 1, x, p);
    }
  }

  /** Removing an element `p` rejects does not change the result. */
  lemma {:induction false} FilterRemoveOutside<T>(s: seq<T>, i: nat, p: T -> bool)
    requires i < |s| && !p(s[i])
    ensures Filter(s[..i] + s[i + 1..], p) == Filter(s, p)
  {
    if i == 0 {
      assert s[..0] + s[1..] == s[1..];
    } else {
      assert (s[..i] + s[i + 1..])[1..] == s[1..][..i - 1] + s[1..][i..];
      assert (s[..i] + s[i + 1..])[0] == s[0];
      FilterRemoveOutside(s[1..], i - 1, p);
    }
  }

  /** No two elements share a key: the unique indexes of the schemas. */
  ghost predicate UniqueBy<T, K>(s: seq<T>, key: T -> K) {
    forall i, j :: 0 <= i < j < |s| ==> key(s[i]) != key(s[j])
  }

  /** An element appended after elements that all fail `p` is the first match. */
  lemma FindFirstAppend<T>(s: seq<T>, x: T, p: T -> bool)
    requires forall j :: 0 <= j < |s| ==> !p(s[j])
    requires p(x)
    ensures FindFirst(s + [x], p) == Some(|s|)
  {
    var t := s + [x];
    assert forall j :: 0 <= j < |s| ==> t[j] == s[j];
    assert t[|s|] == x;
  }

  /** True when some element of `s` already has key `k`. */
  predicate HasKey<T, K(==)>(s: seq<T>, key: T -> K, k: K) {
    exists i :: 0 <= i < |s| && key(s[i]) == k
  }

  /** True when an element other than the one at `i` has key `k`: the unique-index clash of
      rewriting the document at `i`. */
  predicate KeyElsewhere<T, K(==)>(s: seq<T>, i: nat, key: T -> K, k: K) {
    exists j :: 0 <= j < |s| && j != i && key(s[j]) == k
  }

  lemma UniqueByAppend<T, K>(s: seq<T>, x: T, key: T -> K)
    requires UniqueBy(s, key)
    requires forall i :: 0 <= i < |s| ==> key(s[i]) != key(x)
    ensures UniqueBy(s + [x], key)
  {
    var t := s + [x];
    forall i, j | 0 <= i < j < |t|
      ensures key(t[i]) != key(t[j])
    {
      if j == |s| {
        assert t[i] == s[i];
      } else {
        assert t[i] == s[i] && t[j] == s[j];
      }
    }
  }

  lemma UniqueByUpdate<T, K>(s: seq<T>, i: nat, x: T, key: T -> K)
    requires UniqueBy(s, key) && i < |s| && key(x) == key(s[i])
    ensures UniqueBy(s[i := x], key)
  {
    var t := s[i := x];
    forall a, b | 0 <= a < b < |t|
      ensures key(t[a]) != key(t[b])
    {
      assert key(t[a]) == key(s[a]) && key(t[b]) == key(s[b]);
    }
  }

  /** Rewriting the element at `i` with a key no other element has keeps keys unique. */
  lemma UniqueByReplace<T, K>(s: seq<T>, i: nat, x: T, key: T -> K)
    requires UniqueBy(s, key) && i < |s| && !KeyElsewhere(s, i, key, key(x))
    ensures UniqueBy(s[i := x], key)
  {
    var t := s[i := x];
    forall a, b | 0 <= a < b < |t|
      ensures key(t[a]) != key(t[b])
    {
      if a == i {
        assert t[b] == s[b];
      } else if b == i {
        assert t[a] == s[a];
      } else {
        assert t[a] == s[a] && t[b] == s[b];
      }
    }
  }

  lemma UniqueByRemove<T, K>(s: seq<T>, i: nat, key: T -> K)
    requires UniqueBy(s, key) && i < |s|
    ensures UniqueBy(s[..i] + s[i + 1..], key)
  {
    var t := s[..i] + s[i + 1..];
    forall a, b | 0 <= a < b < |t|
      ensures key(t[a]) != key(t[b])
    {
      var a' := if a < i then a else a + 1;
      var b' := if b < i then b else b + 1;
      assert t[a] == s[a'] && t[b] == s[b'];
    }
  }

  /** Removing the element at `i` of a key-unique sequence removes its key and keeps every
      element with another key. */
  lemma RemoveAtExact<T, K>(s: seq<T>, i: nat, key: T -> K)
    requires UniqueBy(s, key) && i < |s|
    ensures forall x :: x in s[..i] + s[i + 1..] ==> key(x) != key(s[i])
    ensures forall x :: x in s && key(x) != key(s[i]) ==> x in s[..i] + s[i + 1..]
  {
    var t := s[..i] + s[i + 1..];
    forall x | x in t
      ensures key(x) != key(s[i])
    {
      var j :| 0 <= j < |t| && t[j] == x;
      if j < i {
        assert t[j] == s[j];
      } else {
        assert t[j] == s[j + 1];
      }
    }
    forall x | x in s && key(x) != key(s[i])
      ensures x in t
    {
      var j :| 0 <= j < |s| && s[j] == x;
      if j < i { assert t[j] == x; } else { assert t[j - 1] == x; }
    }
  }

  lemma {:induction false} UniqueByFilter<T, K>(s: seq<T>, p: T -> bool, key: T -> K)
    requires UniqueBy(s, key)
    ensures UniqueBy(Filter(s, p), key)
  {
    if |s| > 0 {
      var tail := s[1..];
      UniqueByTail(s, key);
      UniqueByFilter(tail, p, key);
      var rest := Filter(tail, p);
      if p(s[0]) {
        forall y | y in rest
          ensures key(y) != key(s[0])
        {
          var k :| 0 <= k < |tail| && tail[k] == y;
          assert s[k + 1] == y;
        }
        UniqueByPrepend(s[0], rest, key);
      }
    }
  }

  lemma UniqueByTail<T, K>(s: seq<T>, key: T -> K)
    requires UniqueBy(s, key) && |s| > 0
    ensures UniqueBy(s[1..], key)
  {
    var tail := s[1..];
    forall i, j | 0 <= i < j < |tail|
      ensures key(tail[i]) != key(tail[j])
    {
      assert tail[i] == s[i + 1] && tail[j] == s[j + 1];
    }
  }

  lemma UniqueByPrepend<T, K>(x: T, rest: seq<T>, key: T -> K)
    requires UniqueBy(rest, key)
    requires forall y :: y in rest ==> key(y) != key(x)
    ensures UniqueBy([x] + rest, key)
  {
    var t := [x] + rest;
    forall a, b | 0 <= a < b < |t|
      ensures key(t[a]) != key(t[b])
    {
      assert t[b] == rest[b - 1];
      if a > 0 {
        assert t[a] == rest[a - 1];
      }
    }
  }

  /** `s` is ordered by `key`, largest first. */
  ghost predicate SortedDesc<T>(s: seq<T>, key: T -> int) {
    forall i, j :: 0 <= i < j < |s| ==> key(s[i]) >= key(s[j])
  }

  function InsertDesc<T>(x: T, s: seq<T>, key: T -> int): (r: seq<T>)
    ensures multiset(r) == multiset(s) + multiset{x}
    ensures |r| == |s| + 1
    ensures r[0] == x || (|s| > 0 && r[0] == s[0])
  {
    if |s| == 0 then [x]
    else if key(x) >= key(s[0]) then [x] + s
    else
      var rest := InsertDesc(x, s[1..], key);
      assert s == [s[0]] + s[1..];
      [s[0]] + rest
  }

  /** Inserting into a sorted sequence keeps it sorted. */
  lemma {:induction false} InsertDescSorted<T>(x: T, s: seq<T>, key: T -> int)
    requires SortedDesc(s, key)
    ensures SortedDesc(InsertDesc(x, s, key), key)
  {
    if |s| > 0 && key(x) < key(s[0]) {
      InsertDescSorted(x, s[1..], key);
      var rest := InsertDesc(x, s[1..], key);
      var r := InsertDesc(x, s, key);
      assert r == [s[0]] + rest;
      assert key(rest[0]) <= key(s[0]);
      forall i, j | 0 <= i < j < |r|
        ensures key(r[i]) >= key(r[j])
      {
        if i > 0 {
          assert r[i] == rest[i - 1] && r[j] == rest[j - 1];
        } else if j > 1 {
          assert r[j] == rest[j - 1];
          assert key(rest[0]) >= key(rest[j - 1]);
        }
      }
    }
  }

  /** Stable insertion sort, largest key first: of two elements with equal keys the
      earlier one stays first, as the stable `Array.prototype.sort` does. */
  function SortDesc<T>(s: seq<T>, key: T -> int): (r: seq<T>)
    ensures SortedDesc(r, key)
    ensures multiset(r) == multiset(s)
    ensures |r| == |s|
  {
    if |s| == 0 then []
    else
      assert s == [s[0]] + s[1..];
      InsertDescSorted(s[0], SortDesc(s[1..], key), key);
      InsertDesc(s[0], SortDesc(s[1..], key), key)
  }

  lemma SortDescMembers<T>(s: seq<T>, key: T -> int)
    ensures forall x :: x in SortDesc(s, key) <==> x in s
  {
    var r := SortDesc(s, key);
    forall x
      ensures x in r <==> x in s
    {
      assert x in r <==> x in multiset(r);
      assert x in s <==> x in multiset(s);
    }
  }

  /** `parseInt(q) || default`: an absent, unparsable or zero parameter takes the default. */
  function OrDefault(q: Option<int>, default: int): (r: int)
    requires default != 0
    ensures r != 0
    ensures q.Some? && q.value != 0 ==> r == q.value
    ensures q.None? ==> r == default
  {
    if q.Some? && q.value != 0 then q.value else default
  }

  /** `Math.ceil(total / limit)` in exact arithmetic, for a non-zero limit of either sign. */
  function CeilDiv(total: nat, limit: int): (r: int)
    requires limit != 0
    ensures limit > 0 ==> (r - 1) * limit < total <= r * limit
    ensures limit < 0 ==> r * limit <= total < (r - 1) * limit
  {
    if limit > 0 then
      var q := (total + limit - 1) / limit;
      DivBounds(total + limit - 1, limit);
      q
    else
      var q := total / (-limit);
      DivBounds(total, -limit);
      -q
  }

  lemma DivBounds(a: int, b: int)
    requires b > 0
    ensures (a / b) * b <= a < (a / b) * b + b
  {
  }

  /** How many of `total` items a window skipping `skip` and taking up to `count` holds. */
  function PageLength(total: nat, skip: int, count: nat): nat {
    if skip >= total then 0 else if count < total - skip then count else total - skip
  }

  /** The documents `.skip(skip).limit(count)` returns: at most `count` of them, starting
      at position `skip`. */
  function Window<T>(s: seq<T>, skip: nat, count: nat): (r: seq<T>)
    ensures |r| == PageLength(|s|, skip, count)
    ensures forall i :: 0 <= i < |r| ==> skip + i < |s| && r[i] == s[skip + i]
  {
    if skip >= |s| then []
    else if count < |s| - skip then s[skip..skip + count]
    else s[skip..]
  }

  /** The number of documents `.skip` passes over for the query parameters `page` and
      `limit` (defaults 1 and 10): `(page - 1) * limit`. */
  function SkipOf(pageQ: Option<int>, limitQ: Option<int>): int {
    (OrDefault(pageQ, 1) - 1) * OrDefault(limitQ, 10)
  }

  /** The `pagination` object of a paged list answer. */
  datatype Pagination = Pagination(page: int, limit: int, total: nat, pages: int)

  /** One page of `sorted` for the query parameters `page` and `limit` (defaults 1 and 10).
      MongoDB rejects a negative skip, which the handlers' catch turns into a 500; a
      negative limit returns at most |limit| documents in a single batch. */
  function Paginate<T>(sorted: seq<T>, pageQ: Option<int>, limitQ: Option<int>)
    : (r: Result<(seq<T>, Pagination)>)
    ensures var page := OrDefault(pageQ, 1); var limit := OrDefault(limitQ, 10);
      var skip := SkipOf(pageQ, limitQ);
      && (r.Err? <==> skip < 0)
      && (r.Err? ==> r.error.ServerError?)
      && (r.Ok? ==>
            && r.value.1 == Pagination(page, limit, |sorted|, CeilDiv(|sorted|, limit))
            && |r.value.0| <= (if limit < 0 then -limit else limit)
            && |r.value.0| == PageLength(|sorted|, skip, if limit < 0 then -limit else limit)
            && forall i :: 0 <= i < |r.value.0| ==>
                 skip + i < |sorted| && r.value.0[i] == sorted[skip + i])
  {
    var page := OrDefault(pageQ, 1);
    var limit := OrDefault(limitQ, 10);
    var skip := SkipOf(pageQ, limitQ);
    if skip < 0 then Err(ServerError("skip value must be non-negative"))
    else
      var count := if limit < 0 then -limit else limit;
      Ok((Window(sorted, skip, count), Pagination(page, limit, |sorted|, CeilDiv(|sorted|, limit))))
  }

  /** A page of a sequence sorted by descending key is itself sorted by descending key,
      and holds only elements of the sequence. */
  lemma PageOfSorted<T>(sorted: seq<T>, pageQ: Option<int>, limitQ: Option<int>, key: T -> int)
    requires SortedDesc(sorted, key)
    requires Paginate(sorted, pageQ, limitQ).Ok?
    ensures var page := Paginate(sorted, pageQ, limitQ).value.0;
      && SortedDesc(page, key)
      && forall i :: 0 <= i < |page| ==> page[i] in sorted
  {
    var limit := OrDefault(limitQ, 10);
    WindowOfSorted(sorted, SkipOf(pageQ, limitQ), if limit < 0 then -limit else limit, key);
  }

  /** A contiguous window of a sequence sorted by descending key keeps that order. */
  lemma WindowOfSorted<T>(sorted: seq<T>, skip: nat, count: nat, key: T -> int)
    requires SortedDesc(sorted, key)
    ensures var w := Window(sorted, skip, count);
      && SortedDesc(w, key)
      && forall i :: 0 <= i < |w| ==> w[i] in sorted
  {
    var w := Window(sorted, skip, count);
    forall i, j | 0 <= i < j < |w|
      ensures key(w[i]) >= key(w[j])
    {
      assert w[i] == sorted[skip + i] && w[j] == sorted[skip + j];
    }
    forall i | 0 <= i < |w|
      ensures w[i] in sorted
    {
      assert w[i] == sorted[skip + i];
    }
  }

  /** A position of `x` in `s`. */
  lemma IndexIn<T>(s: seq<T>, x: T) returns (j: nat)
    requires x in multiset(s)
    ensures j < |s| && s[j] == x
  {
    j :| 0 <= j < |s| && s[j] == x;
  }

  /** Taking out the element at `j` takes one copy of it out of the multiset. */
  lemma RemoveAtMultiset<T>(s: seq<T>, j: nat)
    requires j < |s|
    ensures multiset(s[..j] + s[j + 1..]) == multiset(s) - multiset{s[j]}
  {
    assert s == s[..j] + [s[j]] + s[j + 1..];
  }

  /** Two reorderings of each other stay so once a shared element is taken out of each. */
  lemma PermutationRest<T>(a: seq<T>, b: seq<T>, j: nat)
    requires a != [] && j < |b| && b[j] == a[0] && multiset(a) == multiset(b)
    ensures multiset(a[1..]) == multiset(b[..j] + b[j + 1..])
  {
    RemoveAtMultiset(a, 0);
    RemoveAtMultiset(b, j);
    assert a[..0] + a[1..] == a[1..];
  }
  /** `f` applied to each element, in order. */
  function MapSeq<T, U>(s: seq<T>, f: T -> U): (r: seq<U>)
    ensures |r| == |s| && forall i :: 0 <= i < |s| ==> r[i] == f(s[i])
  {
    seq(|s|, i requires 0 <= i < |s| => f(s[i]))
  }

  lemma MapAppend<T, U>(a: seq<T>, b: seq<T>, f: T -> U)
    ensures MapSeq(a + b, f) == MapSeq(a, f) + MapSeq(b, f)
  {
    assert forall i :: 0 <= i < |a + b| ==> MapSeq(a + b, f)[i] == (MapSeq(a, f) + MapSeq(b, f))[i];
  }

  /** The image of a sequence is the image without its `j`th element, plus that element's. */
  lemma MapRemoveAt<T, U>(s: seq<T>, j: nat, f: T -> U)
    requires j < |s|
    ensures multiset(MapSeq(s, f)) == multiset(MapSeq(s[..j] + s[j + 1..], f)) + multiset{f(s[j])}
  {
    assert s == s[..j] + [s[j]] + s[j + 1..];
    MapAppend(s[..j] + [s[j]], s[j + 1..], f);
    MapAppend(s[..j], [s[j]], f);
    MapAppend(s[..j], s[j + 1..], f);
  }

  /** Reordering a sequence reorders its image, keeping each value as often as before. */
  lemma {:induction false} MapPermutation<T, U>(a: seq<T>, b: seq<T>, f: T -> U)
    requires multiset(a) == multiset(b)
    ensures multiset(MapSeq(a, f)) == multiset(MapSeq(b, f))
    decreases |a|
  {
    if a == [] {
      assert |multiset(b)| == 0;
    } else {
      var j := IndexIn(b, a[0]);
      PermutationRest(a, b, j);
      MapPermutation(a[1..], b[..j] + b[j + 1..], f);
      MapPermutationStep(a, b, j, f);
    }
  }

  /** Matching the first element of `a` with the `j`th of `b` extends a match of the rests. */
  lemma MapPermutationStep<T, U>(a: seq<T>, b: seq<T>, j: nat, f: T -> U)
    requires a != [] && j < |b| && b[j] == a[0]
    requires multiset(MapSeq(a[1..], f)) == multiset(MapSeq(b[..j] + b[j + 1..], f))
    ensures multiset(MapSeq(a, f)) == multiset(MapSeq(b, f))
  {
    MapRemoveAt(a, 0, f);
    assert a[..0] + a[1..] == a[1..];
    MapRemoveAt(b, j, f);
  }
}

=== FILE: users.dfy ===
/** The account handlers of controllers/userController.js: registration with its duplicate
    check and default role, login with one answer for every failure, the profile read and
    its two-field update, and the enrolled-course list with its self-or-admin rule.
    Password hashing and comparison, the `isEmail` check and the `normalizeEmail`
    sanitiser are parameters. */
module Users {
  import opened Outcomes
  import opened Seqs
  import opened Schema
  import Enrollments

  const ValidationErrors := "Validation errors"
  const EmailTaken := "User with this email already exists"
  const BadCredentials := "Invalid email or password"
  const AccessDenied := "Access denied"
  const UserNotFound := "User not found"
  /** Mongoose's message when `save` fails a path validator of the User model. */
  const UserValidationFailed := "User validation failed"
  /** Mongoose's message when an update fails a validator (`runValidators: true`). */
  const UpdateValidationFailed := "Validation failed"

  /** A user as answered with `select('-password')`: every path but the password. */
  datatype PublicUser = PublicUser(
    id: Id,
    userId: string,
    name: string,
    email: string,
    role: Role,
    enrolledCourses: seq<EnrolledCourse>,
    avatar: string,
    isActive: bool,
    createdAt: Time)

  function Public(u: User): PublicUser {
    PublicUser(u.id, u.userId, u.name, u.email, u.role, u.enrolledCourses, u.avatar, u.isActive, u.createdAt)
  }

  /** The public view does not depend on the stored password. */
  lemma PublicIgnoresPassword(u: User, h: string)
    ensures Public(u.(passwordHash := h)) == Public(u)
    ensures Public(u).id == u.id && Public(u).email == u.email && Public(u).role == u.role
  {
  }

  /** The `user` object of the register and login answers: five paths, built by hand. */
  datatype Account = Account(id: Id, userId: string, name: string, email: string, role: Role)

  function AccountOf(u: User): Account {
    Account(u.id, u.userId, u.name, u.email, u.role)
  }

  function WithEmail(email: string): User -> bool {
    (u: User) => u.email == email
  }

  // ---------------------------------------------------------------- register

  datatype RegisterBody = RegisterBody(name: string, email: string, password: string, role: Option<string>)

  /** The validator chain of POST /users/register: the trimmed name has at least two
      characters, the email passes `isEmail`, the password has at least six characters
      (both as `isLength` counts them), and a role, when present, is one of the three role
      names. */
  predicate RegisterValid(b: RegisterBody, emailOk: bool) {
    && ValidatorLength(Trim(b.name)) >= 2
    && emailOk
    && ValidatorLength(b.password) >= 6
    && (b.role.Some? ==> ParseRole(b.role.value).Some?)
  }

  /** `role || 'student'`. */
  function RoleOrDefault(role: Option<string>): Role {
    if role.Some? && ParseRole(role.value).Some? then ParseRole(role.value).value else Student
  }

  /** The email key a body's address is looked up and stored under: the sanitiser's
      result passed through the schema's `lowercase` and `trim` setters, which Mongoose
      also applies to query values. */
  function EmailKey(email: string, normalizeEmail: string -> string): string {
    StoredEmail(normalizeEmail(email))
  }

  /** The document `register` saves: the schema defaults, and the role `student` unless
      the body names one. */
  function NewUser(b: RegisterBody, email: string, hash: string -> string, oid: Id, uuid: Uuid, now: Time)
    : (u: User)
    requires b.role.Some? ==> ParseRole(b.role.value).Some?
    ensures u.id == oid && u.userId == uuid && u.createdAt == now && u.email == email
    ensures u.name == Trim(b.name) && u.passwordHash == hash(b.password)
    ensures b.role.None? ==> u.role == Student
    ensures b.role.Some? ==> RoleName(u.role) == b.role.value
    ensures u.enrolledCourses == [] && u.avatar == "" && u.isActive
  {
    User(oid, uuid, Trim(b.name), email, hash(b.password), RoleOrDefault(b.role), [], "", true, now)
  }

  /** POST /users/register: validation errors and a taken email answer 400 and write
      nothing; otherwise one user is stored with role `student` unless one was given. */
  function Register(s: Store, b: RegisterBody, emailOk: bool, normalizeEmail: string -> string,
                    hash: string -> string, oid: Id, uuid: Uuid, now: Time)
    : (r: Result<Reply<Store, Account>>)
    ensures !RegisterValid(b, emailOk) <==> r == Err(BadRequest(ValidationErrors))
    ensures RegisterValid(b, emailOk) && HasKey(s.users, UserEmail, EmailKey(b.email, normalizeEmail)) ==>
      r == Err(BadRequest(EmailTaken))
    ensures RegisterValid(b, emailOk) && !HasKey(s.users, UserEmail, EmailKey(b.email, normalizeEmail)) ==>
      var email := EmailKey(b.email, normalizeEmail);
      var taken := HasKey(s.users, UserOid, oid) || HasKey(s.users, UserUuid, uuid);
      && (email == "" <==> r == Err(BadRequest(UserValidationFailed)))
      && (email != "" ==> (taken <==> r == Err(BadRequest(DuplicateKey))))
      && (email != "" && !taken ==> r.Ok?)
    ensures r.Err? ==> r.error.BadRequest?
    ensures r.Ok? ==> RegisterValid(b, emailOk)
    ensures r.Ok? ==>
      var u := NewUser(b, EmailKey(b.email, normalizeEmail), hash, oid, uuid, now);
      && !HasKey(s.users, UserEmail, u.email)
      && r.value.store == s.(users := s.users + [u])
      && r.value.data == AccountOf(u)
  {
    if !RegisterValid(b, emailOk) then Err(BadRequest(ValidationErrors))
    else
      var email := EmailKey(b.email, normalizeEmail);
      if HasKey(s.users, UserEmail, email) then Err(BadRequest(EmailTaken))
      else if email == "" then Err(BadRequest(UserValidationFailed))
      else if HasKey(s.users, UserOid, oid) || HasKey(s.users, UserUuid, uuid) then Err(BadRequest(DuplicateKey))
      else
        var u := NewUser(b, email, hash, oid, uuid, now);
        Ok(Reply(s.(users := s.users + [u]), AccountOf(u)))
  }

  lemma RegisterPreservesInv(s: Store, b: RegisterBody, emailOk: bool, normalizeEmail: string -> string,
                             hash: string -> string, oid: Id, uuid: Uuid, now: Time)
    requires StoreInv(s)
    requires Register(s, b, emailOk, normalizeEmail, hash, oid, uuid, now).Ok?
    ensures StoreInv(Register(s, b, emailOk, normalizeEmail, hash, oid, uuid, now).value.store)
  {
    var email := EmailKey(b.email, normalizeEmail);
    var u := NewUser(b, email, hash, oid, uuid, now);
    TrimIdempotent(b.name);
    StoredEmailIdempotent(normalizeEmail(b.email));
    UsersInvAppend(s.users, u);
  }

  /** Once an address is registered, registering it again is refused. */
  lemma RegisterTwiceFails(s: Store, b: RegisterBody, emailOk: bool, normalizeEmail: string -> string,
                           hash: string -> string, oid: Id, uuid: Uuid, now: Time,
                           b2: RegisterBody, oid2: Id, uuid2: Uuid, now2: Time)
    requires Register(s, b, emailOk, normalizeEmail, hash, oid, uuid, now).Ok?
    requires RegisterValid(b2, emailOk)
    requires EmailKey(b2.email, normalizeEmail) == EmailKey(b.email, normalizeEmail)
    ensures var t := Register(s, b, emailOk, normalizeEmail, hash, oid, uuid, now).value.store;
      Register(t, b2, emailOk, normalizeEmail, hash, oid2, uuid2, now2) == Err(BadRequest(EmailTaken))
  {
    var t := Register(s, b, emailOk, normalizeEmail, hash, oid, uuid, now).value.store;
    var n := |t.users| - 1;
    assert UserEmail(t.users[n]) == EmailKey(b2.email, normalizeEmail);
  }

  // ---------------------------------------------------------------- login

  datatype LoginBody = LoginBody(email: string, password: string)

  /** The validator chain of POST /users/login: the email passes `isEmail` and a password
      is given. */
  predicate LoginValid(b: LoginBody, emailOk: bool) {
    emailOk && b.password != ""
  }

  /** POST /users/login: an unknown address and a wrong password get the same 401, so the
      answer does not reveal which addresses are registered. Login writes nothing;
      `matches(password, stored)` is the bcrypt comparison. */
  function Login(s: Store, b: LoginBody, emailOk: bool, normalizeEmail: string -> string,
                 matches: (string, string) -> bool)
    : (r: Result<Account>)
    ensures !LoginValid(b, emailOk) <==> r == Err(BadRequest(ValidationErrors))
    ensures LoginValid(b, emailOk) && r.Err? ==> r == Err(Unauthorized(BadCredentials))
    ensures LoginValid(b, emailOk) && !HasKey(s.users, UserEmail, EmailKey(b.email, normalizeEmail)) ==>
      r == Err(Unauthorized(BadCredentials))
    ensures r.Ok? ==> exists i :: (0 <= i < |s.users|
      && s.users[i].email == EmailKey(b.email, normalizeEmail)
      && matches(b.password, s.users[i].passwordHash)
      && r.value == AccountOf(s.users[i]))
  {
    if !LoginValid(b, emailOk) then Err(BadRequest(ValidationErrors))
    else
      match FindFirst(s.users, WithEmail(EmailKey(b.email, normalizeEmail)))
      case None => Err(Unauthorized(BadCredentials))
      case Some(i) =>
        if !matches(b.password, s.users[i].passwordHash) then Err(Unauthorized(BadCredentials))
        else Ok(AccountOf(s.users[i]))
  }

  /** With unique addresses, login succeeds exactly for the registered address and a
      password the comparison accepts against that user's stored hash. */
  lemma LoginExact(s: Store, b: LoginBody, emailOk: bool, normalizeEmail: string -> string,
                   matches: (string, string) -> bool, i: nat)
    requires UniqueBy(s.users, UserEmail) && LoginValid(b, emailOk)
    requires i < |s.users| && s.users[i].email == EmailKey(b.email, normalizeEmail)
    ensures Login(s, b, emailOk, normalizeEmail, matches).Ok? <==> matches(b.password, s.users[i].passwordHash)
    ensures Login(s, b, emailOk, normalizeEmail, matches).Ok? ==>
      Login(s, b, emailOk, normalizeEmail, matches).value == AccountOf(s.users[i])
  {
    var k := FindFirst(s.users, WithEmail(EmailKey(b.email, normalizeEmail)));
    assert WithEmail(EmailKey(b.email, normalizeEmail))(s.users[i]);
  }

  /** A freshly registered user can log in with the same address and password. */
  lemma RegisterThenLogin(s: Store, b: RegisterBody, emailOk: bool, normalizeEmail: string -> string,
                          hash: string -> string, oid: Id, uuid: Uuid, now: Time,
                          matches: (string, string) -> bool)
    requires Register(s, b, emailOk, normalizeEmail, hash, oid, uuid, now).Ok?
    requires matches(b.password, hash(b.password))
    ensures var reply := Register(s, b, emailOk, normalizeEmail, hash, oid, uuid, now).value;
      Login(reply.store, LoginBody(b.email, b.password), emailOk, normalizeEmail, matches) == Ok(reply.data)
  {
    var email := EmailKey(b.email, normalizeEmail);
    var u := NewUser(b, email, hash, oid, uuid, now);
    forall j | 0 <= j < |s.users|
      ensures !WithEmail(email)(s.users[j])
    {
      assert UserEmail(s.users[j]) != email;
    }
    FindFirstAppend(s.users, u, WithEmail(email));
  }

  // ---------------------------------------------------------------- profile

  /** GET /users/profile as written: the caller's document, and null when it no longer
      exists. The query selects every path, the password hash included, because the
      schema does not mark the password `select: false`. */
  function GetUserProfile(s: Store, callerId: Id): (r: Option<User>)
    ensures r.None? <==> FindUser(s.users, callerId).None?
    ensures r.Some? ==> r.value == s.users[FindUser(s.users, callerId).value] && r.value.id == callerId
  {
    match FindUser(s.users, callerId)
    case None => None
    case Some(i) => Some(s.users[i])
  }

  /** The profile answer carries the stored password hash. */
  lemma ProfileExposesPasswordHash(s: Store, i: nat)
    requires UniqueBy(s.users, UserOid) && i < |s.users|
    ensures GetUserProfile(s, s.users[i].id).Some?
    ensures GetUserProfile(s, s.users[i].id).value.passwordHash == s.users[i].passwordHash
  {
    var k := FindUser(s.users, s.users[i].id).value;
  }

  /** The profile without the password, as the handlers that select `-password` answer. */
  function GetPublicProfile(s: Store, callerId: Id): (r: Option<PublicUser>)
    ensures r.None? <==> FindUser(s.users, callerId).None?
    ensures r.Some? ==> r.value == Public(s.users[FindUser(s.users, callerId).value]) && r.value.id == callerId
  {
    match FindUser(s.users, callerId)
    case None => None
    case Some(i) => Some(Public(s.users[i]))
  }

  /** Nothing about the stored password can be read from the public profile: changing the
      hash leaves the answer as it was. */
  lemma PublicProfileIgnoresPassword(s: Store, i: nat, h: string, callerId: Id)
    requires i < |s.users|
    ensures GetPublicProfile(s.(users := s.users[i := s.users[i].(passwordHash := h)]), callerId)
         == GetPublicProfile(s, callerId)
  {
    var t := s.users[i := s.users[i].(passwordHash := h)];
    assert forall j :: 0 <= j < |t| ==> t[j].id == s.users[j].id;
    var k := FindUser(s.users, callerId);
    var k2 := FindUser(t, callerId);
    if k.Some? {
      assert t[k.value].id == callerId;
    }
    if k2.Some? {
      assert s.users[k2.value].id == callerId;
    }
  }

  datatype ProfileBody = ProfileBody(name: Option<string>, avatar: Option<string>)

  /** The whitelisted update: name (through the `trim` setter) and avatar, each only when
      truthy. */
  function ApplyProfile(u: User, b: ProfileBody): User {
    u.(name := if Truthy(b.name) then Trim(b.name.value) else u.name,
       avatar := if Truthy(b.avatar) then b.avatar.value else u.avatar)
  }

  /** The update validators: a name that trims to nothing fails `required`. */
  predicate ProfileValid(b: ProfileBody) {
    Truthy(b.name) ==> Trim(b.name.value) != ""
  }

  /** PUT /users/profile: only `name` and `avatar` can change, and only when the body gives
      them a truthy value; a caller whose document is gone gets `data: null`. */
  function UpdateUserProfile(s: Store, callerId: Id, b: ProfileBody)
    : (r: Result<Reply<Store, Option<PublicUser>>>)
    ensures !ProfileValid(b) <==> r == Err(BadRequest(UpdateValidationFailed))
    ensures ProfileValid(b) && FindUser(s.users, callerId).None? ==> r == Ok(Reply(s, None))
    ensures r.Ok? ==> |r.value.store.users| == |s.users|
    ensures r.Ok? && FindUser(s.users, callerId).Some? ==>
      var i := FindUser(s.users, callerId).value; var u := s.users[i]; var v := r.value.store.users[i];
      && r.value.store == s.(users := s.users[i := v])
      && v == u.(name := v.name, avatar := v.avatar)
      && (Truthy(b.name) ==> v.name == Trim(b.name.value))
      && (!Truthy(b.name) ==> v.name == u.name)
      && (Truthy(b.avatar) ==> v.avatar == b.avatar.value)
      && (!Truthy(b.avatar) ==> v.avatar == u.avatar)
      && r.value.data == Some(Public(v))
  {
    if !ProfileValid(b) then Err(BadRequest(UpdateValidationFailed))
    else
      match FindUser(s.users, callerId)
      case None => Ok(Reply(s, None))
      case Some(i) =>
        var v := ApplyProfile(s.users[i], b);
        Ok(Reply(s.(users := s.users[i := v]), Some(Public(v))))
  }

  lemma UpdateProfilePreservesInv(s: Store, callerId: Id, b: ProfileBody)
    requires StoreInv(s)
    requires UpdateUserProfile(s, callerId, b).Ok?
    ensures StoreInv(UpdateUserProfile(s, callerId, b).value.store)
  {
    if FindUser(s.users, callerId).Some? {
      var i := FindUser(s.users, callerId).value;
      assert ValidUser(s.users[i]);
      TrimIdempotent(b.name.GetOr(""));
      UsersInvUpdate(s.users, i, ApplyProfile(s.users[i], b));
    }
  }

  /** Sending the same profile update twice leaves the store as sending it once. */
  lemma UpdateProfileIdempotent(s: Store, callerId: Id, b: ProfileBody)
    requires UpdateUserProfile(s, callerId, b).Ok?
    ensures var t := UpdateUserProfile(s, callerId, b).value.store;
      UpdateUserProfile(t, callerId, b).Ok? && UpdateUserProfile(t, callerId, b).value.store == t
  {
    var t := UpdateUserProfile(s, callerId, b).value.store;
    if FindUser(s.users, callerId).Some? {
      var i := FindUser(s.users, callerId).value;
      var v := ApplyProfile(s.users[i], b);
      FindUserUpdate(s.users, callerId, v);
      ApplyProfileIdempotent(s.users[i], b);
      assert t.users[i := v] == t.users;
    }
  }

  lemma ApplyProfileIdempotent(u: User, b: ProfileBody)
    ensures ApplyProfile(ApplyProfile(u, b), b) == ApplyProfile(u, b)
  {
    TrimIdempotent(b.name.GetOr(""));
  }

  // ---------------------------------------------------------------- enrolled courses

  /** GET /users/:userId/courses: a caller may list their own courses, an administrator
      anyone's. */
  function GetUserCourses(s: Store, callerId: Id, callerRole: Role, userId: Id)
    : (r: Result<seq<EnrolledCourse>>)
    ensures callerId != userId && callerRole != Admin <==> r == Err(Forbidden(AccessDenied))
    ensures (callerId == userId || callerRole == Admin) ==>
      (FindUser(s.users, userId).None? <==> r == Err(NotFound(UserNotFound)))
    ensures r.Ok? ==> r.value == s.users[FindUser(s.users, userId).value].enrolledCourses
  {
    if callerId != userId && callerRole != Admin then Err(Forbidden(AccessDenied))
    else
      match FindUser(s.users, userId)
      case None => Err(NotFound(UserNotFound))
      case Some(i) => Ok(s.users[i].enrolledCourses)
  }

  /** Enrolling shows up in the user's course list: exactly one entry for the course is
      appended to it. */
  lemma EnrollShowsInUserCourses(s: Store, userId: Id, courseId: Id, oid: Id, uuid: Uuid, now: Time,
                                 role: Role)
    requires Enrollments.EnrollInCourse(s, userId, courseId, oid, uuid, now).Ok?
    requires GetUserCourses(s, userId, role, userId).Ok?
    ensures var t := Enrollments.EnrollInCourse(s, userId, courseId, oid, uuid, now).value.store;
      GetUserCourses(t, userId, role, userId)
        == Ok(GetUserCourses(s, userId, role, userId).value + [EnrolledCourse(courseId, now)])
  {
    var t := Enrollments.EnrollInCourse(s, userId, courseId, oid, uuid, now).value.store;
    var k := FindUser(s.users, userId).value;
    assert t.users[k].id == userId;
    assert FindUser(t.users, userId) == Some(k) by {
      forall j | 0 <= j < k
        ensures t.users[j].id != userId
      {
        assert t.users[j] == s.users[j];
      }
    }
  }
}
